=== FILE: README.md ===
# SUPERASIACRM core in Dafny

A model of the data core of the SUPERASIACRM service-desk single page application
(`index.tsx`). The application keeps complaint records (service cases) for an appliance
service company. An administrator imports them from a spreadsheet, normalises their dates,
filters and pages them, and looks at today's work per technician and at analytics. A
technician sees the cases assigned to them, updates their status and remarks, and tracks a
daily goal.

The model covers:

- **Date normalisation.** `standardizeDate` turns spreadsheet cells into the canonical
  `DD-MM-YYYY[ HH:MM]` text. The cell may be a spreadsheet serial number in the band
  30000..60000, `d/m/y`-style text, or something the platform date parser reads. The other
  date helpers are `getPKDate`, `parseStandardDate`, `calculateAging` and `getTimeOnly`.
- **Records.** The record (`Complaint`) and the `updateCase` merge that both dashboards use.
  Also `addTimestamp`, the admin `load` that re-normalises stored dates and recomputes aging,
  and the import lookups `getProduct` and `matchTechnician`.
- **The admin dashboard.** The filtered list: today view, search, status, technician and
  date-range filters. Also pagination at 50 per page, today's stats grouped by technician,
  and the technician options.
- **The technician terminal.** My jobs, the status tabs, the daily goal and its progress bar.
- **The analytics dashboard.** Totals, completed, pending, the five largest products, the
  product bars and the completion percentage.

Modules:

| module | file | contents |
|---|---|---|
| `Wrappers` | wrappers.dfy | `Option` |
| `JsText` | js_text.dfy | the JavaScript string and number primitives the core relies on: trim, split, includes, case mapping, parseInt, parseFloat, number-to-string |
| `Calendar` | calendar.dfy | civil dates and day numbers; the `Date` constructor's month overflow and two-digit years; `setHours`; TimeClip |
| `DateNormalizer` | date_normalizer.dfy | standardizeDate, getPKDate, parseStandardDate, calculateAging, getTimeOnly |
| `Collections` | collections.dfy | filter, count, stable sort by key, code-unit string sort, dedup |
| `Grouping` | grouping.dfy | building a `Record<string, T[]>` by `push`, and `Object.entries` order |
| `Records` | records.dfy | Complaint, updateCase, addTimestamp, load, getProduct, matchTechnician |
| `Dashboard` | dashboard.dfy | today list, filters, pagination, today stats, technician options, analytics |
| `TechnicianView` | technician.dfy | my jobs, status tabs, today's goal, the terminal's update |

Conventions:

- Time values are whole milliseconds since the epoch, as in ECMAScript. The local time
  zone is taken to be UTC, so local and universal fields coincide. An Invalid Date is
  `TimeValue.Invalid`.
- Strings are sequences of UTF-16 code units, and case mapping is ASCII.
- Numbers read from text are exact decimals.
- The platform's free-form date parser (`new Date(s)` on text that is neither a serial nor
  three fields) is a parameter of type `FreeFormParser`.
- The stored collection, the product table and the technician roster are parameters.
- "Now" is a parameter: a time value, or the canonical text `getPKDate` produced from it.

On these points the model follows the code:

- Serial 45000 is 15-03-2023 (`Serial45000`). 25569 is the serial of 1970-01-01.
- "Today" holds when either the update date or the registration date starts with today's
  text, not just the first non-empty one.
- The date range keeps records whose registration date does not split into three `-` pieces.
  It drops records whose date splits into three pieces that make an Invalid Date
  (`Dashboard.Filtered`). The list that keeps them too is `Dashboard.FilteredCorrected`.
- `load` stores the aging as `calculateAging` computes it, NaN included (`Records.Cleaned`).
- The analytics figures have no revenue total.

## Model

| member | source | states |
|---|---|---|
| Records.Apply | index.tsx:607 | `{...c, ...partial, updateDate: today}`: the stamp always wins, and every other field is the patch's when it carries one |
| Records.MergeIdempotent | index.tsx:607 | spreading the same partial twice is spreading it once |
| Records.MergeRemarks | index.tsx:618-619 | a remarks-only partial changes the remarks and nothing else |
| Records.UpdateCase | index.tsx:605-609 | same length; rows with another id are unchanged; rows with the id become the merge, stamped with today |
| Records.UpdateCaseIdempotent | index.tsx:605-609 | repeating an update with the same partial and stamp changes nothing |
| Records.UpdateCaseKeepsIds | index.tsx:607 | a partial without an id leaves every id as it was |
| Records.UpdateSelected | index.tsx:610-612 | the open case is left alone unless its id is the one updated; then it becomes exactly the row updateCase makes of it |
| Records.SelectedStaysInSync | index.tsx:605-612 | a case opened from the list equals its row again after the update |
| Records.TimestampedRemarks | index.tsx:618 | the new remarks are the old ones, a line break, `[`, exactly the stamp, then `]: ` |
| Records.AddTimestamp | index.tsx:615-620 | nothing changes without an open case; otherwise exactly the rows with its id get the stamped remarks and today's update date |
| Records.TimestampUsesOpenCase | index.tsx:615-620 | the remarks written extend the open case's remarks, not the stored row's |
| Records.Cleaned | index.tsx:554-560 | a loaded record differs from the stored one only in its three dates, which are standardizeDate of the stored text, and its aging: NaN exactly when the registration date makes an Invalid Date, otherwise the whole days since it, never negative |
| Records.Load | index.tsx:552-562 | one cleaned record per stored record, in order |
| Records.LoadedDateShape | index.tsx:554-560 | every loaded date is empty, the stored text itself, or canonical text of a valid moment |
| Records.LoadDatesStable | index.tsx:552-562 | loading twice gives the same dates as loading once, for stored dates that are blank, unreadable, or read as a date in year 100 or later |
| Records.LoadAgingNeedsDashes | index.tsx:559 | a registration date without `-` always has aging 0, even when standardizeDate read it |
| Records.LoadAgingOfMalformedDate | index.tsx:559 | a record registered `a-b-c` is loaded with aging NaN |
| Records.GetProduct | index.tsx:20-24 | SPINNER exactly for the two spinner names anywhere in the key or a SPINNER table entry; otherwise the non-empty table entry, else GENERAL |
| Records.GetProductIgnoresCase | index.tsx:21 | upper-, lower- and mixed-case spellings of a model give the same product |
| Records.FindTechnician | index.tsx:29-33 | the first roster entry that resembles the name, or none when none does |
| Records.MatchTechnician | index.tsx:26-35 | UNASSIGNED for blank, UNASSIGNED and ---; otherwise the first resembling roster name, else the typed name upper-cased and trimmed |
| Records.RosterNameFindsItself | index.tsx:26-35 | a roster name typed exactly, with no earlier resembling entry, maps to itself |
| DateNormalizer.Normalize | index.tsx:87-128 | blank exactly for missing or empty input, or all-blank text outside the serial band; a number in the band is always read as a serial; anything accepted is a valid time |
| DateNormalizer.FractionalSerial | index.tsx:92-98 | a serial in the band is midnight of day serial - 25569 with the hour and minute of the rounded seconds of its fraction, when those fall short of a full day |
| DateNormalizer.FullDaySerial | index.tsx:95-98 | a fraction that rounds to 86400 seconds rolls over to midnight of the next day |
| DateNormalizer.StandardizeDate | index.tsx:87-142 | empty exactly for blank input; otherwise canonical text of a valid moment or the input's own text |
| DateNormalizer.StandardizeOfParsed | index.tsx:128-141 | a reading is written as its two-digit day and month, its unpadded year and, with includeTime, the clock of that moment |
| DateNormalizer.StandardizeRendered | index.tsx:87-142 | canonical text of a moment in year 100 or later normalises to itself |
| DateNormalizer.StandardizeDropsClock | index.tsx:135-139 | canonical text with a clock, in year 100 or later, loses the clock without includeTime |
| DateNormalizer.StandardizeIdempotent | index.tsx:87-142 | normalising a second time changes nothing, when the first pass left the text, gave blank, or gave a date in year 100 or later |
| DateNormalizer.CenturyLost | index.tsx:108-114 | `1-0-100` is written `01-12-99`, which reads back as `01-12-2099`: a date before year 100 is not stable |
| DateNormalizer.WholeSerial | index.tsx:91-99 | a whole serial in the band, as a number or as digits, is midnight of day serial - 25569 |
| DateNormalizer.SerialTextLikeNumber | index.tsx:91-92 | digits in the band are read exactly like the number they spell |
| DateNormalizer.Serial45000 | index.tsx:92-99 | serial 45000 is written 15-03-2023 |
| DateNormalizer.ThreeFieldText | index.tsx:103-114 | three digit fields joined by `/` or `-`, the first outside the serial band 30000..60000, are read as a field date, not handed to the platform parser |
| DateNormalizer.SlashMeansMonthFirst | index.tsx:112-113 | `a/b/y` and `b-a-y` read as the same date, month a and day b, when neither a nor b lies in the serial band |
| DateNormalizer.SingleFieldText | index.tsx:103-125 | text whose first token has no separator goes to the platform parser |
| DateNormalizer.GetPKDate | index.tsx:144-146 | the current moment in canonical form, when the platform parser reads a Date's own text back to the second |
| DateNormalizer.PKDateReading | index.tsx:144-146 | a Date object reaches standardizeDate's fallback as its toString text and comes out as its own canonical text |
| DateNormalizer.SecondsDropped | index.tsx:144-146 | dropping the milliseconds below the second keeps the canonical text |
| DateNormalizer.ParseStandardDate | index.tsx:148-154 | null exactly for empty text or a date part that does not split into three `-` pieces; a Date it builds is always a midnight |
| DateNormalizer.ParseStandardRendered | index.tsx:148-154 | canonical text reads back as midnight of its day |
| DateNormalizer.CalculateAgingAsWritten | index.tsx:156-161 | 0 without a parsed date, NaN exactly for an Invalid Date, never negative otherwise |
| DateNormalizer.CalculateAging | index.tsx:156-161 | 0 without a readable date; otherwise the whole days elapsed since it, floored and never negative |
| DateNormalizer.AgingOfRendered | index.tsx:156-161 | the aging of canonical text is the number of midnights passed since its day |
| DateNormalizer.AgingAgrees | index.tsx:156-161 | the written and the corrected aging agree wherever the written one is a number |
| DateNormalizer.AgingOfMalformedDate | index.tsx:156-161 | `a-b-c` parses to an Invalid Date, so the written aging is NaN; the corrected one is 0 |
| DateNormalizer.GetTimeOnly | index.tsx:677-682 | `--:--` when there is no blank; otherwise exactly the text between the first blank and the next blank or the end |
| DateNormalizer.TimeOfRendered | index.tsx:677-682 | the clock of canonical text with time; `--:--` for a bare date |
| Calendar.CivilRoundTrip | index.tsx:114 | day number to civil date and back is the identity on valid dates |
| Calendar.NewDate | index.tsx:153 | `new Date(y, m - 1, d)`: Invalid when a field is NaN; otherwise midnight of the day the overflowing fields name, valid exactly when that midnight lies within the TimeClip range |
| Calendar.MonthOverflow | index.tsx:114 | month 12 past a month is the same month a year later |
| Calendar.SetHoursInRange | index.tsx:121 | setHours keeps the day and sets exactly the hour and minute given |
| JsText.SplitChar | index.tsx:150-151 | the pieces hold no separator and join back to the text |
| JsText.SplitCharUnique | index.tsx:150-151 | any separator-free pieces that join back to the text are exactly the pieces `split` gives |
| JsText.NatToStringRoundTrip | index.tsx:108-111 | parseInt reads back the decimal text of every natural |
| JsText.Trim | index.tsx:101 | the result is the input with only blank runs removed from its two ends, and has no blank at either end; empty exactly for all-blank text |
| Grouping.GroupByFacts | index.tsx:647-652 | the record holds one distinct key per key that occurs, each with exactly that key's values in order |
| Grouping.EntriesFacts | index.tsx:656 | Object.entries rearranges the groups, index keys first, and keeps the creation order of the rest |
| Dashboard.TodayList | index.tsx:646 | exactly the records whose update date or registration date starts with today's text, in order, each as often as it is stored |
| Dashboard.TodayMeansSameDay | index.tsx:625-626 | canonical text starts with today's text exactly when its moment falls on today |
| Dashboard.Filtered | index.tsx:622-642 | exactly the records, in order and as often as stored, that pass the search, status, technician and today tests and the date-range test as written |
| Dashboard.FilteredCorrected | index.tsx:622-642 | the same list with the corrected date-range test, which keeps an Invalid Date like a missing one |
| Dashboard.FilteredAgrees | index.tsx:636-639 | the written and the corrected lists are equal when no date in play parses to an Invalid Date |
| Dashboard.FilteredDropsMalformed | index.tsx:636-639 | with a one-day range, the written list drops a record registered `a-b-c` and the corrected list keeps it |
| Dashboard.UnfilteredKeepsAll | index.tsx:622-642 | empty filters keep every record, or every record of today in the today view |
| Dashboard.SearchIgnoresCaseOfNames | index.tsx:629-632 | a name or model match ignores the case of the search term |
| Dashboard.ComplaintNoIsCaseSensitive | index.tsx:630 | complaint numbers match case-sensitively |
| Dashboard.DateRangeByDay | index.tsx:636-639 | for canonical dates, the range test holds exactly when the day lies between the start and end days |
| Dashboard.UnreadableDateKept | index.tsx:637-638 | a record whose date does not parse passes the range test |
| Dashboard.DateRangeDropsMalformed | index.tsx:636-639 | the written test drops a record dated `a-b-c`; the corrected test keeps it |
| Dashboard.DateMatchAgrees | index.tsx:636-639 | written and corrected range tests agree when no date parses to an Invalid Date |
| Dashboard.Page | index.tsx:664 | at most 50 records: the slice for that page, clamped to the list |
| Dashboard.PagesTile | index.tsx:664 | the first n pages laid end to end are the first 50n records |
| Dashboard.AllPages | index.tsx:664 | the pages up to the page count together are the whole list |
| Dashboard.PageBeyondEnd | index.tsx:664 | a page past the end is empty |
| Dashboard.GroupKey | index.tsx:649 | the group name is never empty |
| Dashboard.TodayStatsFacts | index.tsx:644-658 | today's records partitioned by technician, largest group first, ties in entry order; one active person per group |
| Dashboard.UnassignedGroup | index.tsx:649 | a blank technician and one named UNASSIGNED share a group |
| Dashboard.TechOptions | index.tsx:660-662 | every non-empty technician name, once, in ascending code-unit order |
| Dashboard.StatsOf | index.tsx:229-240 | total is the record count; completed plus pending is at most the total; at most five top products |
| Dashboard.ByProductFacts | index.tsx:234-237 | one entry per product that occurs, each with that product's true count |
| Dashboard.TopProductsFacts | index.tsx:238 | at most five distinct products with true counts, largest first; a product left out has no more records than the fifth |
| Dashboard.TallyStatuses | index.tsx:231-233 | one counting loop gives the same total, completed and pending figures as the filters |
| Dashboard.Share | index.tsx:260 | the bar width is `count / total * 100` exactly, 0 for no records, never past 100 when count is at most total |
| Dashboard.RoundQuotient | index.tsx:270 | Math.round: the integer within half of the quotient, a half going up |
| Dashboard.RoundUnique | index.tsx:270 | no other integer lies within that half |
| Dashboard.CompletionPercent | index.tsx:270 | 0 for no records; otherwise the nearest whole percent to the completed share |
| Dashboard.CompletionAtMostAll | index.tsx:270 | the completion figure is at most 100 |
| Dashboard.AnalyticsPercentages | index.tsx:229-270 | completion is at most 100 and no product bar runs past its track |
| TechnicianView.MyJobs | index.tsx:361-365 | exactly the records assigned to me, in stored order, each as often as it is stored |
| TechnicianView.StatusView | index.tsx:385 | ALL shows every job; another tab shows exactly the jobs with that status, in order, each as often as it occurs |
| TechnicianView.TodayGoal | index.tsx:386-391 | total is the size of today's list and done its completed or verified part; the goal bar stays within its track |
| TechnicianView.TechUpdate | index.tsx:367-372 | after an update the list still holds only my jobs |
| TechnicianView.TechUpdateCommutes | index.tsx:367-372 | without a reassignment, updating the stored collection and re-reading my jobs is updating my list |
| TechnicianView.ReassignedLeaves | index.tsx:367-372 | reassigning a case to someone else takes it off my list |

## Left out

- Rendering, React state and `useMemo`: the model works on the values that state holds.
- Local storage (`SuperAsiaDB`): the stored collection is a parameter, and saving is the
  returned sequence.
- The spreadsheet import and export (`handleExcel`), PDF job cards, login and the staff
  list: they are I/O around the core and call external libraries.
- The platform's free-form date parser: it is a parameter. Only its reading of a Date's own
  `toString` text is assumed (`ReadsOwnText`), for `getPKDate`.
- Time zones: the model takes the local offset to be zero. Pakistan time in the running
  application comes from the device's zone, which is outside the code.
- Dates are modelled only within the ECMAScript range of ±8.64e15 ms (TimeClip).
- Floating point: the time fraction of a serial is read exactly. Math.round of
  `timeSerial * 86400` and of `(c / t) * 100` follows the exact quotient, so double rounding
  at exact halves is not modelled.
- The date label `toLocaleDateString('en-GB', …)` in today's stats: locale formatting.
- `getActionString` (index.tsx:666-675): display text only.
- The `aging` field read from storage as a possibly fractional number: it is a whole number or NaN here.
- `getProduct` and `matchTechnician` on a missing (null or undefined) argument: their
  arguments are strings here. `String(model || "")` makes both behave as for the empty string.
- DateNormalizer.SlashMeansMonthFirst: stated for `/` and `-` only, not for `.` separators,
  because `parseFloat` reads `12.05.2023` as a decimal first. It is also stated only for
  fields outside 30000..60000, because a leading field in that band, as in `45000-1-2023`,
  makes the whole text a spreadsheet serial.
- Dashboard.StatsOf: states the total and bounds completed + pending; TallyStatuses fixes the
  completed and pending values; the product list is stated by TopProductsFacts and
  ByProductFacts.

## Findings

| source | as written | input that shows it | evidently intended | confidence | as-written member | corrected member |
|---|---|---|---|---|---|---|
| index.tsx:156-161 | calculateAging returns `Math.max(0, NaN)` = NaN when parseStandardDate builds an Invalid Date from three `-` pieces that are not numbers | regDate `a-b-c` | aging 0, as for a date that does not parse | not executed | DateNormalizer.CalculateAgingAsWritten, DateNormalizer.AgingOfMalformedDate, Records.LoadAgingOfMalformedDate | DateNormalizer.CalculateAging, DateNormalizer.AgingAgrees |
| index.tsx:636-639 | a record whose regDate parses to an Invalid Date fails `cd >= sd && cd <= ed`, so every date range drops it, while a record whose date does not parse at all is kept | regDate `a-b-c` with any range of canonical dates | treat an unreadable date like a missing one and keep the record | not executed | Dashboard.Filtered, Dashboard.DateRangeDropsMalformed, Dashboard.FilteredDropsMalformed | Dashboard.FilteredCorrected, Dashboard.DateMatchAgrees, Dashboard.FilteredAgrees |

=== FILE: calendar.dfy ===
/**
 * Proleptic Gregorian calendar arithmetic on integer day numbers
 * (day 0 is 1970-01-01), and the parts of the JavaScript Date object the
 * normaliser relies on: the time value in milliseconds, TimeClip, the
 * `new Date(y, m, d)` constructor with its overflow and 1900 rules, and
 * `setHours`. The local time zone is taken to be UTC, so local fields and
 * UTC fields coincide.
 */
module Calendar {
  import opened Wrappers

  const MsPerMinute: int := 60000
  const MsPerHour: int := 3600000
  const MsPerDay: int := 86400000

  /** Largest magnitude of a valid time value: 100,000,000 days either side of the epoch. */
  const MaxTime: int := 8640000000000000

  /** A civil date: year, month 1..12, day of month. */
  datatype Civil = Civil(year: int, month: int, day: int)

  predicate IsLeapYear(y: int) {
    y % 4 == 0 && (y % 100 != 0 || y % 400 == 0)
  }

  function DaysInMonth(y: int, m: int): (n: int)
    requires 1 <= m <= 12
    ensures 28 <= n <= 31
    ensures n == 29 <==> m == 2 && IsLeapYear(y)
  {
    if m == 2 then (if IsLeapYear(y) then 29 else 28)
    else if m == 4 || m == 6 || m == 9 || m == 11 then 30
    else 31
  }

  predicate ValidCivil(c: Civil) {
    1 <= c.month <= 12 && 1 <= c.day <= DaysInMonth(c.year, c.month)
  }

  /** Days from 1970-01-01 to the given date (H. Hinnant's days_from_civil). */
  function DaysFromCivil(c: Civil): int {
    var y := if c.month <= 2 then c.year - 1 else c.year;
    var era := y / 400;
    var yoe := y - era * 400;
    var mp := if c.month > 2 then c.month - 3 else c.month + 9;
    var doy := (153 * mp + 2) / 5 + c.day - 1;
    var doe := yoe * 365 + yoe / 4 - yoe / 100 + doy;
    era * 146097 + doe - 719468
  }

  /** Days from 1 March of year 0 of an era to 1 March of year `yoe` of that era. */
  function DaysBeforeYearOfEra(c: int, q: int, r: int): int {
    36524 * c + 1461 * q + 365 * r
  }

  /** Year of era (years since 1 March of the era's first year) and day of that March-based year. */
  function SplitDayOfEra(doe: int): (int, int)
    requires 0 <= doe < 146097
  {
    var cent := if doe / 36524 < 3 then doe / 36524 else 3;
    var rem1 := doe - 36524 * cent;
    var quad := rem1 / 1461;
    var rem2 := rem1 % 1461;
    var yr := if rem2 / 365 < 3 then rem2 / 365 else 3;
    (100 * cent + 4 * quad + yr, rem2 - 365 * yr)
  }

  /** The civil date of day `doy` (0 = 1 March) of the March-based year `yy`. */
  function ShiftedCivil(yy: int, doy: int): Civil {
    var mp := (5 * doy + 2) / 153;
    var d := doy - (153 * mp + 2) / 5 + 1;
    var m := if mp < 10 then mp + 3 else mp - 9;
    Civil(yy + (if m <= 2 then 1 else 0), m, d)
  }

  /** The civil date of a day number: the inverse of DaysFromCivil. */
  function CivilFromDays(z: int): (c: Civil)
    ensures ValidCivil(c)
    ensures DaysFromCivil(c) == z
  {
    var zz := z + 719468;
    var era := zz / 146097;
    var doe := zz % 146097;
    CivilFromDaysFacts(era, doe);
    ShiftedCivil(era * 400 + SplitDayOfEra(doe).0, SplitDayOfEra(doe).1)
  }

  lemma CivilFromDaysFacts(era: int, doe: int)
    requires 0 <= doe < 146097
    ensures ValidCivil(ShiftedCivil(era * 400 + SplitDayOfEra(doe).0, SplitDayOfEra(doe).1))
    ensures DaysFromCivil(ShiftedCivil(era * 400 + SplitDayOfEra(doe).0, SplitDayOfEra(doe).1))
              == era * 146097 + doe - 719468
  {
    var cent, quad, yr, doy := SplitParts(doe);
    var yy := era * 400 + 100 * cent + 4 * quad + yr;
    var mp, d, m := ShiftedParts(yy, doy);
    ShiftedFacts(era, cent, quad, yr, doy, mp, d, m, yy + (if m <= 2 then 1 else 0));
  }

  /** SplitDayOfEra in terms of its intermediate quantities. */
  lemma SplitParts(doe: int) returns (cent: int, quad: int, yr: int, doy: int)
    requires 0 <= doe < 146097
    ensures 0 <= cent <= 3 && 0 <= quad <= 24 && 0 <= yr <= 3 && 0 <= doy <= 365
    ensures doe == DaysBeforeYearOfEra(cent, quad, yr) + doy
    ensures doy == 365 ==> yr == 3 && (quad == 24 ==> cent == 3)
    ensures SplitDayOfEra(doe) == (100 * cent + 4 * quad + yr, doy)
  {
    cent := if doe / 36524 < 3 then doe / 36524 else 3;
    quad := (doe - 36524 * cent) / 1461;
    yr := if (doe - 36524 * cent) % 1461 / 365 < 3 then (doe - 36524 * cent) % 1461 / 365 else 3;
    doy := (doe - 36524 * cent) % 1461 - 365 * yr;
    EraSplit(doe, cent, quad, yr, doy);
  }

  /** ShiftedCivil in terms of its intermediate quantities. */
  lemma ShiftedParts(yy: int, doy: int) returns (mp: int, d: int, m: int)
    ensures mp == (5 * doy + 2) / 153
    ensures d == doy - (153 * mp + 2) / 5 + 1
    ensures m == if mp < 10 then mp + 3 else mp - 9
    ensures ShiftedCivil(yy, doy) == Civil(yy + (if m <= 2 then 1 else 0), m, d)
  {
    mp := (5 * doy + 2) / 153;
    d := doy - (153 * mp + 2) / 5 + 1;
    m := if mp < 10 then mp + 3 else mp - 9;
  }

  lemma ShiftedFacts(era: int, cent: int, quad: int, yr: int, doy: int,
                     mp: int, d: int, m: int, y: int)
    requires 0 <= cent <= 3 && 0 <= quad <= 24 && 0 <= yr <= 3 && 0 <= doy <= 365
    requires doy == 365 ==> yr == 3 && (quad == 24 ==> cent == 3)
    requires mp == (5 * doy + 2) / 153
    requires d == doy - (153 * mp + 2) / 5 + 1
    requires m == if mp < 10 then mp + 3 else mp - 9
    requires y == 100 * cent + 4 * quad + yr + era * 400 + (if m <= 2 then 1 else 0)
    ensures ValidCivil(Civil(y, m, d))
    ensures DaysFromCivil(Civil(y, m, d)) == era * 146097 + DaysBeforeYearOfEra(cent, quad, yr) + doy - 719468
  {
    MonthDayFacts(doy, mp, d);
    var yoe := 100 * cent + 4 * quad + yr;
    YearOfEraDays(cent, quad, yr);
    EraOfYear(yoe, era);
    DaysFromCivilIs(Civil(y, m, d), yoe + era * 400, era, yoe, mp, doy);
    if m == 2 && doy == 365 {
      LeapDay(cent, quad, yr, era);
    }
  }

  /** Splitting a day of the 400-year era into century, 4-year block, year and day of year. */
  lemma EraSplit(doe: int, cent: int, quad: int, yr: int, doy: int)
    requires 0 <= doe < 146097
    requires cent == if doe / 36524 < 3 then doe / 36524 else 3
    requires quad == (doe - 36524 * cent) / 1461
    requires yr == if (doe - 36524 * cent) % 1461 / 365 < 3 then (doe - 36524 * cent) % 1461 / 365 else 3
    requires doy == (doe - 36524 * cent) % 1461 - 365 * yr
    ensures 0 <= cent <= 3 && 0 <= quad <= 24 && 0 <= yr <= 3 && 0 <= doy <= 365
    ensures doe == DaysBeforeYearOfEra(cent, quad, yr) + doy
    ensures doy == 365 ==> yr == 3 && (quad == 24 ==> cent == 3)
  {
    var rem1 := doe - 36524 * cent;
    assert cent < 3 ==> rem1 < 36524;
    assert rem1 <= 36524;
    assert rem1 == 1461 * quad + rem1 % 1461;
  }

  lemma YearOfEraDays(cent: int, quad: int, yr: int)
    requires 0 <= cent <= 3 && 0 <= quad <= 24 && 0 <= yr <= 3
    ensures var yoe := 100 * cent + 4 * quad + yr;
      yoe * 365 + yoe / 4 - yoe / 100 == DaysBeforeYearOfEra(cent, quad, yr)
  {
    var yoe := 100 * cent + 4 * quad + yr;
    assert yoe / 4 == 25 * cent + quad;
    assert yoe / 100 == cent;
  }

  lemma EraOfYear(yoe: int, era: int)
    requires 0 <= yoe < 400
    ensures (yoe + era * 400) / 400 == era
    ensures yoe + era * 400 - era * 400 == yoe
  {
    DivUnique(yoe + era * 400, 400, era, yoe);
  }

  lemma LeapDay(cent: int, quad: int, yr: int, era: int)
    requires 0 <= cent <= 3 && 0 <= quad <= 24 && yr == 3
    requires quad == 24 ==> cent == 3
    ensures IsLeapYear(100 * cent + 4 * quad + yr + era * 400 + 1)
  {
    var y := 100 * cent + 4 * quad + yr + era * 400 + 1;
    DivUnique(y, 4, 25 * cent + quad + 1 + 100 * era, 0);
    if quad < 24 {
      DivUnique(y, 100, cent + 4 * era, 4 * (quad + 1));
    } else {
      DivUnique(y, 400, era + 1, 0);
    }
  }

  /** The March-based month table: month index mp covers days (153mp+2)/5 .. of the shifted year. */
  lemma MonthDayFacts(doy: int, mp: int, d: int)
    requires 0 <= doy <= 365
    requires mp == (5 * doy + 2) / 153
    requires d == doy - (153 * mp + 2) / 5 + 1
    ensures 0 <= mp <= 11 && 1 <= d
    ensures mp != 11 ==> d <= (if mp == 1 || mp == 3 || mp == 6 || mp == 8 then 30 else 31)
    ensures mp == 11 ==> d == doy - 336 && d <= 29
  {
  }

  /** Every valid civil date is the date of its own day number. */
  lemma {:induction false} CivilRoundTrip(c: Civil)
    requires ValidCivil(c)
    ensures CivilFromDays(DaysFromCivil(c)) == c
  {
    var z := DaysFromCivil(c);
    var era, doe, yoe, doy := DecomposeCivil(c);
    DivModUnique(z + 719468, era, doe);
    CivilFromDaysAt(z, era, doe, yoe, doy);
  }

  lemma CivilFromDaysAt(z: int, era: int, doe: int, yoe: int, doy: int)
    requires 0 <= doe < 146097
    requires (z + 719468) / 146097 == era && (z + 719468) % 146097 == doe
    requires SplitDayOfEra(doe) == (yoe, doy)
    ensures CivilFromDays(z) == ShiftedCivil(era * 400 + yoe, doy)
  {
  }

  /** The era, day of era, year of era and day of year that DaysFromCivil computes for `c`. */
  lemma DecomposeCivil(c: Civil) returns (era: int, doe: int, yoe: int, doy: int)
    requires ValidCivil(c)
    ensures 0 <= doe < 146097
    ensures DaysFromCivil(c) == era * 146097 + doe - 719468
    ensures SplitDayOfEra(doe) == (yoe, doy)
    ensures ShiftedCivil(era * 400 + yoe, doy) == c
  {
    var y := if c.month <= 2 then c.year - 1 else c.year;
    era := y / 400;
    yoe := y - era * 400;
    var mp := if c.month > 2 then c.month - 3 else c.month + 9;
    doy := (153 * mp + 2) / 5 + c.day - 1;
    DaysFromCivilIs(c, y, era, yoe, mp, doy);
    var cent, quad, yr := YearOfEraParts(yoe);
    YearOfEraDays(cent, quad, yr);
    DayOfYearFacts(c, mp, doy);
    if doy == 365 {
      LeapYearOfEra(cent, quad, yr, era);
    }
    doe := DaysBeforeYearOfEra(cent, quad, yr) + doy;
    SplitInverse(doe, cent, quad, yr, doy);
    ShiftedInverse(c, era * 400 + yoe, mp, doy);
  }

  /** DaysFromCivil in terms of its intermediate quantities. */
  lemma DaysFromCivilIs(c: Civil, y: int, era: int, yoe: int, mp: int, doy: int)
    requires y == if c.month <= 2 then c.year - 1 else c.year
    requires era == y / 400 && yoe == y - era * 400
    requires mp == if c.month > 2 then c.month - 3 else c.month + 9
    requires doy == (153 * mp + 2) / 5 + c.day - 1
    ensures 0 <= yoe < 400
    ensures DaysFromCivil(c) == era * 146097 + (yoe * 365 + yoe / 4 - yoe / 100 + doy) - 719468
  {
  }

  /** A year of era as centuries, 4-year blocks and years. */
  lemma YearOfEraParts(yoe: int) returns (cent: int, quad: int, yr: int)
    requires 0 <= yoe < 400
    ensures 0 <= cent <= 3 && 0 <= quad <= 24 && 0 <= yr <= 3
    ensures yoe == 100 * cent + 4 * quad + yr
  {
    cent := yoe / 100;
    var rest := yoe % 100;
    quad := rest / 4;
    yr := rest % 4;
  }

  lemma DivModUnique(zz: int, era: int, doe: int)
    requires 0 <= doe < 146097 && zz == era * 146097 + doe
    ensures zz / 146097 == era && zz % 146097 == doe
  {
  }

  lemma SplitInverse(doe: int, cent: int, quad: int, yr: int, doy: int)
    requires 0 <= cent <= 3 && 0 <= quad <= 24 && 0 <= yr <= 3 && 0 <= doy <= 365
    requires doy == 365 ==> yr == 3 && (quad == 24 ==> cent == 3)
    requires doe == DaysBeforeYearOfEra(cent, quad, yr) + doy
    ensures 0 <= doe < 146097
    ensures SplitDayOfEra(doe) == (100 * cent + 4 * quad + yr, doy)
  {
    EraSplitInverse(doe, cent, quad, yr, doy);
  }

  lemma ShiftedInverse(c: Civil, yy: int, mp: int, doy: int)
    requires ValidCivil(c)
    requires yy == if c.month <= 2 then c.year - 1 else c.year
    requires mp == if c.month > 2 then c.month - 3 else c.month + 9
    requires doy == (153 * mp + 2) / 5 + c.day - 1
    ensures ShiftedCivil(yy, doy) == c
  {
    MonthDayInverse(doy, mp, c.day);
  }

  lemma DayOfYearFacts(c: Civil, mp: int, doy: int)
    requires ValidCivil(c)
    requires mp == if c.month > 2 then c.month - 3 else c.month + 9
    requires doy == (153 * mp + 2) / 5 + c.day - 1
    ensures 0 <= doy <= 365
    ensures doy == 365 ==> c.month == 2 && c.day == 29 && IsLeapYear(c.year)
  {
  }

  lemma LeapYearOfEra(cent: int, quad: int, yr: int, era: int)
    requires 0 <= cent <= 3 && 0 <= quad <= 24 && 0 <= yr <= 3
    requires IsLeapYear(100 * cent + 4 * quad + yr + era * 400 + 1)
    ensures yr == 3 && (quad == 24 ==> cent == 3)
  {
    var y := 100 * cent + 4 * quad + yr + era * 400 + 1;
    if yr < 3 {
      DivUnique(y, 4, 25 * cent + quad + 100 * era, yr + 1);
    } else if quad == 24 {
      DivUnique(y, 100, cent + 1 + 4 * era, 0);
      if cent < 3 {
        DivUnique(y, 400, era, 100 * (cent + 1));
      }
    }
  }

  lemma EraSplitInverse(doe: int, cent: int, quad: int, yr: int, doy: int)
    requires 0 <= cent <= 3 && 0 <= quad <= 24 && 0 <= yr <= 3 && 0 <= doy <= 365
    requires doy == 365 ==> yr == 3 && (quad == 24 ==> cent == 3)
    requires doe == DaysBeforeYearOfEra(cent, quad, yr) + doy
    ensures 0 <= doe < 146097
    ensures cent == if doe / 36524 < 3 then doe / 36524 else 3
    ensures quad == (doe - 36524 * cent) / 1461
    ensures yr == if (doe - 36524 * cent) % 1461 / 365 < 3 then (doe - 36524 * cent) % 1461 / 365 else 3
    ensures doy == (doe - 36524 * cent) % 1461 - 365 * yr
  {
    var rem1 := 1461 * quad + 365 * yr + doy;
    assert cent < 3 ==> rem1 < 36524;
    assert (doe - 36524 * cent) == rem1;
    assert rem1 / 1461 == quad;
    assert rem1 % 1461 == 365 * yr + doy;
  }

  lemma MonthDayInverse(doy: int, mp: int, d: int)
    requires 0 <= mp <= 11 && 1 <= d
    requires mp != 11 ==> d <= (if mp == 1 || mp == 3 || mp == 6 || mp == 8 then 30 else 31)
    requires mp == 11 ==> d <= 29
    requires doy == (153 * mp + 2) / 5 + d - 1
    ensures mp == (5 * doy + 2) / 153
  {
  }

  // ---------------------------------------------------------------------
  // JavaScript Date time values (zero UTC offset)
  // ---------------------------------------------------------------------

  /** A Date's time value: NaN (an "Invalid Date") or whole milliseconds since the epoch. */
  datatype TimeValue = Invalid | Time(ms: int)

  /** TimeClip: time values beyond 100,000,000 days from the epoch are NaN. */
  function TimeClip(t: int): (r: TimeValue)
    ensures r.Time? <==> -MaxTime <= t <= MaxTime
    ensures r.Time? ==> r.ms == t
  {
    if -MaxTime <= t <= MaxTime then Time(t) else Invalid
  }

  /** Day(t): the day number containing time value t (floor division). */
  function DayOf(t: int): (z: int)
    ensures z * MsPerDay <= t < (z + 1) * MsPerDay
  {
    t / MsPerDay
  }

  /** Milliseconds elapsed since midnight of the day containing t. */
  function TimeInDay(t: int): (ms: int)
    ensures 0 <= ms < MsPerDay
    ensures t == DayOf(t) * MsPerDay + ms
  {
    t % MsPerDay
  }

  function DateOf(t: int): Civil {
    CivilFromDays(DayOf(t))
  }

  function HourOf(t: int): (h: int)
    ensures 0 <= h < 24
  {
    TimeInDay(t) / MsPerHour
  }

  function MinuteOf(t: int): (m: int)
    ensures 0 <= m < 60
  {
    TimeInDay(t) / MsPerMinute % 60
  }

  /** MakeDay(year, month, date) of ECMAScript: `month` is 0-based and may overflow or
      underflow into neighbouring years, `date` may run past the end of the month. */
  function MakeDay(year: int, month: int, date: int): int {
    DaysFromCivil(Civil(year + month / 12, month % 12 + 1, 1)) + date - 1
  }

  /** The year argument of `new Date(y, m, d)`: years 0..99 mean 1900..1999. */
  function ConstructorYear(y: int): (yr: int)
    ensures 0 <= y <= 99 ==> yr == 1900 + y
    ensures !(0 <= y <= 99) ==> yr == y
  {
    if 0 <= y <= 99 then 1900 + y else y
  }

  /** `new Date(y, m, d)` for numeric arguments, where None stands for NaN. */
  function NewDate(y: Option<int>, m: Option<int>, d: Option<int>): (r: TimeValue)
    ensures (y.None? || m.None? || d.None?) ==> r == Invalid
    ensures r.Time? ==> TimeInDay(r.ms) == 0
    ensures r.Time? ==> DayOf(r.ms) == MakeDay(ConstructorYear(y.value), m.value, d.value)
    ensures y.Some? && m.Some? && d.Some? ==>
      (r.Time? <==> -MaxTime <= MakeDay(ConstructorYear(y.value), m.value, d.value) * MsPerDay <= MaxTime)
  {
    if y.None? || m.None? || d.None? then Invalid
    else
      var z := MakeDay(ConstructorYear(y.value), m.value, d.value);
      MidnightFacts(z);
      TimeClip(z * MsPerDay)
  }

  lemma MidnightFacts(z: int)
    ensures DayOf(z * MsPerDay) == z && TimeInDay(z * MsPerDay) == 0
  {
  }

  /** `date.setHours(h, m, 0, 0)`: keeps the day, replaces the time of day; hours and
      minutes beyond their ranges roll over into later days. */
  function SetHours(tv: TimeValue, h: int, m: int): TimeValue {
    match tv
    case Invalid => Invalid
    case Time(t) => TimeClip(DayOf(t) * MsPerDay + h * MsPerHour + m * MsPerMinute)
  }

  /** For an in-range hour and minute, setHours leaves the date alone and sets exactly
      those fields. */
  lemma SetHoursInRange(t: int, h: int, m: int)
    requires -MaxTime <= t <= MaxTime
    requires 0 <= h < 24 && 0 <= m < 60
    requires DayOf(t) * MsPerDay + h * MsPerHour + m * MsPerMinute <= MaxTime
    ensures SetHours(Time(t), h, m).Time?
    ensures var t' := SetHours(Time(t), h, m).ms;
      DayOf(t') == DayOf(t) && HourOf(t') == h && MinuteOf(t') == m
  {
    var t' := DayOf(t) * MsPerDay + h * MsPerHour + m * MsPerMinute;
    assert -MaxTime <= DayOf(t) * MsPerDay;
    WithinDay(DayOf(t), h * MsPerHour + m * MsPerMinute);
    assert TimeInDay(t') == h * MsPerHour + m * MsPerMinute;
    assert (h * MsPerHour + m * MsPerMinute) / MsPerMinute == h * 60 + m;
  }

  /** Floor division is determined by any quotient-remainder pair with a remainder in range. */
  lemma DivUnique(x: int, d: int, q: int, r: int)
    requires d > 0 && 0 <= r < d && x == d * q + r
    ensures x / d == q && x % d == r
  {
    var q', r' := x / d, x % d;
    assert x == d * q' + r';
    if q' > q {
      MulAtLeast(d, q' - q);
    } else if q' < q {
      MulAtLeast(d, q - q');
    }
  }

  lemma MulAtLeast(d: int, k: int)
    requires d > 0 && k >= 1
    ensures d * k >= d
  {
  }

  lemma WithinDay(z: int, ms: int)
    requires 0 <= ms < MsPerDay
    ensures DayOf(z * MsPerDay + ms) == z && TimeInDay(z * MsPerDay + ms) == ms
  {
  }

  /** Months roll over into years: month m + 12 of year y is month m of year y + 1. */
  lemma MonthOverflow(y: int, m: int, d: int)
    ensures MakeDay(y, m + 12, d) == MakeDay(y + 1, m, d)
  {
    DivUnique(m + 12, 12, m / 12 + 1, m % 12);
  }

  /** For an in-range month and day, MakeDay is the day number of that very date. */
  lemma MakeDayOfValid(c: Civil)
    requires ValidCivil(c)
    ensures MakeDay(c.year, c.month - 1, c.day) == DaysFromCivil(c)
    ensures CivilFromDays(MakeDay(c.year, c.month - 1, c.day)) == c
  {
    MakeDayInMonth(c);
    CivilRoundTrip(c);
  }

  lemma MakeDayInMonth(c: Civil)
    requires 1 <= c.month <= 12
    ensures MakeDay(c.year, c.month - 1, c.day) == DaysFromCivil(c)
  {
    DivUnique(c.month - 1, 12, 0, c.month - 1);
    DayOfMonthShift(c);
  }

  /** Within a month, day numbers advance with the day of the month. */
  lemma DayOfMonthShift(c: Civil)
    ensures DaysFromCivil(c) == DaysFromCivil(Civil(c.year, c.month, 1)) + c.day - 1
  {
  }
}

=== FILE: collections.dfy ===
// Sequence operations the dashboards are built from: Array.prototype.filter, slice and a
// stable sort by an integer key, with the facts about them the dashboards rely on.

module Collections {

  // ---------------------------------------------------------------------
  // filter
  // ---------------------------------------------------------------------

  /** Array.prototype.filter: the elements satisfying `p`, in their original order. */
  function Filter<T>(s: seq<T>, p: T -> bool): (r: seq<T>)
    ensures |r| <= |s|
    ensures forall i :: 0 <= i < |r| ==> p(r[i]) && r[i] in s
    ensures forall i :: 0 <= i < |s| && p(s[i]) ==> s[i] in r
    decreases |s|
  {
    if s == [] then []
    else
      var rest := Filter(s[1..], p);
      assert forall i :: 0 <= i < |rest| ==> rest[i] in s[1..];
      assert forall i :: 1 <= i < |s| ==> s[i] == s[1..][i - 1];
      if p(s[0]) then [s[0]] + rest else rest
  }

  /** How many elements satisfy `p` (the `.filter(p).length` idiom). */
  function Count<T>(s: seq<T>, p: T -> bool): nat {
    |Filter(s, p)|
  }

  /** `a` is `b` with some elements left out, the rest in order. */
  predicate IsSubsequence<T(==)>(a: seq<T>, b: seq<T>)
    decreases |b|
  {
    a == [] || (b != [] && (if a[0] == b[0] then IsSubsequence(a[1..], b[1..]) else IsSubsequence(a, b[1..])))
  }

  lemma {:induction false} FilterIsSubsequence<T>(s: seq<T>, p: T -> bool)
    ensures IsSubsequence(Filter(s, p), s)
    decreases |s|
  {
    if s != [] {
      FilterIsSubsequence(s[1..], p);
      var rest := Filter(s[1..], p);
      if p(s[0]) {
        assert Filter(s, p) == [s[0]] + rest;
        assert ([s[0]] + rest)[1..] == rest;
      } else if rest != [] {
        assert rest[0] in s[1..];
        SubsequenceSkip(rest, s);
      }
    }
  }

  /** A subsequence of the tail whose head differs from the head is a subsequence. */
  lemma {:induction false} SubsequenceSkip<T>(a: seq<T>, b: seq<T>)
    requires b != [] && IsSubsequence(a, b[1..])
    ensures IsSubsequence(a, b)
    decreases |b|, 0
  {
    if a != [] && a[0] == b[0] {
      SubsequenceTail(a, b[1..]);
    }
  }

  /** Dropping the head of a subsequence keeps it a subsequence. */
  lemma {:induction false} SubsequenceTail<T>(a: seq<T>, b: seq<T>)
    requires a != [] && IsSubsequence(a, b)
    ensures IsSubsequence(a[1..], b)
    decreases |b|, 1
  {
    assert b != [];
    if a[0] == b[0] {
      SubsequenceSkip(a[1..], b);
    } else {
      SubsequenceTail(a, b[1..]);
      SubsequenceSkip(a[1..], b);
    }
  }

  lemma {:induction false} FilterConcat<T>(a: seq<T>, b: seq<T>, p: T -> bool)
    ensures Filter(a + b, p) == Filter(a, p) + Filter(b, p)
    decreases |a|
  {
    if a != [] {
      assert (a + b)[1..] == a[1..] + b;
      FilterConcat(a[1..], b, p);
    } else {
      assert a + b == b;
    }
  }

  /** Filtering one more element at the end. */
  lemma FilterSnoc<T>(s: seq<T>, x: T, p: T -> bool)
    ensures Filter(s + [x], p) == Filter(s, p) + (if p(x) then [x] else [])
  {
    FilterConcat(s, [x], p);
  }

  /** Counting one more element at the end. */
  lemma CountSnoc<T>(s: seq<T>, x: T, p: T -> bool)
    ensures Count(s + [x], p) == Count(s, p) + if p(x) then 1 else 0
  {
    FilterSnoc(s, x, p);
  }

  /** Two filters in a row keep what satisfies both, in the same order. */
  lemma {:induction false} FilterTwice<T>(s: seq<T>, p: T -> bool, q: T -> bool)
    ensures Filter(Filter(s, p), q) == Filter(s, x => p(x) && q(x))
    decreases |s|
  {
    if s != [] {
      FilterTwice(s[1..], p, q);
      var rest := Filter(s[1..], p);
      if p(s[0]) {
        assert ([s[0]] + rest)[1..] == rest;
      }
    }
  }

  /** A filter whose predicate holds everywhere keeps everything. */
  lemma {:induction false} FilterAll<T>(s: seq<T>, p: T -> bool)
    requires forall i :: 0 <= i < |s| ==> p(s[i])
    ensures Filter(s, p) == s
    decreases |s|
  {
    if s != [] {
      FilterAll(s[1..], p);
    }
  }

  /** Filters with predicates that agree on the elements give the same result. */
  lemma {:induction false} FilterSame<T>(s: seq<T>, p: T -> bool, q: T -> bool)
    requires forall i :: 0 <= i < |s| ==> p(s[i]) == q(s[i])
    ensures Filter(s, p) == Filter(s, q)
    decreases |s|
  {
    if s != [] {
      FilterSame(s[1..], p, q);
    }
  }

  /** Every element either satisfies `p` or does not: the two counts make up the length. */
  lemma {:induction false} CountSplit<T>(s: seq<T>, p: T -> bool)
    ensures Count(s, p) + Count(s, x => !p(x)) == |s|
    decreases |s|
  {
    if s != [] {
      CountSplit(s[1..], p);
    }
  }

  /** Two predicates no element satisfies together count at most the length. */
  lemma {:induction false} CountDisjoint<T>(s: seq<T>, p: T -> bool, q: T -> bool)
    requires forall i :: 0 <= i < |s| ==> !(p(s[i]) && q(s[i]))
    ensures Count(s, p) + Count(s, q) <= |s|
    decreases |s|
  {
    if s != [] {
      CountDisjoint(s[1..], p, q);
    }
  }

  /** Counting a predicate that implies another counts no more. */
  lemma {:induction false} CountMono<T>(s: seq<T>, p: T -> bool, q: T -> bool)
    requires forall i :: 0 <= i < |s| ==> p(s[i]) ==> q(s[i])
    ensures Count(s, p) <= Count(s, q)
    decreases |s|
  {
    if s != [] {
      CountMono(s[1..], p, q);
    }
  }

  /** The multiset of a filter: every element of `s` satisfying `p`, as often as it occurs. */
  lemma {:induction false} FilterMultiset<T>(s: seq<T>, p: T -> bool, x: T)
    ensures multiset(Filter(s, p))[x] == if p(x) then multiset(s)[x] else 0
    decreases |s|
  {
    if s != [] {
      FilterMultiset(s[1..], p, x);
      assert s == [s[0]] + s[1..];
    }
  }

  /** A filter keeps every element that passes as often as it occurs, and no other. */
  lemma FilterCounts<T>(s: seq<T>, p: T -> bool)
    ensures forall x :: multiset(Filter(s, p))[x] == if p(x) then multiset(s)[x] else 0
  {
    forall x ensures multiset(Filter(s, p))[x] == if p(x) then multiset(s)[x] else 0 {
      FilterMultiset(s, p, x);
    }
  }

  // ---------------------------------------------------------------------
  // slice
  // ---------------------------------------------------------------------

  /** Array.prototype.slice's reading of a relative index: negative counts from the end,
      and the result is clamped to 0..n. */
  function RelativeIndex(i: int, n: nat): (k: nat)
    ensures k <= n
    ensures 0 <= i <= n ==> k == i
    ensures i > n ==> k == n
    ensures i < 0 ==> k == if n + i < 0 then 0 else n + i
  {
    if i < 0 then (if n + i < 0 then 0 else n + i)
    else if i > n then n
    else i
  }

  /** Array.prototype.slice(start, end). */
  function Slice<T>(s: seq<T>, start: int, end: int): (r: seq<T>)
    ensures var a, b := RelativeIndex(start, |s|), RelativeIndex(end, |s|);
      (a < b ==> r == s[a..b]) && (b <= a ==> r == [])
  {
    var a := RelativeIndex(start, |s|);
    var b := RelativeIndex(end, |s|);
    if a < b then s[a..b] else []
  }

  // ---------------------------------------------------------------------
  // stable sort by an integer key
  // ---------------------------------------------------------------------

  predicate SortedBy<T>(s: seq<T>, key: T -> int) {
    forall i, j :: 0 <= i < j < |s| ==> key(s[i]) <= key(s[j])
  }

  /** The predicate "has key k", as a filter argument. */
  function KeyIs<T>(key: T -> int, k: int): T -> bool {
    x => key(x) == k
  }

  /** Places `x` before the first element whose key is not smaller, so that `x` stays
      ahead of the elements with its own key. */
  function Insert<T>(x: T, s: seq<T>, key: T -> int): (r: seq<T>)
    ensures |r| == |s| + 1
    decreases |s|
  {
    if s == [] || key(x) <= key(s[0]) then [x] + s
    else [s[0]] + Insert(x, s[1..], key)
  }

  /** A stable sort by ascending key: Array.prototype.sort with a comparator that
      subtracts keys, which the language requires to be stable. */
  function SortBy<T>(s: seq<T>, key: T -> int): (r: seq<T>)
    ensures |r| == |s|
    decreases |s|
  {
    if s == [] then [] else Insert(s[0], SortBy(s[1..], key), key)
  }

  /** Inserting an element into elements with keys of at least `lo` keeps that bound. */
  lemma {:induction false} InsertBound<T>(x: T, s: seq<T>, key: T -> int, lo: int)
    requires key(x) >= lo && forall i :: 0 <= i < |s| ==> key(s[i]) >= lo
    ensures forall i :: 0 <= i < |Insert(x, s, key)| ==> key(Insert(x, s, key)[i]) >= lo
    decreases |s|
  {
    if s != [] && key(x) > key(s[0]) {
      InsertBound(x, s[1..], key, lo);
      var t := Insert(x, s[1..], key);
      assert forall i :: 1 <= i < |t| + 1 ==> ([s[0]] + t)[i] == t[i - 1];
    } else {
      assert forall i :: 1 <= i < |s| + 1 ==> ([x] + s)[i] == s[i - 1];
    }
  }

  lemma {:induction false} InsertSorted<T>(x: T, s: seq<T>, key: T -> int)
    requires SortedBy(s, key)
    ensures SortedBy(Insert(x, s, key), key)
    decreases |s|
  {
    if s != [] && key(x) > key(s[0]) {
      InsertSorted(x, s[1..], key);
      InsertBound(x, s[1..], key, key(s[0]));
      var t := Insert(x, s[1..], key);
      assert forall i :: 1 <= i < |t| + 1 ==> ([s[0]] + t)[i] == t[i - 1];
    } else {
      assert forall i :: 1 <= i < |s| + 1 ==> ([x] + s)[i] == s[i - 1];
    }
  }

  lemma {:induction false} InsertMultiset<T>(x: T, s: seq<T>, key: T -> int)
    ensures multiset(Insert(x, s, key)) == multiset(s) + multiset{x}
    decreases |s|
  {
    if s != [] && key(x) > key(s[0]) {
      InsertMultiset(x, s[1..], key);
      assert s == [s[0]] + s[1..];
    }
  }

  lemma InsertFacts<T>(x: T, s: seq<T>, key: T -> int)
    requires SortedBy(s, key)
    ensures SortedBy(Insert(x, s, key), key)
    ensures multiset(Insert(x, s, key)) == multiset(s) + multiset{x}
  {
    InsertSorted(x, s, key);
    InsertMultiset(x, s, key);
  }

  lemma {:induction false} SortByFacts<T>(s: seq<T>, key: T -> int)
    ensures SortedBy(SortBy(s, key), key)
    ensures multiset(SortBy(s, key)) == multiset(s)
    decreases |s|
  {
    if s != [] {
      SortByFacts(s[1..], key);
      InsertFacts(s[0], SortBy(s[1..], key), key);
      assert s == [s[0]] + s[1..];
    }
  }

  /** Inserting keeps, for every key, the elements with that key in their order, `x` first. */
  lemma {:induction false} InsertStable<T>(x: T, s: seq<T>, key: T -> int, k: int)
    requires SortedBy(s, key)
    ensures Filter(Insert(x, s, key), KeyIs(key, k))
      == (if key(x) == k then [x] else []) + Filter(s, KeyIs(key, k))
    decreases |s|
  {
    if s != [] && key(x) > key(s[0]) {
      InsertStable(x, s[1..], key, k);
      var rest := Insert(x, s[1..], key);
      assert ([s[0]] + rest)[1..] == rest;
      assert ([s[0]] + rest)[0] == s[0];
      if key(x) == k {
        assert !KeyIs(key, k)(s[0]);
      }
    } else {
      assert ([x] + s)[1..] == s;
    }
  }

  /** The sort is stable: among elements with one key, the order is the original one. */
  lemma {:induction false} SortByStable<T>(s: seq<T>, key: T -> int, k: int)
    ensures Filter(SortBy(s, key), KeyIs(key, k)) == Filter(s, KeyIs(key, k))
    decreases |s|
  {
    if s != [] {
      SortByStable(s[1..], key, k);
      SortByFacts(s[1..], key);
      InsertStable(s[0], SortBy(s[1..], key), key, k);
    }
  }

  /** Filter by `keep`, after filtering by `pre` first when `usePre` holds. */
  function Narrow<T(!new)>(s: seq<T>, pre: T -> bool, keep: T -> bool, usePre: bool): (r: seq<T>)
    ensures IsSubsequence(r, s)
    ensures forall i :: 0 <= i < |r| ==> keep(r[i]) && (usePre ==> pre(r[i]))
    ensures forall i :: 0 <= i < |s| && keep(s[i]) && (usePre ==> pre(s[i])) ==> s[i] in r
    ensures forall x :: multiset(r)[x] == if keep(x) && (usePre ==> pre(x)) then multiset(s)[x] else 0
  {
    if usePre then
      FilterTwice(s, pre, keep);
      FilterIsSubsequence(s, x => pre(x) && keep(x));
      FilterCounts(s, x => pre(x) && keep(x));
      Filter(Filter(s, pre), keep)
    else
      FilterIsSubsequence(s, keep);
      FilterCounts(s, keep);
      Filter(s, keep)
  }

  /** Counting the same predicate over two sequences that agree on it position by position. */
  lemma {:induction false} CountPointwise<T>(a: seq<T>, b: seq<T>, p: T -> bool)
    requires |a| == |b| && forall i :: 0 <= i < |a| ==> p(a[i]) == p(b[i])
    ensures Count(a, p) == Count(b, p)
    decreases |a|
  {
    if a != [] {
      CountPointwise(a[1..], b[1..], p);
    }
  }

  // ---------------------------------------------------------------------
  // new Set(...): first occurrences
  // ---------------------------------------------------------------------

  predicate Distinct<T(==)>(s: seq<T>) {
    forall i, j :: 0 <= i < j < |s| ==> s[i] != s[j]
  }

  /** Leaving elements out of a sequence without repeats leaves no repeats. */
  lemma {:induction false} FilterDistinct<T>(s: seq<T>, p: T -> bool)
    requires Distinct(s)
    ensures Distinct(Filter(s, p))
    decreases |s|
  {
    if s != [] {
      FilterDistinct(s[1..], p);
      var rest := Filter(s[1..], p);
      assert forall i :: 0 <= i < |rest| ==> rest[i] in s[1..];
      assert s[0] !in s[1..];
    }
  }

  /** Array.from(new Set(s)): each value once, at its first occurrence. */
  function Dedup<T(==)>(s: seq<T>): (r: seq<T>)
    ensures Distinct(r)
    ensures forall i :: 0 <= i < |r| ==> r[i] in s
    ensures forall i :: 0 <= i < |s| ==> s[i] in r
    decreases |s|
  {
    if s == [] then []
    else
      var d := Dedup(s[..|s| - 1]);
      var x := s[|s| - 1];
      assert s == s[..|s| - 1] + [x];
      if x in d then d else d + [x]
  }

  // ---------------------------------------------------------------------
  // Array.prototype.sort() on strings: UTF-16 code unit order
  // ---------------------------------------------------------------------

  /** `a < b` for strings: the first differing code unit decides, and a proper prefix
      comes first. */
  predicate StrLess(a: string, b: string)
    decreases |a|
  {
    b != [] && (a == [] || a[0] < b[0] || (a[0] == b[0] && StrLess(a[1..], b[1..])))
  }

  lemma {:induction false} StrLessIrreflexive(a: string)
    ensures !StrLess(a, a)
    decreases |a|
  {
    if a != [] {
      StrLessIrreflexive(a[1..]);
    }
  }

  lemma {:induction false} StrLessTransitive(a: string, b: string, c: string)
    requires StrLess(a, b) && StrLess(b, c)
    ensures StrLess(a, c)
    decreases |a|
  {
    if a != [] && a[0] == b[0] && b[0] == c[0] {
      StrLessTransitive(a[1..], b[1..], c[1..]);
    }
  }

  lemma {:induction false} StrLessTotal(a: string, b: string)
    requires a != b
    ensures StrLess(a, b) || StrLess(b, a)
    decreases |a|
  {
    if a != [] && b != [] && a[0] == b[0] {
      assert a == [a[0]] + a[1..] && b == [b[0]] + b[1..];
      StrLessTotal(a[1..], b[1..]);
    }
  }

  lemma {:induction false} StrLessAsymmetric(a: string, b: string)
    requires StrLess(a, b)
    ensures !StrLess(b, a)
    decreases |a|
  {
    if a != [] && a[0] == b[0] {
      StrLessAsymmetric(a[1..], b[1..]);
    }
  }

  /** Ascending code unit order, with equal strings allowed side by side. */
  predicate StrSorted(s: seq<string>) {
    forall i, j :: 0 <= i < j < |s| ==> !StrLess(s[j], s[i])
  }

  function InsertStr(x: string, s: seq<string>): (r: seq<string>)
    ensures |r| == |s| + 1
    decreases |s|
  {
    if s == [] || !StrLess(s[0], x) then [x] + s
    else [s[0]] + InsertStr(x, s[1..])
  }

  /** Array.prototype.sort() with no comparator, on strings. */
  function SortStrings(s: seq<string>): (r: seq<string>)
    ensures |r| == |s|
    decreases |s|
  {
    if s == [] then [] else InsertStr(s[0], SortStrings(s[1..]))
  }

  lemma {:induction false} InsertStrBound(x: string, s: seq<string>, lo: string)
    requires !StrLess(x, lo) && forall i :: 0 <= i < |s| ==> !StrLess(s[i], lo)
    ensures forall i :: 0 <= i < |InsertStr(x, s)| ==> !StrLess(InsertStr(x, s)[i], lo)
    decreases |s|
  {
    if s != [] && StrLess(s[0], x) {
      InsertStrBound(x, s[1..], lo);
      var t := InsertStr(x, s[1..]);
      assert forall i :: 1 <= i < |t| + 1 ==> ([s[0]] + t)[i] == t[i - 1];
    } else {
      assert forall i :: 1 <= i < |s| + 1 ==> ([x] + s)[i] == s[i - 1];
    }
  }

  /** Not below `lo` stays so after one more `<`-step up. */
  lemma NotBelow(a: string, b: string, lo: string)
    requires !StrLess(a, b) && !StrLess(b, lo)
    ensures !StrLess(a, lo)
  {
    if StrLess(a, lo) {
      if b == lo {
      } else if a == b {
      } else {
        StrLessTotal(a, b);
        StrLessTotal(b, lo);
        StrLessTransitive(b, a, lo);
      }
    }
  }

  lemma {:induction false} InsertStrSorted(x: string, s: seq<string>)
    requires StrSorted(s)
    ensures StrSorted(InsertStr(x, s))
    decreases |s|
  {
    if s != [] && StrLess(s[0], x) {
      InsertStrSorted(x, s[1..]);
      StrLessAsymmetric(s[0], x);
      forall i | 0 <= i < |s[1..]| ensures !StrLess(s[1..][i], s[0]) {
        assert s[1..][i] == s[i + 1];
      }
      InsertStrBound(x, s[1..], s[0]);
      var t := InsertStr(x, s[1..]);
      assert forall i :: 1 <= i < |t| + 1 ==> ([s[0]] + t)[i] == t[i - 1];
    } else if s != [] {
      forall j | 0 < j < |s| + 1 ensures !StrLess(([x] + s)[j], x) {
        assert ([x] + s)[j] == s[j - 1];
        StrLessIrreflexive(s[0]);
        NotBelow(s[j - 1], s[0], x);
      }
      assert forall i :: 1 <= i < |s| + 1 ==> ([x] + s)[i] == s[i - 1];
    }
  }

  lemma {:induction false} InsertStrMultiset(x: string, s: seq<string>)
    ensures multiset(InsertStr(x, s)) == multiset(s) + multiset{x}
    decreases |s|
  {
    if s != [] && StrLess(s[0], x) {
      InsertStrMultiset(x, s[1..]);
      assert s == [s[0]] + s[1..];
    }
  }

  lemma {:induction false} SortStringsFacts(s: seq<string>)
    ensures StrSorted(SortStrings(s))
    ensures multiset(SortStrings(s)) == multiset(s)
    decreases |s|
  {
    if s != [] {
      SortStringsFacts(s[1..]);
      InsertStrSorted(s[0], SortStrings(s[1..]));
      InsertStrMultiset(s[0], SortStrings(s[1..]));
      assert s == [s[0]] + s[1..];
    }
  }

  /** Two arrangements of the same elements have the same members. */
  lemma SameMembers<T>(a: seq<T>, b: seq<T>)
    requires multiset(a) == multiset(b)
    ensures forall i :: 0 <= i < |b| ==> b[i] in a
    ensures forall i :: 0 <= i < |a| ==> a[i] in b
  {
    forall i | 0 <= i < |b| ensures b[i] in a {
      assert b[i] in multiset(b);
    }
    forall i | 0 <= i < |a| ensures a[i] in b {
      assert a[i] in multiset(a);
    }
  }

  /** A sorted permutation of distinct strings is strictly ascending. */
  lemma SortedDistinct(s: seq<string>, t: seq<string>)
    requires Distinct(s) && StrSorted(t) && multiset(t) == multiset(s)
    ensures Distinct(t)
    ensures forall i, j :: 0 <= i < j < |t| ==> StrLess(t[i], t[j])
  {
    DistinctMultiset(s);
    forall i, j | 0 <= i < j < |t| ensures t[i] != t[j] {
      RepeatCounted(t, i, j);
    }
    forall i, j | 0 <= i < j < |t| ensures StrLess(t[i], t[j]) {
      StrLessTotal(t[i], t[j]);
    }
  }

  /** A value at two positions is counted at least twice. */
  lemma RepeatCounted<T>(t: seq<T>, i: nat, j: nat)
    requires i < j < |t|
    ensures t[i] == t[j] ==> multiset(t)[t[i]] >= 2
  {
    assert t == t[..j] + [t[j]] + t[j + 1..];
    assert t[i] in t[..j];
    assert multiset(t) == multiset(t[..j]) + multiset{t[j]} + multiset(t[j + 1..]);
  }

  /** In a sequence without repeats every value occurs at most once. */
  lemma {:induction false} DistinctMultiset<T>(s: seq<T>)
    requires Distinct(s)
    ensures forall x :: multiset(s)[x] <= 1
    decreases |s|
  {
    if s != [] {
      DistinctMultiset(s[1..]);
      assert s == [s[0]] + s[1..];
      assert s[0] !in s[1..];
    }
  }

  // ---------------------------------------------------------------------
  // slice(0, n)
  // ---------------------------------------------------------------------

  function Take<T>(s: seq<T>, n: nat): (r: seq<T>)
    ensures |r| == if |s| < n then |s| else n
    ensures r == s[..|r|]
  {
    if |s| < n then s else s[..n]
  }
}

=== FILE: dashboard.dfy ===
/**
 * The computations the three dashboards make over the complaint list: the admin filter and
 * its 50-row pages, the "today" list, the per-technician grouping of today's work, the
 * technician options, the analytics counts and percentages, and the technician's own
 * job list with its daily goal.
 *
 * "Today" is the canonical `DD-MM-YYYY` text getPKDate() produced; the filter state the
 * admin edits in the UI is a parameter.
 */
module Dashboard {
  import opened Wrappers
  import opened JsText
  import opened Calendar
  import opened DateNormalizer
  import opened Collections
  import opened Records
  import opened Grouping

  // ---------------------------------------------------------------------
  // The today list (index.tsx:626, 646, 388)
  // ---------------------------------------------------------------------

  /** `c.updateDate?.startsWith(today) || c.regDate.startsWith(today)`. */
  predicate IsToday(c: Complaint, today: string) {
    StartsWith(c.updateDate, today) || StartsWith(c.regDate, today)
  }

  function TodayList(cs: seq<Complaint>, today: string): (r: seq<Complaint>)
    ensures IsSubsequence(r, cs)
    ensures forall i :: 0 <= i < |r| ==> IsToday(r[i], today)
    ensures forall i :: 0 <= i < |cs| && IsToday(cs[i], today) ==> cs[i] in r
    ensures forall x :: multiset(r)[x] == if IsToday(x, today) then multiset(cs)[x] else 0
  {
    FilterIsSubsequence(cs, c => IsToday(c, today));
    FilterCounts(cs, c => IsToday(c, today));
    Filter(cs, c => IsToday(c, today))
  }

  /** Canonical text of a moment starts with today's date exactly when the moment falls on
      today, as long as both years are written with four digits. */
  lemma TodayMeansSameDay(t: int, now: int, includeTime: bool)
    requires ValidTime(t) && ValidTime(now)
    requires 1000 <= DateOf(t).year < 10000 && 1000 <= DateOf(now).year < 10000
    ensures StartsWith(Render(t, includeTime), Render(now, false)) <==> DayOf(t) == DayOf(now)
  {
    if DayOf(t) == DayOf(now) {
      SameDayIsToday(t, now, includeTime);
    }
    if StartsWith(Render(t, includeTime), Render(now, false)) {
      RenderedDateLength(DateOf(t));
      RenderedDateLength(DateOf(now));
      PrefixOfSameLength(RenderDate(DateOf(t)), ClockSuffix(t, includeTime), RenderDate(DateOf(now)));
      SameTextSameDay(t, now);
    }
  }

  lemma SameDayIsToday(t: int, now: int, includeTime: bool)
    requires DayOf(t) == DayOf(now)
    ensures StartsWith(Render(t, includeTime), Render(now, false))
  {
    var d := RenderDate(DateOf(t));
    assert Render(t, includeTime)[..|d|] == d;
  }

  lemma PrefixOfSameLength(d: string, tail: string, e: string)
    requires |d| == |e| && StartsWith(d + tail, e)
    ensures d == e
  {
    assert (d + tail)[..|d|] == d;
  }

  /** Two moments with the same canonical date text lie on the same day. */
  lemma SameTextSameDay(t: int, now: int)
    requires ValidTime(t) && ValidTime(now)
    requires DateOf(t).year >= 100 && DateOf(now).year >= 100
    requires RenderDate(DateOf(t)) == RenderDate(DateOf(now))
    ensures DayOf(t) == DayOf(now)
  {
    assert Render(t, false) == Render(now, false);
    ParseStandardRendered(t, false);
    ParseStandardRendered(now, false);
  }

  lemma RenderedDateLength(c: Civil)
    requires ValidCivil(c) && 1000 <= c.year < 10000
    ensures |RenderDate(c)| == 10
  {
    NatToStringFacts(c.year);
    Pad2Digits(c.day);
    Pad2Digits(c.month);
  }

  // ---------------------------------------------------------------------
  // The admin filter (index.tsx:622-642)
  // ---------------------------------------------------------------------

  datatype DateRange = DateRange(start: string, end: string)

  /** The search box, the status and technician pick lists, and the date range. */
  datatype FilterState = FilterState(
    search: string, statuses: seq<string>, techs: seq<string>, range: DateRange)

  const Unfiltered: FilterState := FilterState("", [], [], DateRange("", ""))

  /** Name and model are matched case-insensitively, complaint and phone number exactly. */
  predicate SearchMatch(c: Complaint, term: string) {
    || Contains(Lower(c.customerName), Lower(term))
    || Contains(c.complaintNo, term)
    || Contains(c.phoneNo, term)
    || Contains(Lower(c.model), Lower(term))
  }

  /** An empty pick list places no restriction. */
  predicate Picked(value: string, picks: seq<string>) {
    |picks| == 0 || value in picks
  }

  /** `a <= b` between two Date objects: false when either is an Invalid Date. */
  predicate NotLater(a: TimeValue, b: TimeValue) {
    a.Time? && b.Time? && a.ms <= b.ms
  }

  /** The date test as written: it applies only when both bounds are set and all three
      dates parse; an Invalid Date passes the null test and then fails both comparisons. */
  predicate DateMatchAsWritten(c: Complaint, range: DateRange) {
    range.start != "" && range.end != "" ==>
      match (ParseStandardDate(range.start), ParseStandardDate(range.end), ParseStandardDate(c.regDate))
      case (Some(sd), Some(ed), Some(cd)) => NotLater(sd, cd) && NotLater(cd, ed)
      case _ => true
  }

  /** The date test with an unreadable date treated like a missing one: the range applies
      only when both bounds and the registration date are real dates. */
  predicate DateMatch(c: Complaint, range: DateRange) {
    range.start != "" && range.end != "" ==>
      match (ParseStandardDate(range.start), ParseStandardDate(range.end), ParseStandardDate(c.regDate))
      case (Some(Time(s)), Some(Time(e)), Some(Time(d))) => s <= d <= e
      case _ => true
  }

  /** The four tests of the admin list, with the date test as written. */
  predicate Matches(c: Complaint, f: FilterState) {
    SearchMatch(c, f.search) && Picked(c.status, f.statuses) && Picked(c.techName, f.techs)
    && DateMatchAsWritten(c, f.range)
  }

  /** The four tests with the corrected date test. */
  predicate MatchesCorrected(c: Complaint, f: FilterState) {
    SearchMatch(c, f.search) && Picked(c.status, f.statuses) && Picked(c.techName, f.techs)
    && DateMatch(c, f.range)
  }

  /** The admin list: the today list in the today view, the whole list otherwise, narrowed
      to the records that pass every test, in their original order. */
  function Filtered(cs: seq<Complaint>, f: FilterState, todayView: bool, today: string): (r: seq<Complaint>)
    ensures IsSubsequence(r, cs)
    ensures forall i :: 0 <= i < |r| ==> Matches(r[i], f) && (todayView ==> IsToday(r[i], today))
    ensures forall i :: 0 <= i < |cs| && Matches(cs[i], f) && (todayView ==> IsToday(cs[i], today)) ==> cs[i] in r
    ensures forall x :: multiset(r)[x] == if Matches(x, f) && (todayView ==> IsToday(x, today)) then multiset(cs)[x] else 0
  {
    Narrow(cs, c => IsToday(c, today), c => Matches(c, f), todayView)
  }

  /** The admin list with the corrected date test: a record whose registration date is an
      Invalid Date is kept like one whose date does not parse. */
  function FilteredCorrected(cs: seq<Complaint>, f: FilterState, todayView: bool, today: string): (r: seq<Complaint>)
    ensures IsSubsequence(r, cs)
    ensures forall i :: 0 <= i < |r| ==> MatchesCorrected(r[i], f) && (todayView ==> IsToday(r[i], today))
    ensures forall i :: 0 <= i < |cs| && MatchesCorrected(cs[i], f) && (todayView ==> IsToday(cs[i], today)) ==> cs[i] in r
    ensures forall x :: multiset(r)[x] == if MatchesCorrected(x, f) && (todayView ==> IsToday(x, today)) then multiset(cs)[x] else 0
  {
    Narrow(cs, c => IsToday(c, today), c => MatchesCorrected(c, f), todayView)
  }

  /** When no date in play parses to an Invalid Date, the written list and the corrected one
      are the same. */
  lemma {:induction false} FilteredAgrees(cs: seq<Complaint>, f: FilterState, todayView: bool, today: string)
    requires ParseStandardDate(f.range.start) != Some(Invalid) && ParseStandardDate(f.range.end) != Some(Invalid)
    requires forall i :: 0 <= i < |cs| ==> ParseStandardDate(cs[i].regDate) != Some(Invalid)
    ensures Filtered(cs, f, todayView, today) == FilteredCorrected(cs, f, todayView, today)
  {
    forall c | c in cs ensures Matches(c, f) == MatchesCorrected(c, f) {
      DateMatchAgrees(c, f.range);
    }
    var base := if todayView then Filter(cs, c => IsToday(c, today)) else cs;
    FilterSame(base, c => Matches(c, f), c => MatchesCorrected(c, f));
  }

  /** Both agree on every record whose registration date is a real date or unreadable as
      a three-piece date. */
  lemma DateMatchAgrees(c: Complaint, range: DateRange)
    requires ParseStandardDate(c.regDate) != Some(Invalid)
    requires ParseStandardDate(range.start) != Some(Invalid) && ParseStandardDate(range.end) != Some(Invalid)
    ensures DateMatchAsWritten(c, range) == DateMatch(c, range)
  {
  }

  /** With canonical bounds, a record with canonical registration text passes the date test
      exactly when its day lies between the two bound days, both included. */
  lemma DateRangeByDay(c: Complaint, u: int, includeTime: bool, a: int, b: int)
    requires ValidTime(u) && ValidTime(a) && ValidTime(b)
    requires DateOf(u).year >= 100 && DateOf(a).year >= 100 && DateOf(b).year >= 100
    requires c.regDate == Render(u, includeTime)
    ensures DateMatch(c, DateRange(Render(a, false), Render(b, false)))
      <==> DayOf(a) <= DayOf(u) <= DayOf(b)
    ensures DateMatchAsWritten(c, DateRange(Render(a, false), Render(b, false)))
      <==> DayOf(a) <= DayOf(u) <= DayOf(b)
  {
    ParseStandardRendered(u, includeTime);
    ParseStandardRendered(a, false);
    ParseStandardRendered(b, false);
    RenderNotEmpty(a, false);
    RenderNotEmpty(b, false);
    RangeOfMidnights(c, DateRange(Render(a, false), Render(b, false)), DayOf(a), DayOf(b), DayOf(u));
  }

  lemma RangeOfMidnights(c: Complaint, range: DateRange, s: int, e: int, d: int)
    requires range.start != "" && range.end != ""
    requires ParseStandardDate(range.start) == Some(Time(s * MsPerDay))
    requires ParseStandardDate(range.end) == Some(Time(e * MsPerDay))
    requires ParseStandardDate(c.regDate) == Some(Time(d * MsPerDay))
    ensures DateMatch(c, range) <==> s <= d <= e
    ensures DateMatchAsWritten(c, range) <==> s <= d <= e
  {
  }

  /** A registration date that is not three `-` pieces never excludes a record. */
  lemma UnreadableDateKept(c: Complaint, range: DateRange)
    requires ParseStandardDate(c.regDate).None?
    ensures DateMatch(c, range) && DateMatchAsWritten(c, range)
  {
  }

  /** The written test drops a record whose registration date is three pieces that are not
      numbers, where the corrected test keeps it. */
  lemma DateRangeDropsMalformed(c: Complaint, t: int)
    requires ValidTime(t) && DateOf(t).year >= 100
    requires c.regDate == "a-b-c"
    ensures !DateMatchAsWritten(c, DateRange(Render(t, false), Render(t, false)))
    ensures DateMatch(c, DateRange(Render(t, false), Render(t, false)))
  {
    ParseStandardRendered(t, false);
    RenderNotEmpty(t, false);
    AgingOfMalformedDate(0);
    InvalidDateDropped(c, DateRange(Render(t, false), Render(t, false)), DayOf(t) * MsPerDay);
  }

  /** With only a one-day range set, the admin list drops a record dated `a-b-c`, and the
      corrected list keeps it. */
  lemma FilteredDropsMalformed(c: Complaint, t: int, today: string)
    requires ValidTime(t) && DateOf(t).year >= 100
    requires c.regDate == "a-b-c"
    ensures var f := Unfiltered.(range := DateRange(Render(t, false), Render(t, false)));
      Filtered([c], f, false, today) == [] && FilteredCorrected([c], f, false, today) == [c]
  {
    var f := Unfiltered.(range := DateRange(Render(t, false), Render(t, false)));
    DateRangeDropsMalformed(c, t);
    ContainsEmpty(c.complaintNo);
    assert !Matches(c, f) && MatchesCorrected(c, f);
    assert [c][1..] == [];
  }

  /** ...while a date with no dash at all, such as "pending", is kept by both. */
  lemma DashlessDateKept(c: Complaint, range: DateRange)
    requires c.regDate == "pending"
    ensures DateMatch(c, range) && DateMatchAsWritten(c, range)
  {
    NoDashNoDate(c.regDate);
  }

  lemma InvalidDateDropped(c: Complaint, range: DateRange, m: int)
    requires range.start != "" && range.end != ""
    requires ParseStandardDate(range.start) == Some(Time(m)) && ParseStandardDate(range.end) == Some(Time(m))
    requires ParseStandardDate(c.regDate) == Some(Invalid)
    ensures !DateMatchAsWritten(c, range) && DateMatch(c, range)
  {
  }

  lemma ContainsEmpty(s: string)
    ensures Contains(s, "")
  {
    assert OccursAt(s, "", 0);
  }

  /** An empty search, no picks and no date range keep every record. */
  lemma UnfilteredKeepsAll(cs: seq<Complaint>, today: string)
    ensures Filtered(cs, Unfiltered, false, today) == cs
    ensures Filtered(cs, Unfiltered, true, today) == TodayList(cs, today)
  {
    forall c: Complaint ensures Matches(c, Unfiltered) {
      ContainsEmpty(c.complaintNo);
    }
    FilterAll(cs, c => Matches(c, Unfiltered));
    FilterAll(TodayList(cs, today), c => Matches(c, Unfiltered));
  }

  /** Letter case in the search term does not matter for names and models. */
  lemma SearchIgnoresCaseOfNames(c: Complaint, term: string)
    requires Contains(Lower(c.customerName), Lower(term)) || Contains(Lower(c.model), Lower(term))
    ensures SearchMatch(c, Upper(term)) && SearchMatch(c, Lower(term))
  {
    LowerOfUpper(term);
  }

  lemma LowerOfUpper(s: string)
    ensures Lower(Upper(s)) == Lower(s) && Lower(Lower(s)) == Lower(s)
  {
  }

  /** ...but it does matter for complaint numbers. */
  lemma ComplaintNoIsCaseSensitive(c: Complaint)
    requires c.complaintNo == "AB1" && c.phoneNo == "" && c.customerName == "" && c.model == ""
    ensures SearchMatch(c, "AB1") && !SearchMatch(c, "ab1")
  {
    assert StartsWith(c.complaintNo, "AB1");
    assert Lower("") == "";
    assert !Contains("AB1", "ab1") by {
      assert "AB1"[..3] != "ab1";
    }
  }

  // ---------------------------------------------------------------------
  // Pages (index.tsx:543, 664)
  // ---------------------------------------------------------------------

  const PageSize: nat := 50

  function Min(a: int, b: int): int {
    if a <= b then a else b
  }

  /** `filtered.slice((currentPage - 1) * pageSize, currentPage * pageSize)`. */
  function Page<T>(list: seq<T>, page: int): (r: seq<T>)
    ensures |r| <= PageSize
    ensures page >= 1 ==> r == list[Min((page - 1) * PageSize, |list|)..Min(page * PageSize, |list|)]
  {
    Slice(list, (page - 1) * PageSize, page * PageSize)
  }

  /** The number of the last page: the Next button is disabled there. */
  function PageCount(n: nat): nat {
    (n + PageSize - 1) / PageSize
  }

  /** Pages 1 to n, one after another. */
  function FirstPages<T>(list: seq<T>, n: nat): seq<T> {
    if n == 0 then [] else FirstPages(list, n - 1) + Page(list, n)
  }

  /** Consecutive pages tile the list: pages 1..n are its first 50n rows. */
  lemma {:induction false} PagesTile<T>(list: seq<T>, n: nat)
    ensures FirstPages(list, n) == list[..Min(n * PageSize, |list|)]
  {
    if n > 0 {
      PagesTile(list, n - 1);
      var a := Min((n - 1) * PageSize, |list|);
      var b := Min(n * PageSize, |list|);
      assert list[..b] == list[..a] + list[a..b];
    }
  }

  /** Paging from 1 to the last page shows every row once. */
  lemma AllPages<T>(list: seq<T>)
    ensures FirstPages(list, PageCount(|list|)) == list
  {
    PagesTile(list, PageCount(|list|));
    assert list[..|list|] == list;
  }

  /** A page past the last one is empty. */
  lemma PageBeyondEnd<T>(list: seq<T>, page: int)
    requires page >= 1 && (page - 1) * PageSize >= |list|
    ensures Page(list, page) == []
  {
  }

  // ---------------------------------------------------------------------
  // Today's work per technician (index.tsx:644-657)
  // ---------------------------------------------------------------------

  /** `c.techName || "UNASSIGNED"`. */
  function GroupKey(c: Complaint): (k: string)
    ensures k != ""
  {
    if c.techName == "" then "UNASSIGNED" else c.techName
  }

  /** The sort key of `(a, b) => b.jobs.length - a.jobs.length`: larger groups first. */
  function SizeDown(g: Group<Complaint>): int {
    -(|g.items| as int)
  }

  /** activePersonnel and techGrouped; the date label is locale formatting. */
  datatype TodayStats = TodayStats(activePersonnel: nat, techGrouped: seq<Group<Complaint>>)

  function TodayStatsOf(cs: seq<Complaint>, today: string): TodayStats {
    var groups := GroupBy(TodayList(cs, today), GroupKey);
    TodayStats(|groups|, SortBy(Entries(groups), SizeDown))
  }

  /** The groups partition today's list by technician, largest first, ties in entry order,
      and there is one active person per group. */
  lemma TodayStatsFacts(cs: seq<Complaint>, today: string)
    ensures var r := TodayStatsOf(cs, today);
      && GroupsOf(r.techGrouped, TodayList(cs, today), GroupKey)
      && r.activePersonnel == |r.techGrouped|
      && (forall i, j :: 0 <= i < j < |r.techGrouped| ==> |r.techGrouped[i].items| >= |r.techGrouped[j].items|)
      && (forall n :: Filter(r.techGrouped, KeyIs(SizeDown, n))
                   == Filter(Entries(GroupBy(TodayList(cs, today), GroupKey)), KeyIs(SizeDown, n)))
  {
    var list := TodayList(cs, today);
    var groups := GroupBy(list, GroupKey);
    var entries := Entries(groups);
    var sorted := SortBy(entries, SizeDown);
    GroupByFacts(list, GroupKey);
    EntriesFacts(groups);
    GroupsOfPermutation(groups, entries, list, GroupKey);
    SortByFacts(entries, SizeDown);
    GroupsOfPermutation(entries, sorted, list, GroupKey);
    forall n ensures Filter(sorted, KeyIs(SizeDown, n)) == Filter(entries, KeyIs(SizeDown, n)) {
      SortByStable(entries, SizeDown, n);
    }
  }

  /** An unassigned job and a job for a technician called UNASSIGNED share a group. */
  lemma UnassignedGroup(c: Complaint)
    requires c.techName == "" || c.techName == "UNASSIGNED"
    ensures GroupKey(c) == "UNASSIGNED"
  {
  }

  // ---------------------------------------------------------------------
  // Technician options (index.tsx:660-662)
  // ---------------------------------------------------------------------

  function TechNames(cs: seq<Complaint>): (r: seq<string>)
    ensures |r| == |cs| && forall i :: 0 <= i < |cs| ==> r[i] == cs[i].techName
  {
    seq(|cs|, i requires 0 <= i < |cs| => cs[i].techName)
  }

  predicate NonEmpty(s: string) {
    s != ""
  }

  /** `Array.from(new Set(names)).filter(Boolean).sort()`: every non-empty technician name,
      once, in code unit order. */
  function TechOptions(cs: seq<Complaint>): (r: seq<string>)
    ensures forall i, j :: 0 <= i < j < |r| ==> StrLess(r[i], r[j])
    ensures forall i :: 0 <= i < |r| ==> r[i] != "" && r[i] in TechNames(cs)
    ensures forall k :: 0 <= k < |cs| && cs[k].techName != "" ==> cs[k].techName in r
  {
    var names := TechNames(cs);
    OptionsOf(names);
    assert forall k :: 0 <= k < |cs| ==> names[k] == cs[k].techName;
    SortStrings(Filter(Dedup(names), NonEmpty))
  }

  lemma OptionsOf(names: seq<string>)
    ensures var r := SortStrings(Filter(Dedup(names), NonEmpty));
      && (forall i, j :: 0 <= i < j < |r| ==> StrLess(r[i], r[j]))
      && (forall i :: 0 <= i < |r| ==> r[i] != "" && r[i] in names)
      && (forall k :: 0 <= k < |names| && names[k] != "" ==> names[k] in r)
  {
    var d := Filter(Dedup(names), NonEmpty);
    var r := SortStrings(d);
    FilterDistinct(Dedup(names), NonEmpty);
    SortStringsFacts(d);
    SortedDistinct(d, r);
    SameMembers(d, r);
    forall k | 0 <= k < |names| && names[k] != "" ensures names[k] in d {
      assert names[k] in Dedup(names);
    }
  }

  // ---------------------------------------------------------------------
  // Analytics (index.tsx:229-239, 260, 270)
  // ---------------------------------------------------------------------

  predicate IsDone(c: Complaint) {
    c.status == "COMPLETED" || c.status == "VERIFIED"
  }

  predicate IsPending(c: Complaint) {
    c.status == "PENDING"
  }

  predicate HasProduct(c: Complaint) {
    c.product != ""
  }

  function ProductOf(c: Complaint): string {
    c.product
  }

  /** The filter "is of product p". */
  function ProductIs(p: string): Complaint -> bool {
    (c: Complaint) => c.product == p
  }

  /** One `[name, count]` entry of `Object.entries(byProduct)`. */
  datatype ProductCount = ProductCount(product: string, count: nat)

  datatype Stats = Stats(total: nat, completed: nat, pending: nat, topProducts: seq<ProductCount>)

  function Counted(gs: seq<Group<Complaint>>): (r: seq<ProductCount>)
    ensures |r| == |gs| && forall i :: 0 <= i < |gs| ==> r[i] == ProductCount(gs[i].name, |gs[i].items|)
  {
    seq(|gs|, i requires 0 <= i < |gs| => ProductCount(gs[i].name, |gs[i].items|))
  }

  /** `byProduct[c.product] = (byProduct[c.product] || 0) + 1` for every record with a
      product, read back with Object.entries. */
  function ByProduct(cs: seq<Complaint>): seq<ProductCount> {
    Counted(Entries(GroupBy(Filter(cs, HasProduct), ProductOf)))
  }

  /** The sort key of `(a, b) => b[1] - a[1]`: larger counts first. */
  function CountDown(e: ProductCount): int {
    -(e.count as int)
  }

  function StatsOf(cs: seq<Complaint>): (r: Stats)
    ensures r.total == |cs|
    ensures r.completed + r.pending <= r.total
    ensures |r.topProducts| <= 5
  {
    CountDisjoint(cs, IsDone, IsPending);
    Stats(|cs|, Count(cs, IsDone), Count(cs, IsPending), Take(SortBy(ByProduct(cs), CountDown), 5))
  }

  /** `es` holds one entry per product that occurs, with that product's number of records. */
  ghost predicate CountsOf(es: seq<ProductCount>, cs: seq<Complaint>) {
    && (forall i :: 0 <= i < |es| ==>
          es[i].product != "" && es[i].count == Count(cs, ProductIs(es[i].product)) && es[i].count > 0)
    && (forall i, j :: 0 <= i < j < |es| ==> es[i].product != es[j].product)
    && (forall k :: 0 <= k < |cs| && cs[k].product != "" ==>
          exists i :: 0 <= i < |es| && es[i].product == cs[k].product)
  }

  /** The records of one product among those with a product are all of that product's. */
  lemma ProductCountOf(cs: seq<Complaint>, p: string)
    requires p != ""
    ensures |Filter(Filter(cs, HasProduct), HasKey(ProductOf, p))| == Count(cs, ProductIs(p))
  {
    FilterTwice(cs, HasProduct, HasKey(ProductOf, p));
    FilterSame(cs, x => HasProduct(x) && HasKey(ProductOf, p)(x), ProductIs(p));
  }

  lemma ByProductFacts(cs: seq<Complaint>)
    ensures CountsOf(ByProduct(cs), cs)
  {
    var withProduct := Filter(cs, HasProduct);
    var groups := GroupBy(withProduct, ProductOf);
    var entries := Entries(groups);
    var es := ByProduct(cs);
    GroupByFacts(withProduct, ProductOf);
    EntriesFacts(groups);
    GroupsOfPermutation(groups, entries, withProduct, ProductOf);
    forall i | 0 <= i < |es|
      ensures es[i].product != "" && es[i].count == Count(cs, ProductIs(es[i].product)) && es[i].count > 0
    {
      CountedEntry(cs, entries[i]);
    }
    forall k | 0 <= k < |cs| && cs[k].product != ""
      ensures exists i :: 0 <= i < |es| && es[i].product == cs[k].product
    {
      assert cs[k] in withProduct;
      GroupOfMember(entries, withProduct, ProductOf, cs[k]);
    }
  }

  lemma CountedEntry(cs: seq<Complaint>, g: Group<Complaint>)
    requires g.items == Filter(Filter(cs, HasProduct), HasKey(ProductOf, g.name)) && g.items != []
    ensures g.name != "" && |g.items| == Count(cs, ProductIs(g.name))
  {
    var x := g.items[0];
    assert HasKey(ProductOf, g.name)(x) && x in Filter(cs, HasProduct);
    assert HasProduct(x);
    ProductCountOf(cs, g.name);
  }

  /** Sorting by count keeps the entries. */
  lemma CountsOfPermutation(es: seq<ProductCount>, a: seq<ProductCount>, cs: seq<Complaint>)
    requires CountsOf(es, cs) && multiset(a) == multiset(es)
    ensures CountsOf(a, cs)
  {
    forall i | 0 <= i < |a| ensures a[i] in es {
      assert a[i] in multiset(a);
    }
    forall k | 0 <= k < |cs| && cs[k].product != ""
      ensures exists i :: 0 <= i < |a| && a[i].product == cs[k].product
    {
      var j :| 0 <= j < |es| && es[j].product == cs[k].product;
      assert es[j] in multiset(a);
      var i :| 0 <= i < |a| && a[i] == es[j];
    }
    DistinctMultiset(es);
    forall i, j | 0 <= i < j < |a| ensures a[i].product != a[j].product {
      RepeatCounted(a, i, j);
      assert a[i] in multiset(es) && a[j] in multiset(es);
      var p :| 0 <= p < |es| && es[p] == a[i];
      var q :| 0 <= q < |es| && es[q] == a[j];
      assert p != q ==> es[p].product != es[q].product;
    }
  }

  /** topProducts: at most five products with their true counts, largest first, and any
      product left out has no more records than the last one shown. */
  lemma TopProductsFacts(cs: seq<Complaint>)
    ensures var top := StatsOf(cs).topProducts;
      && (forall i :: 0 <= i < |top| ==>
            top[i].product != "" && top[i].count == Count(cs, ProductIs(top[i].product)) && top[i].count > 0)
      && (forall i, j :: 0 <= i < j < |top| ==> top[i].product != top[j].product && top[i].count >= top[j].count)
      && (forall k ::
            (0 <= k < |cs| && cs[k].product != "" && forall i :: 0 <= i < |top| ==> top[i].product != cs[k].product)
            ==> |top| == 5 && Count(cs, ProductIs(cs[k].product)) <= top[4].count)
  {
    var es := ByProduct(cs);
    var sorted := SortBy(es, CountDown);
    ByProductFacts(cs);
    SortByFacts(es, CountDown);
    CountsOfPermutation(es, sorted, cs);
    TopOfSorted(sorted, cs);
  }

  lemma TopOfSorted(sorted: seq<ProductCount>, cs: seq<Complaint>)
    requires CountsOf(sorted, cs) && SortedBy(sorted, CountDown)
    ensures var top := Take(sorted, 5);
      && (forall i :: 0 <= i < |top| ==>
            top[i].product != "" && top[i].count == Count(cs, ProductIs(top[i].product)) && top[i].count > 0)
      && (forall i, j :: 0 <= i < j < |top| ==> top[i].product != top[j].product && top[i].count >= top[j].count)
      && (forall k ::
            (0 <= k < |cs| && cs[k].product != "" && forall i :: 0 <= i < |top| ==> top[i].product != cs[k].product)
            ==> |top| == 5 && Count(cs, ProductIs(cs[k].product)) <= top[4].count)
  {
    var top := Take(sorted, 5);
    assert forall i :: 0 <= i < |top| ==> top[i] == sorted[i];
    forall i, j | 0 <= i < j < |top| ensures top[i].count >= top[j].count {
      assert CountDown(sorted[i]) <= CountDown(sorted[j]);
    }
    forall k | 0 <= k < |cs| && cs[k].product != "" && forall i :: 0 <= i < |top| ==> top[i].product != cs[k].product
      ensures |top| == 5 && Count(cs, ProductIs(cs[k].product)) <= top[4].count
    {
      LeftOut(sorted, cs, k);
    }
  }

  /** A product missing from the first five of the sorted entries sits behind all of them. */
  lemma LeftOut(sorted: seq<ProductCount>, cs: seq<Complaint>, k: nat)
    requires CountsOf(sorted, cs) && SortedBy(sorted, CountDown)
    requires k < |cs| && cs[k].product != ""
    requires forall i :: 0 <= i < |sorted| && i < 5 ==> sorted[i].product != cs[k].product
    ensures |sorted| > 5 && Count(cs, ProductIs(cs[k].product)) <= sorted[4].count
  {
    var i :| 0 <= i < |sorted| && sorted[i].product == cs[k].product;
    assert CountDown(sorted[4]) <= CountDown(sorted[i]);
  }

  // ---------------------------------------------------------------------
  // Percentages (index.tsx:260, 270, 412)
  // ---------------------------------------------------------------------

  /** The exact percentage `num / den`. */
  datatype Percent = Percent(num: nat, den: nat)

  /** `total > 0 ? (count / total) * 100 : 0`, the width of a progress bar, as an exact
      fraction. */
  function Share(count: nat, total: nat): (r: Percent)
    ensures r.den > 0
    ensures total == 0 ==> r.num == 0
    ensures total > 0 ==> r.num * total == 100 * count * r.den
    ensures count <= total ==> r.num <= 100 * r.den
  {
    if total > 0 then Percent(100 * count, total) else Percent(0, 1)
  }

  /** Euclidean division of naturals brackets the quotient. */
  lemma DivBounds(a: nat, b: nat)
    requires b > 0
    ensures (a / b) * b <= a < (a / b + 1) * b
  {
    assert a == (a / b) * b + a % b;
  }

  /** Math.round of the quotient `num / den`: the nearest integer, a half going up. */
  function RoundQuotient(num: nat, den: nat): (r: nat)
    requires den > 0
    ensures 2 * r * den <= 2 * num + den < 2 * (r + 1) * den
  {
    DivBounds(2 * num + den, 2 * den);
    (2 * num + den) / (2 * den)
  }

  /** Only one integer lies within a half of a quotient, counting the half below. */
  lemma RoundUnique(num: nat, den: nat, n: int)
    requires den > 0
    requires 2 * n * den <= 2 * num + den < 2 * (n + 1) * den
    ensures n == RoundQuotient(num, den)
  {
    var r := RoundQuotient(num, den);
    MulCancel(n, r + 1, 2 * den);
    MulCancel(r, n + 1, 2 * den);
  }

  /** A positive factor can be cancelled from a strict inequality. */
  lemma MulCancel(a: int, b: int, c: int)
    requires c > 0 && a * c < b * c
    ensures a < b
  {
    assert (b - a) * c == b * c - a * c;
  }

  /** `total > 0 ? Math.round((completed / total) * 100) : 0`: the completion figure, the
      nearest whole percent to the completion share. */
  function CompletionPercent(completed: nat, total: nat): (r: nat)
    ensures total == 0 ==> r == 0
    ensures var w := Share(completed, total); 2 * r * w.den <= 2 * w.num + w.den < 2 * (r + 1) * w.den
  {
    if total > 0 then RoundQuotient(100 * completed, total) else 0
  }

  /** No more completed than total records means at most 100 percent. */
  lemma CompletionAtMostAll(completed: nat, total: nat)
    requires completed <= total
    ensures CompletionPercent(completed, total) <= 100
  {
    if total > 0 {
      var r := CompletionPercent(completed, total);
      assert 200 * completed <= 200 * total;
      MulCancel(2 * r, 202, total);
    }
  }

  /** The analytics figures: completion within 0..100 and every product bar within its
      track. */
  lemma AnalyticsPercentages(cs: seq<Complaint>)
    ensures CompletionPercent(StatsOf(cs).completed, StatsOf(cs).total) <= 100
    ensures var st := StatsOf(cs);
      forall i :: 0 <= i < |st.topProducts| ==>
        Share(st.topProducts[i].count, st.total).num <= 100 * Share(st.topProducts[i].count, st.total).den
  {
    var st := StatsOf(cs);
    CompletionAtMostAll(st.completed, st.total);
    TopProductsFacts(cs);
    forall i | 0 <= i < |st.topProducts| ensures st.topProducts[i].count <= st.total {
      assert st.topProducts[i].count == Count(cs, ProductIs(st.topProducts[i].product));
    }
  }

  // ---------------------------------------------------------------------
  // A one-pass tally of the analytics counts
  // ---------------------------------------------------------------------

  /** total, completed and pending in one loop over the records: the same three figures
      StatsOf reads off three filters. */
  method TallyStatuses(cs: seq<Complaint>) returns (total: nat, completed: nat, pending: nat)
    ensures total == StatsOf(cs).total
    ensures completed == StatsOf(cs).completed
    ensures pending == StatsOf(cs).pending
  {
    total, completed, pending := 0, 0, 0;
    var i := 0;
    while i < |cs|
      invariant 0 <= i <= |cs|
      invariant total == i
      invariant completed == Count(cs[..i], IsDone)
      invariant pending == Count(cs[..i], IsPending)
    {
      assert cs[..i + 1] == cs[..i] + [cs[i]];
      CountSnoc(cs[..i], cs[i], IsDone);
      CountSnoc(cs[..i], cs[i], IsPending);
      if IsDone(cs[i]) {
        completed := completed + 1;
      } else if IsPending(cs[i]) {
        pending := pending + 1;
      }
      total := total + 1;
      i := i + 1;
    }
    assert cs[..i] == cs;
  }
}

=== FILE: date_normalizer.dfy ===
/**
 * The date utilities of the complaint tracker (index.tsx:87-161, 677-682):
 * `standardizeDate` turns spreadsheet serials, day-first and month-first
 * strings and Date objects into the canonical `DD-MM-YYYY[ HH:MM]` text;
 * `parseStandardDate` reads the date part of canonical text back;
 * `calculateAging` counts whole days since a registration date; `getPKDate`
 * is "now" in canonical form; `getTimeOnly` picks the clock out of it.
 *
 * The clock is a parameter (`now`, a time value in milliseconds), and so is
 * the platform's free-form `new Date(string)` parser.
 */
module DateNormalizer {
  import opened Wrappers
  import opened JsText
  import opened Calendar

  /** The values callers pass as a date: absent, a number, a string or a Date object. */
  datatype DateInput =
    | Undefined
    | Null
    | Num(n: JsNumber)
    | Str(s: string)
    | DateObj(tv: TimeValue)

  /** `new Date(s)` for text whose date token is not three fields: implementation-defined,
      possibly an Invalid Date. */
  type FreeFormParser = string -> TimeValue

  /** Spreadsheet serials: day 25569 is 1970-01-01. */
  const SerialEpoch: int := 25569

  predicate ValidTime(t: int) {
    -MaxTime <= t <= MaxTime
  }

  // ---------------------------------------------------------------------
  // Rendering: the canonical DD-MM-YYYY[ HH:MM] text of a time value
  // ---------------------------------------------------------------------

  function TwoDigits(n: nat): string {
    Pad2(NatToString(n))
  }

  /** `${dd}-${mm}-${yyyy}`: the year is written as String(year), unpadded. */
  function RenderDate(c: Civil): string
    requires ValidCivil(c)
  {
    TwoDigits(c.day) + "-" + TwoDigits(c.month) + "-" + IntToString(c.year)
  }

  function RenderClock(h: nat, m: nat): string {
    TwoDigits(h) + ":" + TwoDigits(m)
  }

  /** The output of standardizeDate for a valid Date with time value t. */
  function Render(t: int, includeTime: bool): string {
    RenderDate(DateOf(t)) + ClockSuffix(t, includeTime)
  }

  /** ` HH:MM` when the time is included, nothing otherwise. */
  function ClockSuffix(t: int, includeTime: bool): string {
    if includeTime then " " + RenderClock(HourOf(t), MinuteOf(t)) else ""
  }

  // ---------------------------------------------------------------------
  // String(val)
  // ---------------------------------------------------------------------

  const WeekDays: seq<string> := ["Sun", "Mon", "Tue", "Wed", "Thu", "Fri", "Sat"]
  const MonthNames: seq<string> :=
    ["Jan", "Feb", "Mar", "Apr", "May", "Jun", "Jul", "Aug", "Sep", "Oct", "Nov", "Dec"]

  /** Day 0 (1970-01-01) was a Thursday; Sunday is 0. */
  function WeekDay(t: int): (k: nat)
    ensures k < 7
  {
    (DayOf(t) + 4) % 7
  }

  function ZeroPad(s: string, width: nat): string {
    if |s| >= width then s else Zeros(width - |s|) + s
  }

  /** Date.prototype.toString with a zero UTC offset (section 21.4.4.41 of ECMA-262):
      weekday, month, day, year of at least four digits, time, zone. */
  function DateToString(t: int): string {
    WeekDays[WeekDay(t)] + " " + DateStringBody(t) + ZoneSuffix
  }

  const ZoneSuffix: string := " GMT+0000 (Coordinated Universal Time)"

  function DateStringBody(t: int): string {
    var c := DateOf(t);
    var year := if c.year < 0 then "-" + ZeroPad(NatToString(-c.year), 4)
                else ZeroPad(NatToString(c.year), 4);
    MonthNames[c.month - 1] + " " + TwoDigits(c.day) + " " + year + " "
      + TwoDigits(HourOf(t)) + ":" + TwoDigits(MinuteOf(t)) + ":"
      + TwoDigits(TimeInDay(t) / 1000 % 60)
  }

  /** String(val). */
  function Text(val: DateInput): string {
    match val
    case Undefined => "undefined"
    case Null => "null"
    case Num(n) => NumberToString(n)
    case Str(s) => s
    case DateObj(tv) => if tv.Time? then DateToString(tv.ms) else "Invalid Date"
  }

  // ---------------------------------------------------------------------
  // The serial path (index.tsx:91-99)
  // ---------------------------------------------------------------------

  /** `typeof val === 'number' ? val : parseFloat(String(val))`. */
  function NumericValue(val: DateInput): JsNumber {
    match val
    case Num(n) => n
    case _ => ParseFloat(Text(val))
  }

  /** The open band 30000 < v < 60000 in which a number reads as a spreadsheet serial. */
  predicate InSerialBand(v: JsNumber) {
    GreaterThan(v, 30000) && LessThan(v, 60000)
  }

  /** The Date a serial in the band denotes: midnight of day floor(v) - 25569, then
      setHours with the rounded seconds of the fraction cut down to hours and minutes. */
  function SerialTime(v: JsNumber): (t: int)
    requires InSerialBand(v)
    ensures ValidTime(t)
  {
    var day := Floor(v) - SerialEpoch;
    var seconds := FractionSeconds(v);
    var r := SetHours(TimeClip(day * MsPerDay), seconds / 3600, seconds % 3600 / 60);
    assert Floor(v) < 60000 by { FloorBelow(v); }
    r.ms
  }

  lemma FloorBelow(v: JsNumber)
    requires v.Finite? && !v.negative && LessThan(v, 60000)
    ensures Floor(v) < 60000
  {
    if v.exponent < 0 {
      var d := Pow10(-v.exponent);
      assert v.mantissa < 60000 * d;
      QuotientBelow(v.mantissa, d, 60000);
    }
  }

  // ---------------------------------------------------------------------
  // The string path (index.tsx:101-125)
  // ---------------------------------------------------------------------

  /** A clock reading `(\d{1,2}):(\d{1,2})`. */
  datatype Clock = Clock(hour: nat, minute: nat)

  /** The regular expression /(\d{1,2}):(\d{1,2})/ anchored at index i, with the
      backtracking of the greedy hour group. */
  function ClockAt(s: string, i: nat): (r: Option<Clock>)
    ensures r.Some? ==> r.value.hour < 100 && r.value.minute < 100
  {
    if i < |s| && IsDigit(s[i]) then
      var hourLen := if i + 1 < |s| && s[i + 1] == ':' then 1
                     else if i + 2 < |s| && IsDigit(s[i + 1]) && s[i + 2] == ':' then 2
                     else 0;
      var j := i + hourLen + 1;
      if hourLen == 0 || j >= |s| || !IsDigit(s[j]) then None
      else
        var minuteLen := if j + 1 < |s| && IsDigit(s[j + 1]) then 2 else 1;
        Some(Clock(TwoDigitValue(s[i..i + hourLen]), TwoDigitValue(s[j..j + minuteLen])))
    else None
  }

  function TwoDigitValue(ds: string): (n: nat)
    requires 1 <= |ds| <= 2 && AllDigits(ds)
    ensures n < 100
  {
    if |ds| == 1 then DigitValue(ds[0]) else DigitValue(ds[0]) * 10 + DigitValue(ds[1])
  }

  /** `s.match(/(\d{1,2}):(\d{1,2})/)`: the leftmost match at or after index i. */
  function FindClock(s: string, i: nat): (r: Option<Clock>)
    decreases |s| - i
  {
    if i >= |s| then None
    else if ClockAt(s, i).Some? then ClockAt(s, i)
    else FindClock(s, i + 1)
  }

  /** The am/pm rule: "pm" anywhere moves hours below 12 up by 12, then "am" anywhere
      turns 12 into 0 (both tests are case-insensitive). */
  function AdjustHour(hour: nat, s: string): (h: nat)
    ensures !Contains(Lower(s), "pm") && !Contains(Lower(s), "am") ==> h == hour
  {
    var lower := Lower(s);
    var h1 := if Contains(lower, "pm") && hour < 12 then hour + 12 else hour;
    if Contains(lower, "am") && h1 == 12 then 0 else h1
  }

  /** `2000 + parseInt(p)` for a two-character year field. */
  function YearField(p: string): (y: Option<int>)
    ensures |p| != 2 ==> y == ParseInt(p)
    ensures |p| == 2 && ParseInt(p).Some? ==> y == Some(2000 + ParseInt(p).value)
    ensures ParseInt(p).None? ==> y.None?
  {
    var v := ParseInt(p);
    if |p| == 2 && v.Some? then Some(2000 + v.value) else v
  }

  function MinusOne(v: Option<int>): Option<int> {
    if v.Some? then Some(v.value - 1) else None
  }

  lemma MinusOneSome(x: int)
    ensures MinusOne(Some(x)) == Some(x - 1)
  {
  }

  /** The date token split on / - . into exactly three fields: a `/` anywhere in the token
      makes it month/day/year, anything else day/month/year. */
  function FieldDate(datePart: string, parts: seq<string>): TimeValue
    requires |parts| == 3
  {
    var p1 := ParseInt(parts[0]);
    var p2 := ParseInt(parts[1]);
    var p3 := YearField(parts[2]);
    if '/' in datePart then NewDate(p3, MinusOne(p1), p2)
    else NewDate(p3, MinusOne(p2), p1)
  }

  /** The Date built from trimmed, non-empty text that is not a serial. */
  function ParseText(s: string, parse: FreeFormParser): TimeValue {
    var datePart := FirstToken(s);
    var parts := DateFields(datePart);
    if |parts| == 3 then WithClock(FieldDate(datePart, parts), s) else parse(s)
  }

  /** The first clock in s, if any, set into the date with setHours(hours, minutes, 0, 0). */
  function WithClock(date: TimeValue, s: string): TimeValue {
    match FindClock(s, 0)
    case None => date
    case Some(clock) => SetHours(date, AdjustHour(clock.hour, s), clock.minute)
  }

  // ---------------------------------------------------------------------
  // standardizeDate (index.tsx:87-142)
  // ---------------------------------------------------------------------

  /** How standardizeDate ends: the empty string, the input unchanged, or a valid Date. */
  datatype Outcome = Blank | Unparsed | Parsed(t: int)

  /** `undefined`, `null` and the empty string are answered with the empty string at once. */
  predicate IsBlankInput(val: DateInput) {
    val.Undefined? || val.Null? || val == Str("")
  }

  /** The `isNaN(date.getTime())` test. */
  function Accept(tv: TimeValue): Outcome {
    if tv.Time? && ValidTime(tv.ms) then Parsed(tv.ms) else Unparsed
  }

  function Normalize(val: DateInput, parse: FreeFormParser): (r: Outcome)
    ensures r.Parsed? ==> ValidTime(r.t)
    ensures r.Blank? <==>
      IsBlankInput(val) || (!InSerialBand(NumericValue(val)) && AllSpace(Text(val)))
    ensures !IsBlankInput(val) && InSerialBand(NumericValue(val)) ==> r == Parsed(SerialTime(NumericValue(val)))
  {
    if IsBlankInput(val) then Blank
    else
      var v := NumericValue(val);
      if InSerialBand(v) then Parsed(SerialTime(v))
      else
        var s := Trim(Text(val));
        if s == "" then Blank else Accept(ParseText(s, parse))
  }

  /** standardizeDate(val, includeTime): the empty string exactly for blank input, otherwise
      either canonical text or the input's own String(...) text. */
  function StandardizeDate(val: DateInput, includeTime: bool, parse: FreeFormParser): (r: string)
    ensures r == "" <==> Normalize(val, parse).Blank?
    ensures r != "" ==> r == Text(val) || exists t :: ValidTime(t) && r == Render(t, includeTime)
  {
    match Normalize(val, parse)
    case Blank => ""
    case Unparsed => Text(val)
    case Parsed(t) => RenderNotEmpty(t, includeTime); Render(t, includeTime)
  }

  lemma RenderNotEmpty(t: int, includeTime: bool)
    ensures Render(t, includeTime) != ""
  {
    assert |Render(t, includeTime)| >= |TwoDigits(DateOf(t).day)| > 0;
  }

  /** What a platform parser has to do for getPKDate: Date.parse(x.toString()) is the time
      value of x with its milliseconds dropped (section 21.4.3.2 of ECMA-262). */
  predicate ReadsOwnText(parse: FreeFormParser, now: int) {
    parse(DateToString(now)) == Time(now - now % 1000)
  }

  /** getPKDate(includeTime): the current moment in canonical form. The Date object reaches
      standardizeDate's fallback as its own toString text, which has one field before the
      first blank, so it goes to the platform parser. */
  function GetPKDate(now: int, includeTime: bool, parse: FreeFormParser): (r: string)
    requires ValidTime(now) && ReadsOwnText(parse, now)
    ensures r == Render(now, includeTime)
  {
    PKDateReading(now, includeTime, parse);
    StandardizeDate(DateObj(Time(now)), includeTime, parse)
  }

  // ---------------------------------------------------------------------
  // parseStandardDate, calculateAging, getTimeOnly (index.tsx:148-161, 677-682)
  // ---------------------------------------------------------------------

  /** parseStandardDate(s): null (None) for the empty string or when the text before the
      first blank does not split into exactly three `-` pieces; otherwise
      `new Date(year, month - 1, day)`, which may be an Invalid Date. */
  function ParseStandardDate(s: string): (r: Option<TimeValue>)
    ensures s == "" ==> r.None?
    ensures r.Some? ==> |SplitChar(SplitChar(s, ' ')[0], '-')| == 3
    ensures ' ' !in s && '-' !in s ==> r.None?
    ensures s != "" && |SplitChar(SplitChar(s, ' ')[0], '-')| == 3 ==> r.Some?
    ensures r.Some? && r.value.Time? ==> TimeInDay(r.value.ms) == 0
  {
    if s == "" then None
    else
      var pureDate := SplitChar(s, ' ')[0];
      var parts := SplitChar(pureDate, '-');
      SplitCharSingle(s, ' ');
      SplitCharSingle(pureDate, '-');
      if |parts| != 3 then None
      else Some(NewDate(ParseInt(parts[2]), MinusOne(ParseInt(parts[1])), ParseInt(parts[0])))
  }

  /** calculateAging as written: `Math.max(0, Math.floor((now - d) / day))`, where an
      Invalid Date makes the difference NaN (None) and Math.max passes NaN through. */
  function CalculateAgingAsWritten(s: string, now: int): (r: Option<int>)
    ensures ParseStandardDate(s).None? ==> r == Some(0)
    ensures r.None? <==> ParseStandardDate(s) == Some(Invalid)
    ensures r.Some? ==> r.value >= 0
  {
    match ParseStandardDate(s)
    case None => Some(0)
    case Some(Invalid) => None
    case Some(Time(d)) => Some(Max(0, (now - d) / MsPerDay))
  }

  function Max(a: int, b: int): int {
    if a >= b then a else b
  }

  /** calculateAging with the Invalid Date case answered like the null case: whole days
      elapsed since the registration date, never negative, 0 when there is no readable date. */
  function CalculateAging(s: string, now: int): (r: nat)
    ensures ParseStandardDate(s).None? || ParseStandardDate(s) == Some(Invalid) ==> r == 0
    ensures ParseStandardDate(s).Some? && ParseStandardDate(s).value.Time? ==>
      var d := ParseStandardDate(s).value.ms;
      (r == 0 && now < d + MsPerDay) || (r > 0 && d + r * MsPerDay <= now < d + (r + 1) * MsPerDay)
  {
    match ParseStandardDate(s)
    case None => 0
    case Some(Invalid) => 0
    case Some(Time(d)) => if now - d >= 0 then (now - d) / MsPerDay else 0
  }

  /** getTimeOnly(s): the second blank-separated piece, or `--:--` when there is none. */
  function GetTimeOnly(s: string): (r: string)
    ensures ' ' !in s ==> r == "--:--"
    ensures r != "--:--" ==> ' ' !in r && exists i :: OccursAt(s, r, i)
    ensures ' ' in s ==> exists a, b :: PieceAfterFirst(s, r, a, b, ' ')
  {
    if s == "" then "--:--"
    else
      var parts := SplitChar(s, ' ');
      SplitCharSingle(s, ' ');
      if |parts| < 2 then "--:--"
      else
        SecondPieceOccurs(s, parts);
        assert s == parts[0] + [' '] + JoinWith(parts[1..], ' ');
        SecondPieceBetween(s, parts[0], parts[1..], ' ');
        parts[1]
  }

  /** r is the text of s between its first separator c, at a, and the next one or the end,
      at b. */
  predicate PieceAfterFirst(s: string, r: string, a: int, b: int, c: char) {
    && 0 <= a < b <= |s| && s[a] == c && c !in s[..a]
    && r == s[a + 1..b] && (b == |s| || s[b] == c)
  }

  lemma SecondPieceOccurs(s: string, parts: seq<string>)
    requires parts == SplitChar(s, ' ') && |parts| >= 2
    ensures OccursAt(s, parts[1], |parts[0]| + 1)
    ensures |parts[0]| < |s| && s[|parts[0]|] == ' ' && s[..|parts[0]|] == parts[0]
    ensures var j := |parts[0]| + 1 + |parts[1]|; j == |s| || (j < |s| && s[j] == ' ')
  {
    assert JoinWith(parts, ' ') == parts[0] + [' '] + JoinWith(parts[1..], ' ');
    JoinedSecond(parts[0], parts[1..], ' ');
  }

  /** The second piece sits right after the first separator and runs to the next one or to
      the end. */
  lemma SecondPieceBetween(s: string, first: string, rest: seq<string>, c: char)
    requires |rest| >= 1 && c !in first && s == first + [c] + JoinWith(rest, c)
    ensures exists a, b :: PieceAfterFirst(s, rest[0], a, b, c)
  {
    JoinedSecond(first, rest, c);
    PieceBetween(s, rest[0], |first|, c);
  }

  /** A piece that occurs right after a first separator and ends at the next one or at the
      end is the text between them. */
  lemma PieceBetween(s: string, piece: string, i: nat, c: char)
    requires i < |s| && s[i] == c && c !in s[..i] && OccursAt(s, piece, i + 1)
    requires var j := i + 1 + |piece|; j == |s| || (j < |s| && s[j] == c)
    ensures exists a, b :: PieceAfterFirst(s, piece, a, b, c)
  {
    var j := i + 1 + |piece|;
    assert s[i + 1..j] == piece;
    assert PieceAfterFirst(s, piece, i, j, c);
  }

  /** The text after the first piece and its separator starts with the second piece, which
      runs to the end or to the next separator. */
  lemma JoinedSecond(first: string, rest: seq<string>, c: char)
    requires |rest| >= 1
    ensures var s, j := first + [c] + JoinWith(rest, c), |first| + 1 + |rest[0]|;
      && OccursAt(s, rest[0], |first| + 1) && s[|first|] == c && s[..|first|] == first
      && (j == |s| || (j < |s| && s[j] == c))
  {
    var tail := JoinWith(rest, c);
    var s := first + [c] + tail;
    assert s[|first| + 1..] == tail;
    if |rest| > 1 {
      assert tail == rest[0] + [c] + JoinWith(rest[1..], c);
      assert tail[|rest[0]|] == c;
      assert tail[..|rest[0]|] == rest[0];
    }
  }

  // ---------------------------------------------------------------------
  // The characters of canonical text
  // ---------------------------------------------------------------------

  /** Text made of digits, dashes, colons and blanks only, as canonical text is. */
  predicate NumericText(s: string) {
    forall i :: 0 <= i < |s| ==> IsDigit(s[i]) || s[i] == '-' || s[i] == ':' || s[i] == ' '
  }

  /** Digits and one separator character. */
  predicate FieldText(s: string, sep: char) {
    forall i :: 0 <= i < |s| ==> IsDigit(s[i]) || s[i] == sep
  }

  lemma NumericConcat(a: string, b: string)
    requires NumericText(a) && NumericText(b)
    ensures NumericText(a + b)
  {
    forall i | 0 <= i < |a + b| ensures IsDigit((a + b)[i]) || (a + b)[i] in "-: " {
      if i >= |a| {
        assert (a + b)[i] == b[i - |a|];
      }
    }
  }

  lemma FieldConcat(a: string, b: string, sep: char)
    requires FieldText(a, sep) && FieldText(b, sep)
    ensures FieldText(a + b, sep)
  {
    forall i | 0 <= i < |a + b| ensures IsDigit((a + b)[i]) || (a + b)[i] == sep {
      if i >= |a| {
        assert (a + b)[i] == b[i - |a|];
      }
    }
  }

  lemma DigitsText(s: string, sep: char)
    requires AllDigits(s)
    ensures FieldText(s, sep) && NoDateSep(s) && NoSpace(s) && ' ' !in s && '-' !in s
  {
  }

  /** Text of digits and one date separator holds no blank, colon or other separator. */
  lemma FieldTextFacts(s: string, sep: char)
    requires FieldText(s, sep) && (sep == '/' || sep == '-' || sep == '.')
    ensures NoSpace(s) && ' ' !in s && ':' !in s
    ensures sep != '/' ==> '/' !in s
    ensures sep == '-' ==> NumericText(s)
  {
  }

  /** `f<sep>g<sep>y` for pieces of digits and separators. */
  lemma FieldJoin(f: string, g: string, y: string, sep: char)
    requires f != [] && y != [] && FieldText(f, sep) && FieldText(g, sep) && FieldText(y, sep)
    ensures var s := f + [sep] + g + [sep] + y;
      FieldText(s, sep) && s[0] == f[0] && s[|s| - 1] == y[|y| - 1]
  {
    FieldConcat(f, [sep], sep);
    FieldConcat(f + [sep], g, sep);
    FieldConcat(f + [sep] + g, [sep], sep);
    FieldConcat(f + [sep] + g + [sep], y, sep);
  }

  /** Numeric text names no meridiem. */
  lemma NoMeridiem(s: string)
    requires NumericText(s)
    ensures !Contains(Lower(s), "pm") && !Contains(Lower(s), "am")
  {
    var l := Lower(s);
    forall i ensures !OccursAt(l, "pm", i) && !OccursAt(l, "am", i) {
      if 0 <= i <= |l| - 2 {
        assert l[i..i + 2][0] == l[i];
      }
    }
  }

  lemma TwoDigitDecimal(ds: string)
    requires |ds| == 2 && AllDigits(ds)
    ensures TwoDigitValue(ds) == DecimalValue(ds)
  {
    var first := ds[..1];
    assert first[..0] == [] && first[0] == ds[0];
    assert DecimalValue(first) == DigitValue(ds[0]);
    assert ds[..|ds| - 1] == first;
  }

  /** The clock part `HH:MM`. */
  lemma ClockText(h: nat, m: nat)
    requires h < 24 && m < 60
    ensures var r := RenderClock(h, m);
      |r| == 5 && NumericText(r) && ' ' !in r && IsDigit(r[0]) && IsDigit(r[4])
  {
    Pad2Digits(h);
    Pad2Digits(m);
    var hh, mm := TwoDigits(h), TwoDigits(m);
    var r := RenderClock(h, m);
    assert r == hh + ":" + mm;
    assert r[0] == hh[0] && r[1] == hh[1] && r[2] == ':' && r[3] == mm[0] && r[4] == mm[1];
  }

  /** The pieces of canonical date text: two-digit day and month, then String(year). */
  lemma DateTextParts(c: Civil) returns (dd: string, mm: string, yy: string)
    requires ValidCivil(c)
    ensures RenderDate(c) == dd + ['-'] + mm + ['-'] + yy
    ensures |dd| == 2 && |mm| == 2 && AllDigits(dd) && AllDigits(mm)
    ensures DecimalValue(dd) == c.day && ParseInt(dd) == Some(c.day) && ParseInt(mm) == Some(c.month)
    ensures yy != [] && FieldText(yy, '-') && IsDigit(yy[|yy| - 1])
    ensures c.year >= 100 ==> AllDigits(yy) && |yy| >= 3 && ParseInt(yy) == Some(c.year)
  {
    Pad2Digits(c.day);
    Pad2Digits(c.month);
    dd, mm, yy := TwoDigits(c.day), TwoDigits(c.month), IntToString(c.year);
    var ys := NatToString(if c.year < 0 then -c.year else c.year);
    DigitsText(ys, '-');
    if c.year < 0 {
      assert yy == "-" + ys;
      FieldConcat("-", ys, '-');
    } else {
      NatToStringFacts(c.year);
      NatToStringRoundTrip(c.year);
    }
    assert yy[|yy| - 1] == ys[|ys| - 1];
  }

  /** The date part `DD-MM-YYYY` holds digits and dashes only. */
  lemma RenderedDateChars(c: Civil) returns (dp: string)
    requires ValidCivil(c)
    ensures dp == RenderDate(c)
    ensures NumericText(dp) && FieldText(dp, '-') && NoSpace(dp) && ' ' !in dp && ':' !in dp && '/' !in dp
    ensures IsDigit(dp[0]) && IsDigit(dp[|dp| - 1])
  {
    var dd, mm, yy := DateTextParts(c);
    DigitsText(dd, '-');
    DigitsText(mm, '-');
    FieldJoin(dd, mm, yy, '-');
    dp := dd + ['-'] + mm + ['-'] + yy;
    FieldTextFacts(dp, '-');
  }

  /** DateFields of three separated pieces. */
  lemma ThreeFields(f: string, g: string, y: string, sep: char)
    requires f != [] && g != [] && y != [] && NoDateSep(f) && NoDateSep(g) && NoDateSep(y)
    requires IsDateSep(sep)
    ensures DateFields(f + [sep] + g + [sep] + y) == [f, g, y]
  {
    assert f + [sep] + g + [sep] + y == f + [sep] + (g + [sep] + y);
    DateFieldsCons(f, sep, g + [sep] + y);
    DateFieldsCons(g, sep, y);
    DateFieldsSingle(y);
  }

  /** SplitChar of three separated pieces. */
  lemma ThreePieces(f: string, g: string, y: string, c: char)
    requires c !in f && c !in g && c !in y
    ensures SplitChar(f + [c] + g + [c] + y, c) == [f, g, y]
  {
    assert f + [c] + g + [c] + y == f + [c] + (g + [c] + y);
    SplitCharCons(f, c, g + [c] + y);
    SplitCharCons(g, c, y);
    SplitCharSingle(y, c);
  }

  // ---------------------------------------------------------------------
  // Finding the clock
  // ---------------------------------------------------------------------

  /** A clock match needs a colon one or two places after its first digit. */
  lemma ClockNeedsColon(s: string, k: nat)
    ensures ClockAt(s, k).Some? ==> (k + 1 < |s| && s[k + 1] == ':') || (k + 2 < |s| && s[k + 2] == ':')
  {
  }

  lemma {:induction false} FindClockSkip(s: string, i: nat, j: nat)
    requires i <= j <= |s|
    requires forall k :: i <= k < j ==> ClockAt(s, k).None?
    ensures FindClock(s, i) == FindClock(s, j)
    decreases j - i
  {
    if i < j {
      FindClockSkip(s, i + 1, j);
    }
  }

  /** The clock found is the leftmost match at or after i: none starts before it, and
      when there is none, no position matches. */
  lemma {:induction false} FindClockLeftmost(s: string, i: nat)
    ensures FindClock(s, i).None? ==> forall k :: i <= k < |s| ==> ClockAt(s, k).None?
    ensures FindClock(s, i).Some? ==> exists k :: LeftmostClockAt(s, i, k) && FindClock(s, i) == ClockAt(s, k)
    decreases |s| - i
  {
    if i < |s| {
      if ClockAt(s, i).Some? {
        assert LeftmostClockAt(s, i, i);
      } else {
        FindClockLeftmost(s, i + 1);
        if FindClock(s, i).Some? {
          var k :| LeftmostClockAt(s, i + 1, k) && FindClock(s, i + 1) == ClockAt(s, k);
          assert LeftmostClockAt(s, i, k);
        }
      }
    }
  }

  /** A match starts at k, and none starts between i and k. */
  predicate LeftmostClockAt(s: string, i: nat, k: nat) {
    i <= k < |s| && ClockAt(s, k).Some? && forall k' :: i <= k' < k ==> ClockAt(s, k').None?
  }

  lemma NoClock(s: string)
    requires ':' !in s
    ensures FindClock(s, 0).None?
  {
    forall k | 0 <= k < |s| ensures ClockAt(s, k).None? {
      ClockNeedsColon(s, k);
    }
    FindClockSkip(s, 0, |s|);
  }

  /** In `date HH:MM` the clock found is HH:MM. */
  lemma FindClockRendered(dp: string, h: nat, m: nat)
    requires h < 24 && m < 60 && ':' !in dp
    ensures FindClock(dp + " " + RenderClock(h, m), 0) == Some(Clock(h, m))
  {
    Pad2Digits(h);
    Pad2Digits(m);
    var hh, mm := TwoDigits(h), TwoDigits(m);
    var s := dp + " " + RenderClock(h, m);
    var p := |dp| + 1;
    assert s == dp + [' '] + hh + [':'] + mm;
    assert s[..p + 2] == dp + [' '] + hh;
    assert ':' !in hh;
    NoColonBefore(s, p + 2);
    FindClockSkip(s, 0, p);
    assert s[p..] == hh + [':'] + mm;
    ClockAtRendered(s, p, hh, mm);
    TwoDigitDecimal(hh);
    TwoDigitDecimal(mm);
  }

  /** No match starts where the next two characters hold no colon. */
  lemma NoColonBefore(s: string, n: nat)
    requires n <= |s| && ':' !in s[..n]
    ensures forall k :: 0 <= k && k + 2 < n ==> ClockAt(s, k).None?
  {
    forall k | 0 <= k && k + 2 < n ensures ClockAt(s, k).None? {
      ClockNeedsColon(s, k);
      assert s[..n][k + 1] == s[k + 1] && s[..n][k + 2] == s[k + 2];
    }
  }

  lemma ClockAtRendered(s: string, p: nat, hh: string, mm: string)
    requires |hh| == 2 && |mm| == 2 && AllDigits(hh) && AllDigits(mm)
    requires p <= |s| && s[p..] == hh + [':'] + mm
    ensures ClockAt(s, p) == Some(Clock(TwoDigitValue(hh), TwoDigitValue(mm)))
  {
    assert |s| == p + 5;
    assert s[p] == hh[0] && s[p + 1] == hh[1] && s[p + 2] == ':' && s[p + 3] == mm[0] && s[p + 4] == mm[1];
    assert s[p..p + 2] == hh;
    assert s[p + 3..p + 5] == mm;
  }

  // ---------------------------------------------------------------------
  // Text that is no serial
  // ---------------------------------------------------------------------

  /** For anything but a number, standardizeDate only sees String(val). */
  lemma NormalizeSeesText(a: DateInput, b: DateInput, parse: FreeFormParser)
    requires !a.Num? && !b.Num? && Text(a) == Text(b)
    requires IsBlankInput(a) == IsBlankInput(b)
    ensures Normalize(a, parse) == Normalize(b, parse)
  {
  }

  /** Trimmed, non-empty text that is not a serial goes to the text parser. */
  lemma NormalizeText(s: string, parse: FreeFormParser)
    requires s != [] && !IsSpace(s[0]) && !IsSpace(s[|s| - 1])
    requires !InSerialBand(ParseFloat(s))
    ensures Normalize(Str(s), parse) == Accept(ParseText(s, parse))
  {
    assert !IsBlankInput(Str(s));
    assert NumericValue(Str(s)) == ParseFloat(s);
    assert Trim(s) == s;
  }

  /** A digit field whose value parseFloat would not take for a serial: at most 30000, or
      60000 and above. */
  predicate OutsideSerialBand(ds: string)
    requires AllDigits(ds)
  {
    !(30000 < DecimalValue(ds) < 60000)
  }

  /** Text opening with a number outside the serial band that stops at a separator is no
      serial. */
  lemma SmallLeadNotSerial(f: string, rest: string)
    requires f != [] && AllDigits(f) && OutsideSerialBand(f)
    requires rest != [] && !IsDigit(rest[0]) && rest[0] != '.' && rest[0] != 'e' && rest[0] != 'E'
    ensures !InSerialBand(ParseFloat(f + rest))
  {
    ParseFloatDigits(f, rest);
  }

  /** Three fields, then nothing or a blank: the fields give the date, the clock search
      runs over the whole text. */
  lemma ParseTextFields(s: string, rest: string, f: string, g: string, y: string, sep: char,
                        parse: FreeFormParser)
    requires s == f + [sep] + g + [sep] + y + rest
    requires f != [] && g != [] && y != [] && NoDateSep(f) && NoDateSep(g) && NoDateSep(y)
    requires IsDateSep(sep) && NoSpace(f + [sep] + g + [sep] + y)
    requires rest == [] || IsSpace(rest[0])
    ensures ParseText(s, parse) == WithClock(FieldDate(f + [sep] + g + [sep] + y, [f, g, y]), s)
  {
    FirstTokenOf(f + [sep] + g + [sep] + y, rest);
    ThreeFields(f, g, y, sep);
  }

  // ---------------------------------------------------------------------
  // Reading canonical text back: standardizeDate is idempotent
  // ---------------------------------------------------------------------

  /** The time value canonical text denotes: its minute when it carries a clock, otherwise
      midnight of its day. */
  function Reading(t: int, includeTime: bool): int {
    if includeTime then DayOf(t) * MsPerDay + HourOf(t) * MsPerHour + MinuteOf(t) * MsPerMinute
    else DayOf(t) * MsPerDay
  }

  /** The reading lies in the same day, no later than t, and keeps t's clock if shown. */
  lemma ReadingBounds(t: int, includeTime: bool)
    requires ValidTime(t)
    ensures ValidTime(Reading(t, includeTime)) && Reading(t, includeTime) <= t
    ensures DayOf(Reading(t, includeTime)) == DayOf(t)
    ensures includeTime ==> HourOf(Reading(t, true)) == HourOf(t) && MinuteOf(Reading(t, true)) == MinuteOf(t)
  {
    var tid := TimeInDay(t);
    var q := tid / MsPerMinute;
    assert tid == MsPerMinute * q + tid % MsPerMinute;
    assert q == 60 * (q / 60) + q % 60;
    DivUnique(tid, MsPerHour, q / 60, MsPerMinute * (q % 60) + tid % MsPerMinute);
    assert HourOf(t) * MsPerHour + MinuteOf(t) * MsPerMinute == q * MsPerMinute;
    var ms := if includeTime then q * MsPerMinute else 0;
    assert Reading(t, includeTime) == DayOf(t) * MsPerDay + ms;
    WithinDay(DayOf(t), ms);
    if includeTime {
      DivUnique(ms, MsPerHour, q / 60, MsPerMinute * (q % 60));
      DivUnique(ms, MsPerMinute, q, 0);
    }
  }

  /** Time values with the same day, hour and minute have the same canonical text. */
  lemma SameFieldsRender(t: int, u: int, includeTime: bool)
    requires DayOf(t) == DayOf(u) && HourOf(t) == HourOf(u) && MinuteOf(t) == MinuteOf(u)
    ensures Render(t, includeTime) == Render(u, includeTime)
  {
  }

  /** The reading shows the same text as t itself. */
  lemma ReadingFacts(t: int, includeTime: bool)
    requires ValidTime(t)
    ensures ValidTime(Reading(t, includeTime)) && Reading(t, includeTime) <= t
    ensures Render(Reading(t, includeTime), includeTime) == Render(t, includeTime)
    ensures Render(Reading(t, includeTime), false) == Render(t, false)
  {
    ReadingBounds(t, includeTime);
    if includeTime {
      SameFieldsRender(Reading(t, true), t, true);
    }
    var r := Reading(t, includeTime);
    assert Render(r, false) == RenderDate(DateOf(r));
    assert Render(t, false) == RenderDate(DateOf(t));
  }

  /** new Date(year, month - 1, day) of a date with a year of three or more digits is
      midnight of its day number. */
  lemma MidnightOfCivil(c: Civil, z: int)
    requires ValidCivil(c) && c.year >= 100 && DaysFromCivil(c) == z
    requires -100000000 <= z <= 100000000
    ensures NewDate(Some(c.year), Some(c.month - 1), Some(c.day)) == Time(z * MsPerDay)
  {
    MakeDayInMonth(c);
  }

  /** new Date(year, month - 1, day) for the date t falls in is midnight of t's day. */
  lemma MidnightOfDate(t: int)
    requires ValidTime(t) && DateOf(t).year >= 100
    ensures var c := DateOf(t);
      NewDate(Some(c.year), Some(c.month - 1), Some(c.day)) == Time(DayOf(t) * MsPerDay)
  {
    var z := DayOf(t);
    assert -100000000 <= z <= 100000000;
    MidnightOfCivil(DateOf(t), z);
  }

  /** Fields that parse to a date's day, month and year give midnight of its day number. */
  lemma FieldsOfCivil(c: Civil, z: int, dd: string, mm: string, yy: string)
    requires ValidCivil(c) && c.year >= 100 && DaysFromCivil(c) == z && -100000000 <= z <= 100000000
    requires |yy| >= 3 && ParseInt(dd) == Some(c.day) && ParseInt(mm) == Some(c.month)
    requires ParseInt(yy) == Some(c.year)
    ensures NewDate(YearField(yy), MinusOne(ParseInt(mm)), ParseInt(dd)) == Time(z * MsPerDay)
    ensures NewDate(ParseInt(yy), MinusOne(ParseInt(mm)), ParseInt(dd)) == Time(z * MsPerDay)
  {
    MinusOneSome(c.month);
    MidnightOfCivil(c, z);
  }

  /** The three fields of canonical date text, read back by the constructor, give midnight. */
  lemma FieldsDate(t: int, dd: string, mm: string, yy: string)
    requires ValidTime(t) && DateOf(t).year >= 100 && |yy| >= 3
    requires ParseInt(dd) == Some(DateOf(t).day) && ParseInt(mm) == Some(DateOf(t).month)
    requires ParseInt(yy) == Some(DateOf(t).year)
    ensures NewDate(YearField(yy), MinusOne(ParseInt(mm)), ParseInt(dd)) == Time(DayOf(t) * MsPerDay)
    ensures NewDate(ParseInt(yy), MinusOne(ParseInt(mm)), ParseInt(dd)) == Time(DayOf(t) * MsPerDay)
  {
    var z := DayOf(t);
    assert -100000000 <= z <= 100000000;
    FieldsOfCivil(DateOf(t), z, dd, mm, yy);
  }

  /** setHours(HH, MM) on that midnight gives the reading with a clock. */
  lemma ClockReading(t: int)
    requires ValidTime(t)
    ensures SetHours(Time(DayOf(t) * MsPerDay), HourOf(t), MinuteOf(t)) == Time(Reading(t, true))
  {
    MidnightFacts(DayOf(t));
    ReadingBounds(t, true);
  }

  /** A blank before five characters of clock text. */
  lemma BlankClock(clock: string)
    requires |clock| == 5 && NumericText(clock) && IsDigit(clock[4])
    ensures var tail := " " + clock;
      NumericText(tail) && tail[0] == ' ' && IsDigit(tail[|tail| - 1])
  {
    NumericConcat(" ", clock);
    assert (" " + clock)[5] == clock[4];
  }

  /** The text of a clock suffix: empty, or a blank and `HH:MM`. */
  lemma ClockSuffixText(t: int, includeTime: bool)
    ensures var tail := ClockSuffix(t, includeTime);
      NumericText(tail) && (tail == [] || (tail[0] == ' ' && IsDigit(tail[|tail| - 1])))
      && (includeTime ==> tail == [' '] + RenderClock(HourOf(t), MinuteOf(t)))
      && (!includeTime ==> tail == [])
      && (includeTime ==> ' ' !in RenderClock(HourOf(t), MinuteOf(t)))
  {
    if includeTime {
      ClockText(HourOf(t), MinuteOf(t));
      BlankClock(RenderClock(HourOf(t), MinuteOf(t)));
    }
  }

  /** `dd-mm-yy` followed by nothing or a blank and more, with a day field outside the
      serial band: trimmed text that is no serial, whose date token is the three fields. */
  lemma DashedText(dd: string, mm: string, yy: string, tail: string) returns (s: string)
    requires dd != [] && mm != [] && yy != [] && AllDigits(dd) && AllDigits(mm) && AllDigits(yy)
    requires OutsideSerialBand(dd)
    requires tail == [] || (tail[0] == ' ' && IsDigit(tail[|tail| - 1]))
    ensures s == dd + ['-'] + mm + ['-'] + yy + tail
    ensures s != [] && !IsSpace(s[0]) && !IsSpace(s[|s| - 1]) && !InSerialBand(ParseFloat(s))
    ensures NoSpace(dd + ['-'] + mm + ['-'] + yy) && '/' !in dd + ['-'] + mm + ['-'] + yy
  {
    DigitsText(dd, '-');
    DigitsText(mm, '-');
    DigitsText(yy, '-');
    FieldJoin(dd, mm, yy, '-');
    var dp := dd + ['-'] + mm + ['-'] + yy;
    FieldTextFacts(dp, '-');
    s := dp + tail;
    assert s[0] == dd[0];
    assert tail != [] ==> s[|s| - 1] == tail[|tail| - 1];
    var afterDay := ['-'] + mm + ['-'] + yy + tail;
    assert s == dd + afterDay;
    SmallLeadNotSerial(dd, afterDay);
  }

  /** `dd-mm-yy` followed by nothing or a blank and more, with a day field outside the
      serial band: the three fields give the date and the clock search runs over the whole text. */
  lemma DashedNormalize(dd: string, mm: string, yy: string, tail: string, parse: FreeFormParser)
    requires dd != [] && mm != [] && yy != [] && AllDigits(dd) && AllDigits(mm) && AllDigits(yy)
    requires OutsideSerialBand(dd)
    requires tail == [] || (tail[0] == ' ' && IsDigit(tail[|tail| - 1]))
    ensures var s := dd + ['-'] + mm + ['-'] + yy + tail;
      Normalize(Str(s), parse) == Accept(WithClock(NewDate(YearField(yy), MinusOne(ParseInt(mm)), ParseInt(dd)), s))
  {
    var s := DashedText(dd, mm, yy, tail);
    NormalizeText(s, parse);
    DigitsText(dd, '-');
    DigitsText(mm, '-');
    DigitsText(yy, '-');
    ParseTextFields(s, tail, dd, mm, yy, '-', parse);
  }

  /** The clock of canonical text, set into midnight of its day, gives its reading. */
  lemma WithClockRendered(t: int, dp: string, includeTime: bool)
    requires ValidTime(t) && ':' !in dp && NumericText(dp)
    ensures WithClock(Time(DayOf(t) * MsPerDay), dp + ClockSuffix(t, includeTime)) == Time(Reading(t, includeTime))
  {
    ClockSuffixText(t, includeTime);
    var s := dp + ClockSuffix(t, includeTime);
    if includeTime {
      var h, m := HourOf(t), MinuteOf(t);
      assert s == dp + " " + RenderClock(h, m);
      FindClockRendered(dp, h, m);
      NumericConcat(dp, ClockSuffix(t, includeTime));
      NoMeridiem(s);
      ClockReading(t);
    } else {
      assert s == dp;
      NoClock(dp);
      ReadingBounds(t, false);
    }
  }

  /** Canonical text with a year of three or more digits reads back as the time it shows. */
  lemma RenderedReading(t: int, includeTime: bool, parse: FreeFormParser)
    requires ValidTime(t) && DateOf(t).year >= 100
    ensures Normalize(Str(Render(t, includeTime)), parse) == Parsed(Reading(t, includeTime))
  {
    var c := DateOf(t);
    var dd, mm, yy := DateTextParts(c);
    var dp := RenderedDateChars(c);
    var tail := ClockSuffix(t, includeTime);
    ClockSuffixText(t, includeTime);
    DashedNormalize(dd, mm, yy, tail, parse);
    FieldsDate(t, dd, mm, yy);
    WithClockRendered(t, dp, includeTime);
    ReadingBounds(t, includeTime);
  }

  /** What standardizeDate writes for an input it reads as time value u. */
  lemma StandardizeOfParsed(val: DateInput, includeTime: bool, parse: FreeFormParser, u: int)
    requires Normalize(val, parse) == Parsed(u)
    ensures StandardizeDate(val, includeTime, parse) == Render(u, includeTime)
  {
  }

  /** Normalising canonical text gives the same text back. */
  lemma StandardizeRendered(t: int, includeTime: bool, parse: FreeFormParser)
    requires ValidTime(t) && DateOf(t).year >= 100
    ensures StandardizeDate(Str(Render(t, includeTime)), includeTime, parse) == Render(t, includeTime)
  {
    RenderedReading(t, includeTime, parse);
    ReadingFacts(t, includeTime);
    StandardizeOfParsed(Str(Render(t, includeTime)), includeTime, parse, Reading(t, includeTime));
  }

  /** Normalising canonical text with a clock but without includeTime drops the clock. */
  lemma StandardizeDropsClock(t: int, parse: FreeFormParser)
    requires ValidTime(t) && DateOf(t).year >= 100
    ensures StandardizeDate(Str(Render(t, true)), false, parse) == Render(t, false)
  {
    RenderedReading(t, true, parse);
    ReadingFacts(t, true);
    StandardizeOfParsed(Str(Render(t, true)), false, parse, Reading(t, true));
  }

  /** standardizeDate is idempotent on text, and on anything it turns into a date with a
      year of three or more digits. */
  lemma StandardizeIdempotent(val: DateInput, includeTime: bool, parse: FreeFormParser)
    requires val.Str? || !Normalize(val, parse).Unparsed?
    requires Normalize(val, parse).Parsed? ==> DateOf(Normalize(val, parse).t).year >= 100
    ensures var once := StandardizeDate(val, includeTime, parse);
      StandardizeDate(Str(once), includeTime, parse) == once
  {
    match Normalize(val, parse)
    case Blank =>
    case Unparsed =>
    case Parsed(t) =>
      StandardizeOfParsed(val, includeTime, parse, t);
      StandardizeRendered(t, includeTime, parse);
  }

  // ---------------------------------------------------------------------
  // Serials and field order
  // ---------------------------------------------------------------------

  /** A whole serial n in the band is midnight of day n - 25569. */
  lemma WholeSerialTime(n: nat)
    requires 30000 < n < 60000
    ensures InSerialBand(Finite(false, n, 0))
    ensures SerialTime(Finite(false, n, 0)) == (n - SerialEpoch) * MsPerDay
  {
    MidnightFacts(n - SerialEpoch);
  }

  /** A serial in the band is day floor(v) - 25569 at the hour and minute of the fraction's
      rounded seconds, the leftover seconds dropped. */
  lemma FractionalSerial(v: JsNumber)
    requires InSerialBand(v) && FractionSeconds(v) < 86400
    ensures var t, s := SerialTime(v), FractionSeconds(v);
      DayOf(t) == Floor(v) - SerialEpoch && HourOf(t) == s / 3600 && MinuteOf(t) == s % 3600 / 60
  {
    var s := FractionSeconds(v);
    FloorBelow(v);
    MidnightFacts(Floor(v) - SerialEpoch);
    SetHoursInRange((Floor(v) - SerialEpoch) * MsPerDay, s / 3600, s % 3600 / 60);
  }

  /** A fraction that rounds to a whole day of seconds is setHours(24, 0): midnight of the
      next day. */
  lemma FullDaySerial(v: JsNumber)
    requires InSerialBand(v) && FractionSeconds(v) == 86400
    ensures DayOf(SerialTime(v)) == Floor(v) - SerialEpoch + 1 && TimeInDay(SerialTime(v)) == 0
  {
    var z := Floor(v) - SerialEpoch;
    FloorBelow(v);
    MidnightFacts(z);
    assert z * MsPerDay + 24 * MsPerHour == (z + 1) * MsPerDay;
    MidnightFacts(z + 1);
  }

  /** In the band, digits typed as text are read like the number they spell. */
  lemma SerialTextLikeNumber(ds: string, parse: FreeFormParser)
    requires ds != [] && AllDigits(ds) && 30000 < DecimalValue(ds) < 60000
    ensures Normalize(Str(ds), parse) == Normalize(Num(Finite(false, DecimalValue(ds), 0)), parse)
  {
    ParseFloatWhole(ds);
    NormalizeSerial(Str(ds), parse);
    NormalizeSerial(Num(Finite(false, DecimalValue(ds), 0)), parse);
  }

  /** A number in the band, or text that parseFloat reads as one, is a serial date. */
  lemma NormalizeSerial(val: DateInput, parse: FreeFormParser)
    requires !IsBlankInput(val) && InSerialBand(NumericValue(val))
    ensures Normalize(val, parse) == Parsed(SerialTime(NumericValue(val)))
  {
  }

  /** A whole-number serial in the band, as a number or as its digits, is midnight of day
      serial - 25569. */
  lemma WholeSerial(n: nat, parse: FreeFormParser)
    requires 30000 < n < 60000
    ensures Normalize(Num(Finite(false, n, 0)), parse) == Parsed((n - SerialEpoch) * MsPerDay)
    ensures Normalize(Str(NatToString(n)), parse) == Parsed((n - SerialEpoch) * MsPerDay)
    ensures DateOf((n - SerialEpoch) * MsPerDay) == CivilFromDays(n - SerialEpoch)
  {
    WholeSerialTime(n);
    MidnightFacts(n - SerialEpoch);
    NatToStringFacts(n);
    SerialTextLikeNumber(NatToString(n), parse);
  }

  lemma Day19431()
    ensures CivilFromDays(45000 - SerialEpoch) == Civil(2023, 3, 15)
  {
    var c := Civil(2023, 3, 15);
    assert DaysFromCivil(c) == 45000 - SerialEpoch;
    CivilRoundTrip(c);
  }

  lemma Text15032023()
    ensures RenderDate(Civil(2023, 3, 15)) == "15-03-2023"
  {
    assert NatToString(15) == "15";
    assert NatToString(3) == "3";
    assert NatToString(2023) == "2023";
  }

  /** Serial 45000 is 15 March 2023. */
  lemma Serial45000(parse: FreeFormParser)
    ensures StandardizeDate(Num(Finite(false, 45000, 0)), false, parse) == "15-03-2023"
  {
    WholeSerial(45000, parse);
    Day19431();
    Text15032023();
  }

  /** `dd-mm-yy` whose fields give the Date of midnight of civil date c is written as c. */
  lemma DashedDateText(dd: string, mm: string, yy: string, c: Civil, parse: FreeFormParser)
    requires dd != [] && mm != [] && yy != [] && AllDigits(dd) && AllDigits(mm) && AllDigits(yy)
    requires OutsideSerialBand(dd) && ValidTime(DaysFromCivil(c) * MsPerDay)
    requires NewDate(YearField(yy), MinusOne(ParseInt(mm)), ParseInt(dd)) == Time(DaysFromCivil(c) * MsPerDay)
    requires ValidCivil(c)
    ensures StandardizeDate(Str(dd + ['-'] + mm + ['-'] + yy), false, parse) == RenderDate(c)
  {
    var s := dd + ['-'] + mm + ['-'] + yy;
    var t := DaysFromCivil(c) * MsPerDay;
    ThreeFieldText(dd, mm, yy, '-', parse);
    DashFieldDate(mm, dd, yy);
    StandardizeOfParsed(Str(s), false, parse, t);
    MidnightRender(c);
  }

  /** Midnight of a civil date renders as that date. */
  lemma MidnightRender(c: Civil)
    requires ValidCivil(c)
    ensures Render(DaysFromCivil(c) * MsPerDay, false) == RenderDate(c)
  {
    MidnightFacts(DaysFromCivil(c));
    CivilRoundTrip(c);
  }

  /** `1-0-100` is month -1 of year 100, which `new Date` rolls back to December of year 99;
      written with a two-digit year, that date reads back a century later. So standardizeDate
      is not idempotent for years below 100. */
  lemma CenturyLost(parse: FreeFormParser)
    ensures StandardizeDate(Str("1" + "-" + "0" + "-" + "100"), false, parse) == "01-12-99"
    ensures StandardizeDate(Str("01" + "-" + "12" + "-" + "99"), false, parse) == "01-12-2099"
  {
    YearNinetyNine(parse);
    YearTwentyNinetyNine(parse);
  }

  lemma YearNinetyNine(parse: FreeFormParser)
    ensures StandardizeDate(Str("1" + "-" + "0" + "-" + "100"), false, parse) == "01-12-99"
  {
    DashedYearHundred(parse);
    RenderedNinetyNine();
  }

  lemma DashedYearHundred(parse: FreeFormParser)
    ensures StandardizeDate(Str("1" + "-" + "0" + "-" + "100"), false, parse) == RenderDate(Civil(99, 12, 1))
  {
    FieldsOfYearHundred();
    MonthBeforeYearHundred();
    DashedDateText("1", "0", "100", Civil(99, 12, 1), parse);
  }

  lemma RenderedNinetyNine()
    ensures RenderDate(Civil(99, 12, 1)) == "01-12-99"
  {
    assert NatToString(1) == "1" && NatToString(12) == "12" && NatToString(99) == "99";
  }

  lemma FieldsOfYearHundred()
    ensures DecimalValue("1") == 1 && ParseInt("1") == Some(1)
    ensures ParseInt("0") == Some(0) && YearField("100") == Some(100)
  {
    DayOneField();
    MonthZeroField();
    YearHundredField();
  }

  lemma DayOneField()
    ensures DecimalValue("1") == 1 && ParseInt("1") == Some(1)
  {
    assert "1"[..0] == [];
  }

  lemma MonthZeroField()
    ensures ParseInt("0") == Some(0)
  {
    assert "0"[..0] == [];
    assert AllDigits("0") && DecimalValue("0") == 0;
  }

  lemma YearHundredField()
    ensures YearField("100") == Some(100)
  {
    assert "100"[..2] == "10" && "10"[..1] == "1" && "1"[..0] == [];
    assert DecimalValue("1") == 1 && DecimalValue("10") == 10 && DecimalValue("100") == 100;
  }

  lemma MonthBeforeYearHundred()
    ensures NewDate(Some(100), Some(-1), Some(1)) == Time(DaysFromCivil(Civil(99, 12, 1)) * MsPerDay)
    ensures ValidTime(DaysFromCivil(Civil(99, 12, 1)) * MsPerDay)
  {
    assert -1 / 12 == -1 && -1 % 12 == 11;
    assert MakeDay(ConstructorYear(100), -1, 1) == DaysFromCivil(Civil(99, 12, 1));
    assert DaysFromCivil(Civil(99, 12, 1)) == -683034;
  }

  lemma YearTwentyNinetyNine(parse: FreeFormParser)
    ensures StandardizeDate(Str("01" + "-" + "12" + "-" + "99"), false, parse) == "01-12-2099"
  {
    TwentyNinetyNineFields();
    TwentyNinetyNineValid();
    DashedDateText("01", "12", "99", Civil(2099, 12, 1), parse);
    RenderedTwentyNinetyNine();
  }

  lemma RenderedTwentyNinetyNine()
    ensures RenderDate(Civil(2099, 12, 1)) == "01-12-2099"
  {
    assert NatToString(1) == "1" && NatToString(12) == "12" && NatToString(2099) == "2099";
  }

  lemma TwentyNinetyNineFields()
    ensures NewDate(YearField("99"), MinusOne(ParseInt("12")), ParseInt("01"))
      == Time(DaysFromCivil(Civil(2099, 12, 1)) * MsPerDay)
  {
    FieldsOfTwentyNinetyNine();
    DecemberTwentyNinetyNine();
  }

  lemma TwentyNinetyNineValid()
    ensures AllDigits("01") && AllDigits("12") && AllDigits("99") && OutsideSerialBand("01")
    ensures ValidCivil(Civil(2099, 12, 1)) && ValidTime(DaysFromCivil(Civil(2099, 12, 1)) * MsPerDay)
  {
    assert "01"[..1] == "0" && "0"[..0] == [];
    assert DecimalValue("01") == 1;
    DecemberTwentyNinetyNineValid();
  }

  lemma DecemberTwentyNinetyNineValid()
    ensures ValidCivil(Civil(2099, 12, 1)) && ValidTime(DaysFromCivil(Civil(2099, 12, 1)) * MsPerDay)
  {
    assert DaysFromCivil(Civil(2099, 12, 1)) == 47451;
  }

  lemma FieldsOfTwentyNinetyNine()
    ensures DecimalValue("01") == 1 && ParseInt("01") == Some(1)
    ensures ParseInt("12") == Some(12) && YearField("99") == Some(2099)
  {
    DayOne();
    MonthTwelve();
    YearNinetyNineField();
  }

  lemma DayOne()
    ensures DecimalValue("01") == 1 && ParseInt("01") == Some(1)
  {
    assert "01"[..1] == "0" && "0"[..0] == [];
    assert DecimalValue("0") == 0;
  }

  lemma MonthTwelve()
    ensures ParseInt("12") == Some(12)
  {
    assert "12"[..1] == "1" && "1"[..0] == [];
    assert DecimalValue("1") == 1;
    assert DecimalValue("12") == 12;
  }

  lemma YearNinetyNineField()
    ensures YearField("99") == Some(2099)
  {
    assert "99"[..1] == "9" && "9"[..0] == [];
    assert DecimalValue("99") == 99;
  }

  lemma DecemberTwentyNinetyNine()
    ensures NewDate(Some(2099), Some(11), Some(1)) == Time(DaysFromCivil(Civil(2099, 12, 1)) * MsPerDay)
    ensures ValidTime(DaysFromCivil(Civil(2099, 12, 1)) * MsPerDay)
  {
    assert DaysFromCivil(Civil(2099, 12, 1)) == 47451;
  }

  /** Three digit fields joined by one separator, with a first field outside the
      serial band: trimmed text that is no serial, holds no blank and no colon. */
  lemma FieldsText(f: string, g: string, y: string, sep: char) returns (s: string)
    requires f != [] && g != [] && y != [] && AllDigits(f) && AllDigits(g) && AllDigits(y)
    requires OutsideSerialBand(f)
    requires sep == '/' || sep == '-'
    ensures s == f + [sep] + g + [sep] + y
    ensures FieldText(s, sep) && NoSpace(s) && ':' !in s
    ensures !IsSpace(s[0]) && !IsSpace(s[|s| - 1]) && !InSerialBand(ParseFloat(s))
  {
    DigitsText(f, sep);
    DigitsText(g, sep);
    DigitsText(y, sep);
    FieldJoin(f, g, y, sep);
    s := f + [sep] + g + [sep] + y;
    FieldTextFacts(s, sep);
    var afterFirst := [sep] + g + [sep] + y;
    assert s == f + afterFirst && afterFirst[0] == sep;
    SmallLeadNotSerial(f, afterFirst);
  }

  /** Three digit fields joined by one separator, with a first field outside the
      serial band, are read field by field. */
  lemma ThreeFieldText(f: string, g: string, y: string, sep: char, parse: FreeFormParser)
    requires f != [] && g != [] && y != [] && AllDigits(f) && AllDigits(g) && AllDigits(y)
    requires OutsideSerialBand(f)
    requires sep == '/' || sep == '-'
    ensures var s := f + [sep] + g + [sep] + y;
      FieldText(s, sep) && Normalize(Str(s), parse) == Accept(FieldDate(s, [f, g, y]))
  {
    var s := FieldsText(f, g, y, sep);
    NormalizeText(s, parse);
    DigitsText(f, sep);
    DigitsText(g, sep);
    DigitsText(y, sep);
    assert s == f + [sep] + g + [sep] + y + [];
    ParseTextFields(s, [], f, g, y, sep, parse);
    NoClock(s);
  }

  /** A slash in the token makes the first field the month. */
  lemma SlashFieldDate(a: string, b: string, y: string)
    ensures var slashed := a + ['/'] + b + ['/'] + y;
      FieldDate(slashed, [a, b, y]) == NewDate(YearField(y), MinusOne(ParseInt(a)), ParseInt(b))
  {
    var slashed := a + ['/'] + b + ['/'] + y;
    assert slashed[|a|] == '/';
  }

  /** Without a slash the first field is the day. */
  lemma DashFieldDate(a: string, b: string, y: string)
    requires a != [] && b != [] && y != [] && AllDigits(a) && AllDigits(b) && AllDigits(y)
    ensures var dashed := b + ['-'] + a + ['-'] + y;
      FieldDate(dashed, [b, a, y]) == NewDate(YearField(y), MinusOne(ParseInt(a)), ParseInt(b))
  {
    DigitsText(a, '-');
    DigitsText(b, '-');
    DigitsText(y, '-');
    FieldJoin(b, a, y, '-');
    FieldTextFacts(b + ['-'] + a + ['-'] + y, '-');
  }

  /** "a/b/y" and "b-a-y" are the same date: month a, day b. */
  lemma SlashMeansMonthFirst(a: string, b: string, y: string, parse: FreeFormParser)
    requires a != [] && b != [] && y != [] && AllDigits(a) && AllDigits(b) && AllDigits(y)
    requires OutsideSerialBand(a) && OutsideSerialBand(b)
    ensures Normalize(Str(a + ['/'] + b + ['/'] + y), parse) == Normalize(Str(b + ['-'] + a + ['-'] + y), parse)
    ensures Normalize(Str(b + ['-'] + a + ['-'] + y), parse)
      == Accept(NewDate(YearField(y), MinusOne(ParseInt(a)), ParseInt(b)))
  {
    ThreeFieldText(a, b, y, '/', parse);
    ThreeFieldText(b, a, y, '-', parse);
    SlashFieldDate(a, b, y);
    DashFieldDate(a, b, y);
  }

  // ---------------------------------------------------------------------
  // getPKDate: a Date object goes through its own toString text
  // ---------------------------------------------------------------------

  lemma WeekDayName(k: nat)
    requires k < 7
    ensures var w := WeekDays[k];
      |w| == 3 && NoSpace(w) && NoDateSep(w) && 'A' <= w[0] <= 'Z' && w[0] != 'I'
  {
  }

  /** Text of the shape of Date.prototype.toString: it opens with a weekday name, so it is
      no number, and its first token is that name alone, so it goes to the platform parser. */
  lemma DateTextShape(s: string, w: string, body: string, parse: FreeFormParser)
    requires |w| == 3 && NoSpace(w) && NoDateSep(w) && 'A' <= w[0] <= 'Z' && w[0] != 'I'
    requires s == w + " " + body + ZoneSuffix
    ensures Normalize(Str(s), parse) == Accept(parse(s))
  {
    var rest := " " + body + ZoneSuffix;
    assert s == w + rest;
    assert s[0] == w[0];
    ParseFloatNoNumber(s);
    assert s[|s| - 1] == ')';
    NormalizeText(s, parse);
    SingleFieldText(s, w, rest, parse);
  }

  /** Text whose first token is one field with no separator goes to the platform parser. */
  lemma SingleFieldText(s: string, w: string, rest: string, parse: FreeFormParser)
    requires w != [] && NoSpace(w) && NoDateSep(w)
    requires rest != [] && IsSpace(rest[0]) && s == w + rest
    ensures ParseText(s, parse) == parse(s)
  {
    FirstTokenOf(w, rest);
    DateFieldsSingle(w);
  }

  /** The toString text of a Date goes to the platform parser. */
  lemma DateStringParsed(now: int, parse: FreeFormParser)
    requires ValidTime(now)
    ensures Normalize(Str(DateToString(now)), parse) == Accept(parse(DateToString(now)))
  {
    var w := WeekDays[WeekDay(now)];
    WeekDayName(WeekDay(now));
    DateTextShape(DateToString(now), w, DateStringBody(now), parse);
  }

  /** A valid Date object is read through its toString text. */
  lemma ObjectSeesText(now: int, parse: FreeFormParser)
    ensures Normalize(DateObj(Time(now)), parse) == Normalize(Str(DateToString(now)), parse)
  {
    NormalizeSeesText(DateObj(Time(now)), Str(DateToString(now)), parse);
  }

  /** A valid Date reaches the platform parser as its toString text. */
  lemma DateObjectReading(now: int, parse: FreeFormParser)
    requires ValidTime(now) && ReadsOwnText(parse, now)
    ensures Normalize(DateObj(Time(now)), parse) == Accept(Time(now - now % 1000))
  {
    DateStringParsed(now, parse);
    ObjectSeesText(now, parse);
  }

  /** getPKDate writes the current moment in canonical form. */
  lemma PKDateReading(now: int, includeTime: bool, parse: FreeFormParser)
    requires ValidTime(now) && ReadsOwnText(parse, now)
    ensures StandardizeDate(DateObj(Time(now)), includeTime, parse) == Render(now, includeTime)
  {
    DateObjectReading(now, parse);
    SecondsDropped(now, includeTime);
    StandardizeOfAccepted(DateObj(Time(now)), includeTime, parse, now - now % 1000, now);
  }

  /** An input read as a moment with the same fields as `t` is written as `t`. */
  lemma StandardizeOfAccepted(val: DateInput, includeTime: bool, parse: FreeFormParser, u: int, t: int)
    requires ValidTime(u) && Normalize(val, parse) == Accept(Time(u))
    requires Render(u, includeTime) == Render(t, includeTime)
    ensures StandardizeDate(val, includeTime, parse) == Render(t, includeTime)
  {
    StandardizeOfParsed(val, includeTime, parse, u);
  }

  lemma DropBelow(x: nat, r: nat, k: nat)
    requires r < 1000 && k > 0
    ensures (1000 * x + r) / (1000 * k) == (1000 * x) / (1000 * k)
  {
    assert x == k * (x / k) + x % k;
    assert 1000 * x == (1000 * k) * (x / k) + 1000 * (x % k);
    DivUnique(1000 * x + r, 1000 * k, x / k, 1000 * (x % k) + r);
    DivUnique(1000 * x, 1000 * k, x / k, 1000 * (x % k));
  }

  /** t without its milliseconds below the second: the same day, x whole seconds into it. */
  lemma WholeSeconds(t: int) returns (x: nat)
    ensures t - t % 1000 == DayOf(t) * MsPerDay + 1000 * x
    ensures TimeInDay(t) == 1000 * x + t % 1000 && 1000 * x < MsPerDay
  {
    var tid := TimeInDay(t);
    x := tid / 1000;
    DivUnique(t, 1000, DayOf(t) * 86400 + x, tid % 1000);
  }

  /** Dropping the milliseconds below a second keeps the day, the hour and the minute. */
  lemma DroppedFields(t: int, u: int)
    requires ValidTime(t) && u == t - t % 1000
    ensures ValidTime(u)
    ensures DayOf(u) == DayOf(t) && HourOf(u) == HourOf(t) && MinuteOf(u) == MinuteOf(t)
  {
    var x := WholeSeconds(t);
    var r := t % 1000;
    WithinDayAt(u, DayOf(t), 1000 * x);
    DropBelow(x, r, 3600);
    DropBelow(x, r, 60);
  }

  lemma WithinDayAt(u: int, z: int, ms: int)
    requires 0 <= ms < MsPerDay && u == z * MsPerDay + ms
    ensures DayOf(u) == z && TimeInDay(u) == ms
  {
    WithinDay(z, ms);
  }

  /** Dropping the milliseconds below a second keeps the canonical text. */
  lemma SecondsDropped(t: int, includeTime: bool)
    requires ValidTime(t)
    ensures ValidTime(t - t % 1000)
    ensures Render(t - t % 1000, includeTime) == Render(t, includeTime)
  {
    DroppedFields(t, t - t % 1000);
    SameFieldsRender(t - t % 1000, t, includeTime);
  }

  // ---------------------------------------------------------------------
  // parseStandardDate, calculateAging and getTimeOnly on canonical text
  // ---------------------------------------------------------------------

  /** `f-g-y`, then nothing or a blank and more: parseStandardDate builds the Date from the
      three pieces. */
  lemma ParseStandardPieces(f: string, g: string, y: string, rest: string)
    requires f != [] && '-' !in f && '-' !in g && '-' !in y
    requires ' ' !in f + ['-'] + g + ['-'] + y
    requires rest == [] || rest[0] == ' '
    ensures ParseStandardDate(f + ['-'] + g + ['-'] + y + rest)
      == Some(NewDate(ParseInt(y), MinusOne(ParseInt(g)), ParseInt(f)))
  {
    var dp := f + ['-'] + g + ['-'] + y;
    var s := dp + rest;
    if rest == [] {
      assert s == dp;
      SplitCharSingle(dp, ' ');
    } else {
      assert s == dp + [' '] + rest[1..];
      SplitCharCons(dp, ' ', rest[1..]);
    }
    ThreePieces(f, g, y, '-');
  }

  /** parseStandardDate reads the date of canonical text back as its midnight. */
  lemma ParseStandardRendered(t: int, includeTime: bool)
    requires ValidTime(t) && DateOf(t).year >= 100
    ensures ParseStandardDate(Render(t, includeTime)) == Some(Time(DayOf(t) * MsPerDay))
  {
    var c := DateOf(t);
    var dd, mm, yy := DateTextParts(c);
    var dp := RenderedDateChars(c);
    DigitsText(dd, '-');
    DigitsText(mm, '-');
    DigitsText(yy, '-');
    var tail := ClockSuffix(t, includeTime);
    ClockSuffixText(t, includeTime);
    assert Render(t, includeTime) == dd + ['-'] + mm + ['-'] + yy + tail;
    ParseStandardPieces(dd, mm, yy, tail);
    MidnightOfDate(t);
  }

  /** The aging of a registration date that reads as midnight of day z. */
  lemma AgingOfMidnight(s: string, z: int, now: int)
    requires ParseStandardDate(s) == Some(Time(z * MsPerDay))
    ensures CalculateAging(s, now) == Max(0, DayOf(now) - z)
    ensures CalculateAgingAsWritten(s, now) == Some(Max(0, DayOf(now) - z))
  {
    DivUnique(now - z * MsPerDay, MsPerDay, DayOf(now) - z, TimeInDay(now));
  }

  /** The aging of canonical text is the number of midnights passed since its date. */
  lemma AgingOfRendered(t: int, includeTime: bool, now: int)
    requires ValidTime(t) && DateOf(t).year >= 100
    ensures CalculateAging(Render(t, includeTime), now) == Max(0, DayOf(now) - DayOf(t))
    ensures CalculateAgingAsWritten(Render(t, includeTime), now) == Some(Max(0, DayOf(now) - DayOf(t)))
  {
    ParseStandardRendered(t, includeTime);
    AgingOfMidnight(Render(t, includeTime), DayOf(t), now);
  }

  /** The written calculateAging and the corrected one agree whenever the former is a number. */
  lemma AgingAgrees(s: string, now: int)
    ensures CalculateAgingAsWritten(s, now).Some? ==> CalculateAgingAsWritten(s, now) == Some(CalculateAging(s, now))
  {
  }

  /** "a-b-c" has three pieces but no digits, so the Date built from it is invalid and the
      written calculateAging yields NaN. */
  lemma AgingOfMalformedDate(now: int)
    ensures ParseStandardDate("a-b-c") == Some(Invalid)
    ensures CalculateAgingAsWritten("a-b-c", now).None?
    ensures CalculateAging("a-b-c", now) == 0
  {
    MalformedDateInvalid();
  }

  lemma MalformedDateInvalid()
    ensures ParseStandardDate("a-b-c") == Some(Invalid)
  {
    assert "a-b-c" == "a" + ['-'] + "b" + ['-'] + "c" + [];
    ParseStandardPieces("a", "b", "c", []);
    ParseIntNoDigits("c");
  }

  /** getTimeOnly of a blank-free date, a blank and a blank-free clock is the clock. */
  lemma TimeOfPieces(a: string, b: string)
    requires a != [] && ' ' !in a && ' ' !in b
    ensures GetTimeOnly(a + [' '] + b) == b
    ensures GetTimeOnly(a) == "--:--"
  {
    SplitCharCons(a, ' ', b);
    SplitCharSingle(b, ' ');
    SplitCharSingle(a, ' ');
  }

  /** getTimeOnly picks `HH:MM` out of canonical text with a clock, `--:--` out of a bare date. */
  lemma TimeOfRendered(t: int)
    ensures GetTimeOnly(Render(t, true)) == RenderClock(HourOf(t), MinuteOf(t))
    ensures GetTimeOnly(Render(t, false)) == "--:--"
  {
    var dp := RenderedDateChars(DateOf(t));
    var clock := RenderClock(HourOf(t), MinuteOf(t));
    ClockSuffixText(t, true);
    ClockSuffixText(t, false);
    assert Render(t, true) == dp + [' '] + clock;
    assert Render(t, false) == dp;
    TimeOfPieces(dp, clock);
  }
}

=== FILE: grouping.dfy ===
/**
 * Grouping into a `Record<string, T[]>` by pushing one value at a time, and reading the
 * record back with Object.entries, whose order puts array-index keys first in ascending
 * numeric order and then every other key in the order it was first added (section 10.1.11.1
 * of ECMA-262, OrdinaryOwnPropertyKeys).
 */
module Grouping {
  import opened Wrappers
  import opened JsText
  import opened Collections

  /** One entry of the record: a key and the values pushed under it, in push order. */
  datatype Group<T> = Group(name: string, items: seq<T>)

  /** The position of the entry with the given key, if there is one. */
  function IndexOfName<T>(gs: seq<Group<T>>, k: string): (r: Option<nat>)
    ensures r.Some? ==> r.value < |gs| && gs[r.value].name == k
    ensures r.None? ==> forall i :: 0 <= i < |gs| ==> gs[i].name != k
    decreases |gs|
  {
    if gs == [] then None
    else if gs[0].name == k then Some(0)
    else match IndexOfName(gs[1..], k)
      case None => None
      case Some(j) => Some(j + 1)
  }

  /** `if (!rec[k]) rec[k] = []; rec[k].push(x)`. */
  function Push<T>(gs: seq<Group<T>>, k: string, x: T): seq<Group<T>> {
    match IndexOfName(gs, k)
    case Some(j) => gs[j := Group(k, gs[j].items + [x])]
    case None => gs + [Group(k, [x])]
  }

  /** `s.forEach(x => push(key(x), x))` into an empty record, entries in creation order. */
  function GroupBy<T>(s: seq<T>, key: T -> string): seq<Group<T>>
    decreases |s|
  {
    if s == [] then [] else Push(GroupBy(s[..|s| - 1], key), key(s[|s| - 1]), s[|s| - 1])
  }

  /** The filter "has key k". */
  function HasKey<T>(key: T -> string, k: string): T -> bool {
    x => key(x) == k
  }

  /** `gs` partitions `s` by `key`: one entry per key that occurs, each holding exactly the
      values with its key in their original order. */
  ghost predicate GroupsOf<T>(gs: seq<Group<T>>, s: seq<T>, key: T -> string) {
    && (forall i, j :: 0 <= i < j < |gs| ==> gs[i].name != gs[j].name)
    && (forall i :: 0 <= i < |gs| ==> gs[i].items == Filter(s, HasKey(key, gs[i].name)) && gs[i].items != [])
    && Covers(gs, s, key)
  }

  /** Every value's key has an entry. */
  ghost predicate Covers<T>(gs: seq<Group<T>>, s: seq<T>, key: T -> string) {
    forall k :: 0 <= k < |s| ==> exists i :: 0 <= i < |gs| && gs[i].name == key(s[k])
  }

  /** Every value has the entry of its key. */
  lemma GroupOfMember<T>(gs: seq<Group<T>>, s: seq<T>, key: T -> string, x: T)
    requires GroupsOf(gs, s, key) && x in s
    ensures exists i :: 0 <= i < |gs| && gs[i].name == key(x)
  {
    var k :| 0 <= k < |s| && s[k] == x;
  }

  /** A filter nothing passes yields nothing. */
  lemma FilterNone<T>(s: seq<T>, p: T -> bool)
    requires forall i :: 0 <= i < |s| ==> !p(s[i])
    ensures Filter(s, p) == []
  {
  }

  lemma {:induction false} GroupByFacts<T>(s: seq<T>, key: T -> string)
    ensures GroupsOf(GroupBy(s, key), s, key)
    decreases |s|
  {
    if s != [] {
      var s', x := s[..|s| - 1], s[|s| - 1];
      assert s == s' + [x];
      GroupByFacts(s', key);
      PushFacts(GroupBy(s', key), s', key, x);
    }
  }

  /** Pushing one more value keeps the partition. */
  lemma PushFacts<T>(gs: seq<Group<T>>, s: seq<T>, key: T -> string, x: T)
    requires GroupsOf(gs, s, key)
    ensures GroupsOf(Push(gs, key(x), x), s + [x], key)
  {
    var k := key(x);
    forall i | 0 <= i < |gs| ensures Filter(s + [x], HasKey(key, gs[i].name)) == gs[i].items + (if gs[i].name == k then [x] else []) {
      FilterSnoc(s, x, HasKey(key, gs[i].name));
    }
    match IndexOfName(gs, k)
    case Some(j) => PushExisting(gs, s, key, x, j);
    case None => PushNew(gs, s, key, x);
  }

  lemma PushExisting<T>(gs: seq<Group<T>>, s: seq<T>, key: T -> string, x: T, j: nat)
    requires GroupsOf(gs, s, key)
    requires j < |gs| && gs[j].name == key(x)
    requires forall i :: 0 <= i < |gs| ==>
      Filter(s + [x], HasKey(key, gs[i].name)) == gs[i].items + (if gs[i].name == key(x) then [x] else [])
    ensures GroupsOf(gs[j := Group(key(x), gs[j].items + [x])], s + [x], key)
  {
    var r := gs[j := Group(key(x), gs[j].items + [x])];
    forall i | 0 <= i < |r| ensures r[i].items == Filter(s + [x], HasKey(key, r[i].name)) && r[i].items != [] {
      if i != j {
        assert r[i] == gs[i];
      }
    }
    forall i, i' | 0 <= i < i' < |r| ensures r[i].name != r[i'].name {
      assert r[i].name == gs[i].name && r[i'].name == gs[i'].name;
    }
    forall k | 0 <= k < |s + [x]| ensures exists i :: 0 <= i < |r| && r[i].name == key((s + [x])[k]) {
      if k < |s| {
        var i :| 0 <= i < |gs| && gs[i].name == key(s[k]);
        assert r[i].name == gs[i].name && (s + [x])[k] == s[k];
      } else {
        assert r[j].name == key(x);
      }
    }
  }

  /** Each value has an entry named by its key. */
  lemma ExistsGroupOf<T>(gs: seq<Group<T>>, s: seq<T>, key: T -> string, k: int)
    requires Covers(gs, s, key) && 0 <= k < |s|
    ensures exists i :: 0 <= i < |gs| && gs[i].name == key(s[k])
  {
    var x := s[k];
    assert key(x) == key(s[k]);
  }

  /** A key no entry has belongs to none of the values. */
  lemma UnseenKey<T>(gs: seq<Group<T>>, s: seq<T>, key: T -> string, k: string)
    requires Covers(gs, s, key)
    requires forall i :: 0 <= i < |gs| ==> gs[i].name != k
    ensures Filter(s, HasKey(key, k)) == []
  {
    forall i | 0 <= i < |s| ensures !HasKey(key, k)(s[i]) {
      ExistsGroupOf(gs, s, key, i);
      var j :| 0 <= j < |gs| && gs[j].name == key(s[i]);
    }
    FilterNone(s, HasKey(key, k));
  }

  lemma PushNew<T>(gs: seq<Group<T>>, s: seq<T>, key: T -> string, x: T)
    requires GroupsOf(gs, s, key)
    requires forall i :: 0 <= i < |gs| ==> gs[i].name != key(x)
    requires forall i :: 0 <= i < |gs| ==>
      Filter(s + [x], HasKey(key, gs[i].name)) == gs[i].items + (if gs[i].name == key(x) then [x] else [])
    ensures GroupsOf(gs + [Group(key(x), [x])], s + [x], key)
  {
    var k := key(x);
    UnseenKey(gs, s, key, k);
    FilterSnoc(s, x, HasKey(key, k));
    NewGroupItems(gs, s, key, x);
    NewGroupNames(gs, Group(k, [x]));
    NewGroupCovers(gs, s, key, x);
  }

  lemma NewGroupItems<T>(gs: seq<Group<T>>, s: seq<T>, key: T -> string, x: T)
    requires forall i :: 0 <= i < |gs| ==> gs[i].items != []
    requires forall i :: 0 <= i < |gs| ==>
      Filter(s + [x], HasKey(key, gs[i].name)) == gs[i].items + (if gs[i].name == key(x) then [x] else [])
    requires forall i :: 0 <= i < |gs| ==> gs[i].name != key(x)
    requires Filter(s + [x], HasKey(key, key(x))) == [x]
    ensures var r := gs + [Group(key(x), [x])];
      forall i :: 0 <= i < |r| ==> r[i].items == Filter(s + [x], HasKey(key, r[i].name)) && r[i].items != []
  {
    var r := gs + [Group(key(x), [x])];
    forall i | 0 <= i < |r| ensures r[i].items == Filter(s + [x], HasKey(key, r[i].name)) && r[i].items != [] {
      if i < |gs| {
        assert r[i] == gs[i];
      }
    }
  }

  lemma NewGroupNames<T>(gs: seq<Group<T>>, g: Group<T>)
    requires forall i, j :: 0 <= i < j < |gs| ==> gs[i].name != gs[j].name
    requires forall i :: 0 <= i < |gs| ==> gs[i].name != g.name
    ensures var r := gs + [g]; forall i, j :: 0 <= i < j < |r| ==> r[i].name != r[j].name
  {
    var r := gs + [g];
    forall i, j | 0 <= i < j < |r| ensures r[i].name != r[j].name {
      assert r[i] == gs[i];
      if j < |gs| {
        assert r[j] == gs[j];
      }
    }
  }

  lemma NewGroupCovers<T>(gs: seq<Group<T>>, s: seq<T>, key: T -> string, x: T)
    requires Covers(gs, s, key)
    ensures Covers(gs + [Group(key(x), [x])], s + [x], key)
  {
    var r := gs + [Group(key(x), [x])];
    var t := s + [x];
    forall k | 0 <= k < |t| ensures exists i :: 0 <= i < |r| && r[i].name == key(t[k]) {
      if k < |s| {
        var j :| 0 <= j < |gs| && gs[j].name == key(s[k]);
        assert r[j] == gs[j] && t[k] == s[k];
      } else {
        assert t[k] == x && r[|gs|].name == key(x);
      }
    }
    // a ground term r[_] lets the solver unfold the goal's inner quantifier
    assert r[|gs|].name == key(x);
  }

  // ---------------------------------------------------------------------
  // Object.entries order
  // ---------------------------------------------------------------------

  /** 2^32 - 1: array indices lie below it. */
  const IndexLimit: nat := 4294967295

  /** A key that is the canonical decimal text of an array index. */
  predicate IsArrayIndex(k: string) {
    k != [] && AllDigits(k) && (k[0] != '0' || |k| == 1) && DecimalValue(k) < IndexLimit
  }

  /** Array-index keys rank by value, every other key after them all. */
  function EntryRank<T>(g: Group<T>): (r: int)
    ensures IsArrayIndex(g.name) <==> r < IndexLimit
  {
    if IsArrayIndex(g.name) then DecimalValue(g.name) else IndexLimit
  }

  /** Object.entries of the record built by GroupBy. */
  function Entries<T>(gs: seq<Group<T>>): seq<Group<T>> {
    SortBy(gs, EntryRank)
  }

  /** The entries are the groups rearranged: index keys first by value, the rest in the
      order they were created. */
  lemma EntriesFacts<T>(gs: seq<Group<T>>)
    ensures multiset(Entries(gs)) == multiset(gs)
    ensures SortedBy(Entries(gs), EntryRank)
    ensures Filter(Entries(gs), KeyIs(EntryRank, IndexLimit)) == Filter(gs, KeyIs(EntryRank, IndexLimit))
  {
    SortByFacts(gs, EntryRank);
    SortByStable(gs, EntryRank, IndexLimit);
  }

  /** Rearranging the entries keeps the partition. */
  lemma GroupsOfPermutation<T>(gs: seq<Group<T>>, a: seq<Group<T>>, s: seq<T>, key: T -> string)
    requires GroupsOf(gs, s, key) && multiset(a) == multiset(gs)
    ensures GroupsOf(a, s, key) && |a| == |gs|
  {
    assert |a| == |multiset(a)| == |multiset(gs)| == |gs|;
    forall i | 0 <= i < |a| ensures a[i] in gs {
      assert a[i] in multiset(a);
    }
    forall k | 0 <= k < |s| ensures exists i :: 0 <= i < |a| && a[i].name == key(s[k]) {
      var j :| 0 <= j < |gs| && gs[j].name == key(s[k]);
      assert gs[j] in multiset(a);
      var i :| 0 <= i < |a| && a[i] == gs[j];
    }
    PermutationKeepsNamesDistinct(gs, a);
  }

  lemma PermutationKeepsNamesDistinct<T>(gs: seq<Group<T>>, a: seq<Group<T>>)
    requires forall i, j :: 0 <= i < j < |gs| ==> gs[i].name != gs[j].name
    requires multiset(a) == multiset(gs)
    ensures forall i, j :: 0 <= i < j < |a| ==> a[i].name != a[j].name
  {
    DistinctMultiset(gs);
    forall i, j | 0 <= i < j < |a| ensures a[i].name != a[j].name {
      RepeatCounted(a, i, j);
      assert a[i] in multiset(gs) && a[j] in multiset(gs);
      var p :| 0 <= p < |gs| && gs[p] == a[i];
      var q :| 0 <= q < |gs| && gs[q] == a[j];
      assert p != q ==> gs[p].name != gs[q].name;
    }
  }
}

=== FILE: js_text.dfy ===
/**
 * The JavaScript string and number primitives the complaint tracker leans on:
 * `trim`, `split`, `includes`, `startsWith`, `padStart`, `toLowerCase` /
 * `toUpperCase`, `parseInt`, `parseFloat` and `String(number)`.
 *
 * A `char` stands for one UTF-16 code unit, which is exact for text in the
 * Basic Multilingual Plane. Case mapping covers the ASCII letters only.
 * Numbers are exact decimals (mantissa x 10^exponent); the rounding of a
 * decimal literal to the nearest double is not modelled.
 */
module JsText {
  import opened Wrappers

  // ---------------------------------------------------------------------
  // Character classes
  // ---------------------------------------------------------------------

  /** ECMAScript WhiteSpace and LineTerminator: what `trim` removes and `\s` matches. */
  predicate IsSpace(c: char) {
    c == '\t' || c == '\n' || c == '\U{000B}' || c == '\U{000C}' || c == '\r' || c == ' '
    || c == ' ' || c == '\U{1680}' || ('\U{2000}' <= c <= '\U{200A}')
    || c == '\U{2028}' || c == '\U{2029}' || c == '\U{202F}' || c == '\U{205F}'
    || c == '\U{3000}' || c == '\U{FEFF}'
  }

  predicate IsDigit(c: char) {
    '0' <= c <= '9'
  }

  predicate IsHexDigit(c: char) {
    IsDigit(c) || 'a' <= c <= 'f' || 'A' <= c <= 'F'
  }

  predicate AllDigits(s: string) {
    forall i :: 0 <= i < |s| ==> IsDigit(s[i])
  }

  predicate NoSpace(s: string) {
    forall i :: 0 <= i < |s| ==> !IsSpace(s[i])
  }

  // ---------------------------------------------------------------------
  // trim, startsWith, includes
  // ---------------------------------------------------------------------

  /** Text made of white space only (the empty text included). */
  predicate AllSpace(s: string) {
    forall i :: 0 <= i < |s| ==> IsSpace(s[i])
  }

  /** The suffix left after dropping leading white space. */
  function TrimStart(s: string): (r: string)
    ensures |r| <= |s| && r == s[|s| - |r|..]
    ensures r == [] || !IsSpace(r[0])
    ensures forall i :: 0 <= i < |s| - |r| ==> IsSpace(s[i])
  {
    if s != [] && IsSpace(s[0]) then
      var r := TrimStart(s[1..]);
      assert s[1..][|s| - 1 - |r|..] == s[|s| - |r|..];
      assert forall i :: 1 <= i < |s| - |r| ==> s[i] == s[1..][i - 1];
      r
    else s
  }

  /** The prefix left after dropping trailing white space. */
  function TrimEnd(s: string): (r: string)
    ensures |r| <= |s| && r == s[..|r|]
    ensures r == [] || !IsSpace(r[|r| - 1])
    ensures forall i :: |r| <= i < |s| ==> IsSpace(s[i])
  {
    if s != [] && IsSpace(s[|s| - 1]) then TrimEnd(s[..|s| - 1]) else s
  }

  /** String.prototype.trim. */
  function Trim(s: string): (r: string)
    ensures r == [] || (!IsSpace(r[0]) && !IsSpace(r[|r| - 1]))
    ensures (s == [] || (!IsSpace(s[0]) && !IsSpace(s[|s| - 1]))) ==> r == s
    ensures r == [] <==> AllSpace(s)
    ensures BlankPadded(s, r)
  {
    var t := TrimStart(s);
    var r := TrimEnd(t);
    assert r != [] ==> r[0] == t[0];
    assert t != [] && !IsSpace(t[|t| - 1]) ==> r == t;
    TrimPadded(s);
    r
  }

  /** `s` is `r` with a run of blanks before it and another after it. */
  predicate BlankPadded(s: string, r: string) {
    exists a :: 0 <= a <= |s| - |r| && r == s[a..a + |r|] && AllSpace(s[..a]) && AllSpace(s[a + |r|..])
  }

  /** Trimming the start and then the end leaves the input's middle, between two blank runs. */
  lemma TrimPadded(s: string)
    ensures BlankPadded(s, TrimEnd(TrimStart(s)))
  {
    var t := TrimStart(s);
    PaddedSlice(s, t, TrimEnd(t));
  }

  /** A suffix after a blank run, cut before a blank run, is the middle of the text. */
  lemma PaddedSlice(s: string, t: string, r: string)
    requires |t| <= |s| && t == s[|s| - |t|..] && forall i :: 0 <= i < |s| - |t| ==> IsSpace(s[i])
    requires |r| <= |t| && r == t[..|r|] && forall i :: |r| <= i < |t| ==> IsSpace(t[i])
    ensures BlankPadded(s, r)
  {
    var a := |s| - |t|;
    assert r == s[a..a + |r|];
    assert AllSpace(s[..a]);
    assert s[a + |r|..] == t[|r|..];
    assert AllSpace(s[a + |r|..]);
  }

  predicate StartsWith(s: string, prefix: string) {
    |prefix| <= |s| && s[..|prefix|] == prefix
  }

  /** `sub` occurs in `s` starting at index i. */
  predicate OccursAt(s: string, sub: string, i: int) {
    0 <= i <= |s| - |sub| && s[i..i + |sub|] == sub
  }

  /** String.prototype.includes. */
  function Contains(s: string, sub: string): (b: bool)
    ensures b <==> exists i :: OccursAt(s, sub, i)
    decreases |s|
  {
    if StartsWith(s, sub) then
      assert OccursAt(s, sub, 0);
      true
    else if |s| <= |sub| then
      assert forall i :: OccursAt(s, sub, i) ==> i == 0;
      false
    else
      var b := Contains(s[1..], sub);
      assert forall i :: OccursAt(s, sub, i) && i >= 1 ==> OccursAt(s[1..], sub, i - 1) by {
        forall i | OccursAt(s, sub, i) && i >= 1
          ensures OccursAt(s[1..], sub, i - 1)
        {
          assert s[1..][i - 1..i - 1 + |sub|] == s[i..i + |sub|];
        }
      }
      assert b ==> exists i :: OccursAt(s, sub, i) by {
        if b {
          var j :| OccursAt(s[1..], sub, j);
          assert s[1..][j..j + |sub|] == s[j + 1..j + 1 + |sub|];
          assert OccursAt(s, sub, j + 1);
        }
      }
      b
  }

  // ---------------------------------------------------------------------
  // Case mapping (ASCII letters)
  // ---------------------------------------------------------------------

  function LowerChar(c: char): char {
    if 'A' <= c <= 'Z' then (c as int + 32) as char else c
  }

  function UpperChar(c: char): char {
    if 'a' <= c <= 'z' then (c as int - 32) as char else c
  }

  /** String.prototype.toLowerCase, on ASCII letters. */
  function Lower(s: string): (r: string)
    ensures |r| == |s|
    ensures forall i :: 0 <= i < |s| ==> r[i] == LowerChar(s[i])
  {
    seq(|s|, i requires 0 <= i < |s| => LowerChar(s[i]))
  }

  /** String.prototype.toUpperCase, on ASCII letters. */
  function Upper(s: string): (r: string)
    ensures |r| == |s|
    ensures forall i :: 0 <= i < |s| ==> r[i] == UpperChar(s[i])
  {
    seq(|s|, i requires 0 <= i < |s| => UpperChar(s[i]))
  }

  // ---------------------------------------------------------------------
  // split
  // ---------------------------------------------------------------------

  /** The pieces of a split, glued back together with the separator. */
  function JoinWith(parts: seq<string>, c: char): string
    requires |parts| >= 1
  {
    if |parts| == 1 then parts[0] else parts[0] + [c] + JoinWith(parts[1..], c)
  }

  /** `s.split(c)` for a one-character separator: never empty, keeps empty pieces. */
  function SplitChar(s: string, c: char): (r: seq<string>)
    ensures |r| >= 1
    ensures forall i :: 0 <= i < |r| ==> c !in r[i]
    ensures JoinWith(r, c) == s
  {
    if s == [] then [""]
    else
      var rest := SplitChar(s[1..], c);
      if s[0] == c then [""] + rest
      else
        var r := [[s[0]] + rest[0]] + rest[1..];
        assert r[1..] == rest[1..];
        r
  }

  /** A piece free of the separator, followed by the separator, is the first piece. */
  lemma {:induction false} SplitCharCons(w: string, c: char, rest: string)
    requires c !in w
    ensures SplitChar(w + [c] + rest, c) == [w] + SplitChar(rest, c)
    decreases |w|
  {
    if w == [] {
      assert w + [c] + rest == [c] + rest;
      assert ([c] + rest)[1..] == rest;
    } else {
      assert (w + [c] + rest)[1..] == w[1..] + [c] + rest;
      SplitCharCons(w[1..], c, rest);
      assert [w[0]] + w[1..] == w;
    }
  }

  /** A string free of the separator splits into itself alone. */
  /** Separator-free pieces that join back to the text are the pieces `split` gives: the
      contract of SplitChar fixes its result. */
  lemma {:induction false} SplitCharUnique(s: string, c: char, parts: seq<string>)
    requires |parts| >= 1 && JoinWith(parts, c) == s
    requires forall i :: 0 <= i < |parts| ==> c !in parts[i]
    ensures parts == SplitChar(s, c)
    decreases |parts|
  {
    if |parts| == 1 {
      SplitCharSingle(s, c);
    } else {
      var rest := JoinWith(parts[1..], c);
      assert s == parts[0] + [c] + rest;
      assert c !in parts[0];
      SplitCharCons(parts[0], c, rest);
      SplitCharUnique(rest, c, parts[1..]);
      assert parts == [parts[0]] + parts[1..];
    }
  }

  lemma {:induction false} SplitCharSingle(w: string, c: char)
    ensures c !in w ==> SplitChar(w, c) == [w]
    decreases |w|
  {
    if w != [] && c !in w {
      SplitCharSingle(w[1..], c);
      assert [w[0]] + w[1..] == w;
    }
  }

  /** `s.split(/\s+/)[0]` for a string with no leading white space: the longest
      prefix free of white space. */
  function FirstToken(s: string): (r: string)
    ensures |r| <= |s| && r == s[..|r|] && NoSpace(r)
    ensures |r| == |s| || IsSpace(s[|r|])
  {
    if s == [] || IsSpace(s[0]) then [] else [s[0]] + FirstToken(s[1..])
  }

  lemma {:induction false} FirstTokenOf(w: string, rest: string)
    requires NoSpace(w)
    requires rest == [] || IsSpace(rest[0])
    ensures FirstToken(w + rest) == w
    decreases |w|
  {
    if w != [] {
      assert (w + rest)[1..] == w[1..] + rest;
      FirstTokenOf(w[1..], rest);
    }
  }

  /** The separators of the date token: `/`, `-`, `.` and white space. */
  predicate IsDateSep(c: char) {
    c == '/' || c == '-' || c == '.' || IsSpace(c)
  }

  predicate NoDateSep(s: string) {
    forall i :: 0 <= i < |s| ==> !IsDateSep(s[i])
  }

  /** The longest prefix holding no date separator. */
  function Word(s: string): (w: string)
    ensures |w| <= |s| && w == s[..|w|] && NoDateSep(w)
    ensures |w| == |s| || IsDateSep(s[|w|])
  {
    if s == [] || IsDateSep(s[0]) then [] else [s[0]] + Word(s[1..])
  }

  /** `s.split(/[\/\-\.\s]/).filter(p => p.length > 0)`: the maximal separator-free runs. */
  function DateFields(s: string): (r: seq<string>)
    ensures forall i :: 0 <= i < |r| ==> r[i] != [] && NoDateSep(r[i])
    decreases |s|
  {
    if s == [] then []
    else if IsDateSep(s[0]) then DateFields(s[1..])
    else
      var w := Word(s);
      [w] + DateFields(s[|w|..])
  }

  /** A separator-free word followed by a separator is the first field. */
  lemma {:induction false} DateFieldsCons(w: string, sep: char, rest: string)
    requires w != [] && NoDateSep(w) && IsDateSep(sep)
    ensures DateFields(w + [sep] + rest) == [w] + DateFields(rest)
  {
    var s := w + [sep] + rest;
    WordOf(w, [sep] + rest);
    assert s == w + ([sep] + rest);
    assert s[|w|..] == [sep] + rest;
    assert ([sep] + rest)[1..] == rest;
  }

  /** A separator-free word is a single field. */
  lemma {:induction false} DateFieldsSingle(w: string)
    requires w != [] && NoDateSep(w)
    ensures DateFields(w) == [w]
  {
    WordOf(w, []);
    assert w + [] == w;
  }

  lemma {:induction false} WordOf(w: string, rest: string)
    requires NoDateSep(w)
    requires rest == [] || IsDateSep(rest[0])
    ensures Word(w + rest) == w
    decreases |w|
  {
    if w != [] {
      assert (w + rest)[1..] == w[1..] + rest;
      WordOf(w[1..], rest);
    }
  }

  // ---------------------------------------------------------------------
  // Digits, parseInt and String(integer)
  // ---------------------------------------------------------------------

  function DigitValue(c: char): nat
    requires IsDigit(c)
  {
    c as int - '0' as int
  }

  function HexDigitValue(c: char): nat
    requires IsHexDigit(c)
  {
    if IsDigit(c) then c as int - '0' as int
    else if 'a' <= c <= 'f' then c as int - 'a' as int + 10
    else c as int - 'A' as int + 10
  }

  /** The value of a string of decimal digits, most significant first. */
  function DecimalValue(ds: string): nat
    requires AllDigits(ds)
  {
    if ds == [] then 0 else DecimalValue(ds[..|ds| - 1]) * 10 + DigitValue(ds[|ds| - 1])
  }

  function HexValue(ds: string): nat
    requires forall i :: 0 <= i < |ds| ==> IsHexDigit(ds[i])
  {
    if ds == [] then 0 else HexValue(ds[..|ds| - 1]) * 16 + HexDigitValue(ds[|ds| - 1])
  }

  /** The longest prefix of decimal digits. */
  function DigitPrefix(s: string): (ds: string)
    ensures |ds| <= |s| && ds == s[..|ds|] && AllDigits(ds)
    ensures |ds| == |s| || !IsDigit(s[|ds|])
  {
    if s == [] || !IsDigit(s[0]) then [] else [s[0]] + DigitPrefix(s[1..])
  }

  function HexPrefix(s: string): (ds: string)
    ensures |ds| <= |s| && ds == s[..|ds|] && forall i :: 0 <= i < |ds| ==> IsHexDigit(ds[i])
  {
    if s == [] || !IsHexDigit(s[0]) then [] else [s[0]] + HexPrefix(s[1..])
  }

  lemma {:induction false} DigitPrefixOf(ds: string, rest: string)
    requires AllDigits(ds)
    requires rest == [] || !IsDigit(rest[0])
    ensures DigitPrefix(ds + rest) == ds
    decreases |ds|
  {
    if ds != [] {
      assert (ds + rest)[1..] == ds[1..] + rest;
      DigitPrefixOf(ds[1..], rest);
    }
  }

  /** parseInt(s) with no radix: optional white space and sign, a `0x` prefix selects
      base 16, then the longest run of digits; no digits at all gives NaN (None). */
  function ParseInt(s: string): (r: Option<int>)
    ensures s != [] && AllDigits(s) ==> r == Some(DecimalValue(s))
  {
    var t := TrimStart(s);
    var negative := t != [] && t[0] == '-';
    var u := if t != [] && (t[0] == '-' || t[0] == '+') then t[1..] else t;
    var sign := if negative then -1 else 1;
    if |u| >= 2 && u[0] == '0' && (u[1] == 'x' || u[1] == 'X') then
      var hs := HexPrefix(u[2..]);
      if hs == [] then None else Some(sign * HexValue(hs))
    else
      var ds := DigitPrefix(u);
      ParseIntDigits(s);
      if ds == [] then None else Some(sign * DecimalValue(ds))
  }

  lemma ParseIntDigits(s: string)
    ensures s != [] && AllDigits(s) ==> TrimStart(s) == s && DigitPrefix(s) == s
  {
    if s != [] && AllDigits(s) {
      assert !IsSpace(s[0]);
      DigitPrefixOf(s, []);
      assert s + [] == s;
    }
  }

  /** Text that opens with a character that is no blank, sign or digit has no integer. */
  lemma ParseIntNoDigits(s: string)
    requires s != [] && !IsSpace(s[0]) && !IsDigit(s[0]) && s[0] != '-' && s[0] != '+'
    ensures ParseInt(s) == None
  {
    NoLeadingSpace(s);
    assert DigitPrefix(s) == [];
  }

  /** The decimal digits of a natural number, without leading zeros. */
  function NatToString(n: nat): (r: string)
    ensures r != [] && AllDigits(r)
    ensures |r| > 1 ==> r[0] != '0'
  {
    var last := ['0' + (n % 10) as char];
    if n < 10 then last else NatToString(n / 10) + last
  }

  /** The digits of n have value n, and as many of them as n needs. */
  lemma {:induction false} NatToStringFacts(n: nat)
    ensures var r := NatToString(n);
      && DecimalValue(r) == n
      && (|r| == 1 <==> n < 10)
      && (10 <= n < 100 ==> |r| == 2)
      && (100 <= n ==> |r| >= 3)
      && (100 <= n < 1000 ==> |r| == 3)
      && (1000 <= n < 10000 ==> |r| == 4)
    decreases n
  {
    if n >= 10 {
      NatToStringFacts(n / 10);
      var r := NatToString(n);
      assert r[..|r| - 1] == NatToString(n / 10);
    }
  }

  /** String(n) for an integer-valued number. */
  function IntToString(i: int): (r: string)
    ensures i >= 0 ==> r == NatToString(i)
    ensures i < 0 ==> r == "-" + NatToString(-i)
  {
    if i < 0 then "-" + NatToString(-i) else NatToString(i)
  }

  /** Reading back the digits of n gives n. */
  lemma NatToStringRoundTrip(n: nat)
    ensures ParseInt(NatToString(n)) == Some(n)
  {
    NatToStringFacts(n);
  }

  /** Distinct numbers have distinct digit strings. */
  lemma NatToStringInjective(a: nat, b: nat)
    requires NatToString(a) == NatToString(b)
    ensures a == b
  {
    NatToStringRoundTrip(a);
    NatToStringRoundTrip(b);
  }

  /** `padStart(2, '0')`. */
  function Pad2(s: string): (r: string)
    ensures |s| >= 2 ==> r == s
    ensures |s| < 2 ==> |r| == 2 && r[2 - |s|..] == s && forall i :: 0 <= i < 2 - |s| ==> r[i] == '0'
  {
    if |s| >= 2 then s else if |s| == 1 then "0" + s else "00"
  }

  /** The two-digit, zero-padded rendering of a number below 100. */
  lemma Pad2Digits(n: nat)
    requires n < 100
    ensures var r := Pad2(NatToString(n));
      |r| == 2 && AllDigits(r) && DecimalValue(r) == n
  {
    NatToStringFacts(n);
    var r := Pad2(NatToString(n));
    if n < 10 {
      assert r[..1] == "0";
    }
  }

  // ---------------------------------------------------------------------
  // Numbers: parseFloat and String(number)
  // ---------------------------------------------------------------------

  /** A JavaScript number: NaN, an infinity, or the exact decimal
      (-1)^negative * mantissa * 10^exponent. */
  datatype JsNumber = NaN | Infinity(negative: bool) | Finite(negative: bool, mantissa: nat, exponent: int)

  function Pow10(k: nat): (p: nat)
    ensures p >= 1
  {
    if k == 0 then 1 else 10 * Pow10(k - 1)
  }

  /** v > n, for a whole number n >= 0. */
  predicate GreaterThan(v: JsNumber, n: nat) {
    match v
    case NaN => false
    case Infinity(negative) => !negative
    case Finite(negative, m, e) =>
      !negative && (if e >= 0 then Scale(m, e) > n else m > Scale(n, -e))
  }

  /** v < n, for a whole number n > 0. */
  predicate LessThan(v: JsNumber, n: nat) {
    match v
    case NaN => false
    case Infinity(negative) => negative
    case Finite(negative, m, e) =>
      negative || (if e >= 0 then Scale(m, e) < n else m < Scale(n, -e))
  }

  /** Math.floor(v), for a finite non-negative v. */
  function Floor(v: JsNumber): (f: nat)
    requires v.Finite? && !v.negative
  {
    if v.exponent >= 0 then Scale(v.mantissa, v.exponent) else Quotient(v.mantissa, Pow10(-v.exponent))
  }

  /** m * 10^k. */
  function Scale(m: nat, k: nat): nat {
    var p := Pow10(k);
    NatProduct(m, p);
    m * p
  }

  function Quotient(a: nat, b: nat): (q: nat)
    requires b > 0
    ensures q * b <= a < (q + 1) * b
  {
    NatQuotient(a, b);
    a / b
  }

  lemma NatProduct(a: nat, b: nat)
    ensures a * b >= 0
  {
  }

  lemma NatQuotient(a: nat, b: nat)
    requires b > 0
    ensures a / b >= 0 && (a / b) * b <= a < (a / b + 1) * b
  {
    assert a == b * (a / b) + a % b;
  }

  /** Math.round((v - Math.floor(v)) * 86400): the fraction of a day, in rounded seconds. */
  function FractionSeconds(v: JsNumber): (s: nat)
    requires v.Finite? && !v.negative
    ensures s <= 86400
  {
    if v.exponent >= 0 then 0
    else
      var d := Pow10(-v.exponent);
      var f := Remainder(v.mantissa, d);
      RoundedBound(f, d);
      Quotient(2 * f * 86400 + d, 2 * d)
  }

  function Remainder(a: nat, b: nat): (r: nat)
    requires b > 0
    ensures r < b
  {
    a % b
  }

  lemma RoundedBound(f: nat, d: nat)
    requires f < d
    ensures (2 * f * 86400 + d) / (2 * d) <= 86400
  {
    var a := 2 * f * 86400 + d;
    var b := 2 * d;
    assert a < b * 86401 by {
      assert 2 * f * 86400 <= 2 * (d - 1) * 86400;
    }
    QuotientBelow(a, b, 86401);
  }

  lemma QuotientBelow(a: nat, b: nat, q: nat)
    requires b > 0 && a < b * q
    ensures a / b < q
  {
    var k := a / b;
    assert a == b * k + a % b;
  }

  /** An exponent part `e`/`E`, optional sign, at least one digit. */
  function ExponentPart(s: string): Option<int> {
    if s == [] || (s[0] != 'e' && s[0] != 'E') then None
    else
      var t := s[1..];
      var negative := t != [] && t[0] == '-';
      var u := if t != [] && (t[0] == '-' || t[0] == '+') then t[1..] else t;
      var ds := DigitPrefix(u);
      if ds == [] then None
      else if negative then Some(-(DecimalValue(ds) as int)) else Some(DecimalValue(ds))
  }

  /** parseFloat(s): the longest prefix, after white space, that is a decimal literal or
      `Infinity`, with an optional sign; NaN when there is none. */
  function ParseFloat(s: string): (r: JsNumber)
  {
    var t := TrimStart(s);
    var negative := t != [] && t[0] == '-';
    var u := if t != [] && (t[0] == '-' || t[0] == '+') then t[1..] else t;
    if StartsWith(u, "Infinity") then Infinity(negative) else ParseDecimal(u, negative)
  }

  /** The longest decimal literal at the start of u: digits, optionally a point and more
      digits (at least one digit in all), optionally an exponent part. */
  function ParseDecimal(u: string, negative: bool): JsNumber {
    var ip := DigitPrefix(u);
    var rest := u[|ip|..];
    if rest != [] && rest[0] == '.' then
      var fp := DigitPrefix(rest[1..]);
      if ip == [] && fp == [] then NaN
      else
        AllDigitsConcat(ip, fp);
        Decimal(negative, ip + fp, |fp|, ExponentPart(rest[1 + |fp|..]))
    else if ip == [] then NaN
    else Decimal(negative, ip, 0, ExponentPart(rest))
  }

  /** The number with digits ds, `scale` of them after the point, and an exponent part. */
  function Decimal(negative: bool, ds: string, scale: nat, e: Option<int>): JsNumber
    requires AllDigits(ds)
  {
    Finite(negative, DecimalValue(ds), (if e.Some? then e.value else 0) - scale)
  }

  lemma AllDigitsConcat(a: string, b: string)
    requires AllDigits(a) && AllDigits(b)
    ensures AllDigits(a + b)
  {
    forall i | 0 <= i < |a + b| ensures IsDigit((a + b)[i]) {
      if i >= |a| {
        assert (a + b)[i] == b[i - |a|];
      }
    }
  }

  /** A string that starts with digits followed by a character that cannot continue a
      number reads as those digits. */
  lemma ParseFloatDigits(ds: string, rest: string)
    requires ds != [] && AllDigits(ds)
    requires rest == [] || (!IsDigit(rest[0]) && rest[0] != '.' && rest[0] != 'e' && rest[0] != 'E')
    ensures ParseFloat(ds + rest) == Finite(false, DecimalValue(ds), 0)
  {
    var s := ds + rest;
    assert s[0] == ds[0];
    NoLeadingSpace(s);
    NotInfinity(s);
    ParseDecimalDigits(ds, rest);
  }

  /** A string of digits reads as the whole number it spells. */
  lemma ParseFloatWhole(ds: string)
    requires ds != [] && AllDigits(ds)
    ensures ParseFloat(ds) == Finite(false, DecimalValue(ds), 0)
  {
    ParseFloatDigits(ds, []);
    assert ds + [] == ds;
  }

  lemma NoLeadingSpace(s: string)
    requires s != [] && !IsSpace(s[0])
    ensures TrimStart(s) == s
  {
  }

  lemma NotInfinity(s: string)
    requires s != [] && s[0] != 'I'
    ensures !StartsWith(s, "Infinity")
  {
    if |s| >= 8 {
      assert s[..8][0] == s[0];
    }
  }

  lemma ParseDecimalDigits(ds: string, rest: string)
    requires ds != [] && AllDigits(ds)
    requires rest == [] || (!IsDigit(rest[0]) && rest[0] != '.' && rest[0] != 'e' && rest[0] != 'E')
    ensures ParseDecimal(ds + rest, false) == Finite(false, DecimalValue(ds), 0)
  {
    DigitPrefixOf(ds, rest);
    assert (ds + rest)[|ds|..] == rest;
    assert ExponentPart(rest) == None;
  }

  /** Text that opens with a character no decimal literal can start with reads as NaN. */
  lemma ParseFloatNoNumber(s: string)
    requires s != [] && !IsSpace(s[0]) && !IsDigit(s[0])
    requires s[0] != '+' && s[0] != '-' && s[0] != '.' && s[0] != 'I'
    ensures ParseFloat(s) == NaN
  {
    assert TrimStart(s) == s;
    assert DigitPrefix(s) == [];
  }

  function Zeros(k: nat): (z: string)
    ensures |z| == k && forall i :: 0 <= i < k ==> z[i] == '0'
  {
    if k == 0 then [] else "0" + Zeros(k - 1)
  }

  /** Drops trailing zero digits of the mantissa into the exponent. */
  function StripZeros(m: nat, e: int): (r: (nat, int))
    ensures m == 0 ==> r == (0, e)
    ensures m != 0 ==> r.1 >= e && r.0 % 10 != 0 && r.0 * Pow10(r.1 - e) == m
    decreases m
  {
    if m != 0 && m % 10 == 0 then
      var r := StripZeros(m / 10, e + 1);
      var p := Pow10(r.1 - e - 1);
      assert Pow10(r.1 - e) == 10 * p;
      assert r.0 * p == m / 10;
      assert r.0 * (10 * p) == 10 * (r.0 * p);
      assert m == 10 * (m / 10);
      r
    else (m, e)
  }

  /** Number::toString for radix 10 (section 6.1.6.1.20 of ECMA-262), given the
      shortest decimal digits of the number. */
  function NumberToString(v: JsNumber): string {
    match v
    case NaN => "NaN"
    case Infinity(negative) => if negative then "-Infinity" else "Infinity"
    case Finite(negative, m, e) =>
      if m == 0 then "0"
      else
        var (m', e') := StripZeros(m, e);
        var body := PositiveToString(m', e');
        if negative then "-" + body else body
  }

  function PositiveToString(m: nat, e: int): string
    requires m > 0
  {
    var ds := NatToString(m);
    var k := |ds|;
    var n := e + k;
    if k <= n <= 21 then ds + Zeros(n - k)
    else if 0 < n <= 21 then ds[..n] + "." + ds[n..]
    else if -6 < n <= 0 then "0." + Zeros(-n) + ds
    else
      var exp := n - 1;
      var expText := (if exp < 0 then "-" else "+") + NatToString(if exp < 0 then -exp else exp);
      if k == 1 then ds + "e" + expText
      else ds[..1] + "." + ds[1..] + "e" + expText
  }
}

=== FILE: records.dfy ===
/**
 * The complaint record and the operations that rewrite records: the `updateCase`
 * merge both dashboards share, `addTimestamp`, the admin `load` that re-normalises the
 * stored dates, and the import-time lookups `getProduct` and `matchTechnician`.
 *
 * The stored collection, the product table and the technician roster are parameters;
 * "now" arrives as the canonical text getPKDate produced.
 */
module Records {
  import opened Wrappers
  import opened JsText
  import opened Calendar
  import opened DateNormalizer

  /** The `aging` number: a whole count of days, or NaN. */
  datatype Aging = Days(days: int) | NotANumber

  /** One complaint (index.tsx:40-62). Every numeric field is a whole number here, and
      `aging` may also be NaN, which calculateAging can produce. */
  datatype Complaint = Complaint(
    id: string, workOrder: string, product: string, priority: string, regDate: string,
    complaintNo: string, status: string, techName: string, updateDate: string, remarks: string,
    model: string, serialNo: string, problemDescription: string, dop: string,
    customerName: string, phoneNo: string, address: string,
    aging: Aging, visitCharges: int, partsCharges: int, otherCharges: int)

  /** A `Partial<Complaint>`: `Some` for every key the object carries. */
  datatype Patch = Patch(
    id: Option<string>, workOrder: Option<string>, product: Option<string>,
    priority: Option<string>, regDate: Option<string>, complaintNo: Option<string>,
    status: Option<string>, techName: Option<string>, updateDate: Option<string>,
    remarks: Option<string>, model: Option<string>, serialNo: Option<string>,
    problemDescription: Option<string>, dop: Option<string>, customerName: Option<string>,
    phoneNo: Option<string>, address: Option<string>, aging: Option<Aging>,
    visitCharges: Option<int>, partsCharges: Option<int>, otherCharges: Option<int>)

  const NoChange: Patch := Patch(None, None, None, None, None, None, None, None, None, None, None,
                                 None, None, None, None, None, None, None, None, None, None)

  /** The patch `{ remarks: r }`. */
  function RemarksPatch(r: string): Patch {
    NoChange.(remarks := Some(r))
  }

  /** The patch `{ status: s }` the technician's buttons send. */
  function StatusPatch(s: string): Patch {
    NoChange.(status := Some(s))
  }

  function Pick<T>(v: Option<T>, current: T): T {
    if v.Some? then v.value else current
  }

  /** `{ ...c, ...p }`: a key the patch carries wins, every other key keeps its value. */
  function Merge(c: Complaint, p: Patch): Complaint {
    Complaint(
      Pick(p.id, c.id), Pick(p.workOrder, c.workOrder), Pick(p.product, c.product),
      Pick(p.priority, c.priority), Pick(p.regDate, c.regDate), Pick(p.complaintNo, c.complaintNo),
      Pick(p.status, c.status), Pick(p.techName, c.techName), Pick(p.updateDate, c.updateDate),
      Pick(p.remarks, c.remarks), Pick(p.model, c.model), Pick(p.serialNo, c.serialNo),
      Pick(p.problemDescription, c.problemDescription), Pick(p.dop, c.dop),
      Pick(p.customerName, c.customerName), Pick(p.phoneNo, c.phoneNo), Pick(p.address, c.address),
      Pick(p.aging, c.aging), Pick(p.visitCharges, c.visitCharges),
      Pick(p.partsCharges, c.partsCharges), Pick(p.otherCharges, c.otherCharges))
  }

  /** `{ ...c, ...partial, updateDate: today }`: the stamp comes last, so it wins even over
      an `updateDate` the patch carries. */
  function Apply(c: Complaint, p: Patch, today: string): (r: Complaint)
    ensures r.updateDate == today
    ensures r.(updateDate := c.updateDate) == Merge(c, p).(updateDate := c.updateDate)
  {
    Merge(c, p).(updateDate := today)
  }

  /** The empty patch changes nothing. */
  lemma MergeNothing(c: Complaint)
    ensures Merge(c, NoChange) == c
  {
  }

  /** Merging a patch twice is merging it once. */
  lemma MergeIdempotent(c: Complaint, p: Patch)
    ensures Merge(Merge(c, p), p) == Merge(c, p)
  {
  }

  /** A one-key patch changes that key alone. */
  lemma MergeRemarks(c: Complaint, r: string)
    ensures Merge(c, RemarksPatch(r)) == c.(remarks := r)
  {
  }

  lemma MergeStatus(c: Complaint, s: string)
    ensures Merge(c, StatusPatch(s)) == c.(status := s)
  {
  }

  // ---------------------------------------------------------------------
  // updateCase (index.tsx:605-609 in AdminDash, 367-371 in TechnicianDash)
  // ---------------------------------------------------------------------

  /** `all.map(c => c.id === id ? { ...c, ...partial, updateDate: today } : c)`. */
  function UpdateCase(cs: seq<Complaint>, id: string, p: Patch, today: string): (r: seq<Complaint>)
    ensures |r| == |cs|
    ensures forall i :: 0 <= i < |cs| && cs[i].id != id ==> r[i] == cs[i]
    ensures forall i :: 0 <= i < |cs| && cs[i].id == id ==>
      r[i].updateDate == today && r[i].(updateDate := cs[i].updateDate) == Merge(cs[i], p).(updateDate := cs[i].updateDate)
  {
    seq(|cs|, i requires 0 <= i < |cs| => if cs[i].id == id then Apply(cs[i], p, today) else cs[i])
  }

  /** Repeating an update with the same patch and stamp changes nothing more. */
  lemma UpdateCaseIdempotent(cs: seq<Complaint>, id: string, p: Patch, today: string)
    ensures UpdateCase(UpdateCase(cs, id, p, today), id, p, today) == UpdateCase(cs, id, p, today)
  {
    var once := UpdateCase(cs, id, p, today);
    var twice := UpdateCase(once, id, p, today);
    forall i | 0 <= i < |cs| ensures twice[i] == once[i] {
      if cs[i].id == id {
        MergeIdempotent(cs[i], p);
        assert once[i] == Merge(cs[i], p).(updateDate := today);
        if once[i].id == id {
          assert Merge(once[i], p) == Merge(Merge(cs[i], p), p).(updateDate := Pick(p.updateDate, today));
        }
      }
    }
  }

  /** The update works row by row, so it splits over a concatenation. */
  lemma UpdateCaseConcat(a: seq<Complaint>, b: seq<Complaint>, id: string, p: Patch, today: string)
    ensures UpdateCase(a + b, id, p, today) == UpdateCase(a, id, p, today) + UpdateCase(b, id, p, today)
  {
  }

  /** Without an `id` key in the patch, every record keeps its id. */
  lemma UpdateCaseKeepsIds(cs: seq<Complaint>, id: string, p: Patch, today: string)
    requires p.id.None?
    ensures forall i :: 0 <= i < |cs| ==> UpdateCase(cs, id, p, today)[i].id == cs[i].id
  {
  }

  /** The open case: replaced by the same merge when its id is the one updated. */
  function UpdateSelected(sel: Option<Complaint>, id: string, p: Patch, today: string): (r: Option<Complaint>)
    ensures sel.None? ==> r.None?
    ensures sel.Some? && sel.value.id != id ==> r == sel
    ensures sel.Some? && sel.value.id == id ==> r.Some? && r.value.updateDate == today
    ensures sel.Some? && sel.value.id == id ==> r.value == UpdateCase([sel.value], id, p, today)[0]
  {
    if sel.Some? && sel.value.id == id then Some(Apply(sel.value, p, today)) else sel
  }

  /** A case opened from the list stays equal to its row after the update. */
  lemma SelectedStaysInSync(cs: seq<Complaint>, i: nat, id: string, p: Patch, today: string)
    requires i < |cs|
    ensures UpdateSelected(Some(cs[i]), id, p, today) == Some(UpdateCase(cs, id, p, today)[i])
  {
  }

  // ---------------------------------------------------------------------
  // addTimestamp (index.tsx:378-383 and 616-620)
  // ---------------------------------------------------------------------

  /** `${remarks}\n[${now}]: ` */
  function TimestampedRemarks(remarks: string, stamp: string): (r: string)
    ensures StartsWith(r, remarks)
    ensures |r| == |remarks| + |stamp| + 5
    ensures r[|remarks|] == '\n' && r[|remarks| + 1] == '[' && r[|r| - 3..] == "]: "
    ensures r[|remarks| + 2..|r| - 3] == stamp
  {
    remarks + "\n[" + stamp + "]: "
  }

  /** addTimestamp: nothing without an open case; otherwise updateCase on the open case's id
      with its remarks followed by a stamped line. The stamp and the update time are two
      separate getPKDate(true) calls, so they are two parameters. */
  function AddTimestamp(cs: seq<Complaint>, sel: Option<Complaint>, stamp: string, today: string): (r: seq<Complaint>)
    ensures sel.None? ==> r == cs
    ensures |r| == |cs|
    ensures sel.Some? ==> forall i :: 0 <= i < |cs| ==>
      r[i] == if cs[i].id == sel.value.id
              then cs[i].(remarks := TimestampedRemarks(sel.value.remarks, stamp), updateDate := today)
              else cs[i]
  {
    if sel.None? then cs
    else
      var p := RemarksPatch(TimestampedRemarks(sel.value.remarks, stamp));
      var r := UpdateCase(cs, sel.value.id, p, today);
      assert forall i :: 0 <= i < |cs| && cs[i].id == sel.value.id ==>
        r[i] == Merge(cs[i], p).(updateDate := today);
      r
  }

  /** The remarks written come from the open case, not from the stored row: a row edited
      since the case was opened loses that edit. */
  lemma TimestampUsesOpenCase(c: Complaint, row: Complaint, stamp: string, today: string)
    requires c.id == row.id
    ensures AddTimestamp([row], Some(c), stamp, today)[0].remarks == TimestampedRemarks(c.remarks, stamp)
    ensures StartsWith(AddTimestamp([row], Some(c), stamp, today)[0].remarks, c.remarks)
  {
  }

  // ---------------------------------------------------------------------
  // AdminDash load (index.tsx:552-562)
  // ---------------------------------------------------------------------

  /** calculateAging's number as the record stores it. */
  function AgingOf(a: Option<int>): Aging {
    if a.Some? then Days(a.value) else NotANumber
  }

  /** One stored record as load cleans it: the three dates re-normalised and the aging
      computed from the stored registration text, not the re-normalised one. The aging is
      calculateAging as written, so it is NaN when that text builds an Invalid Date. */
  function Cleaned(c: Complaint, now: int, parse: FreeFormParser): (r: Complaint)
    ensures r.(regDate := c.regDate, updateDate := c.updateDate, dop := c.dop, aging := c.aging) == c
    ensures r.aging.NotANumber? <==> ParseStandardDate(c.regDate) == Some(Invalid)
    ensures r.aging.Days? ==> r.aging.days >= 0 && r.aging.days == CalculateAging(c.regDate, now)
    ensures r.regDate == StandardizeDate(Str(c.regDate), true, parse)
    ensures r.updateDate == StandardizeDate(Str(c.updateDate), true, parse)
    ensures r.dop == StandardizeDate(Str(c.dop), false, parse)
  {
    AgingAgrees(c.regDate, now);
    c.(regDate := StandardizeDate(Str(c.regDate), true, parse),
       updateDate := StandardizeDate(Str(c.updateDate), true, parse),
       dop := StandardizeDate(Str(c.dop), false, parse),
       aging := AgingOf(CalculateAgingAsWritten(c.regDate, now)))
  }

  function Load(raw: seq<Complaint>, now: int, parse: FreeFormParser): (r: seq<Complaint>)
    ensures |r| == |raw|
    ensures forall i :: 0 <= i < |raw| ==> r[i] == Cleaned(raw[i], now, parse)
  {
    seq(|raw|, i requires 0 <= i < |raw| => Cleaned(raw[i], now, parse))
  }

  /** Each cleaned date is empty, the stored text itself, or canonical text. */
  lemma LoadedDateShape(raw: seq<Complaint>, now: int, parse: FreeFormParser, i: nat)
    requires i < |raw|
    ensures var c, r := raw[i], Load(raw, now, parse)[i];
      && (r.dop == "" || r.dop == c.dop || exists t :: ValidTime(t) && r.dop == Render(t, false))
      && (r.regDate == "" || r.regDate == c.regDate || exists t :: ValidTime(t) && r.regDate == Render(t, true))
      && (r.updateDate == "" || r.updateDate == c.updateDate || exists t :: ValidTime(t) && r.updateDate == Render(t, true))
  {
    var c := raw[i];
    assert Text(Str(c.dop)) == c.dop && Text(Str(c.regDate)) == c.regDate && Text(Str(c.updateDate)) == c.updateDate;
  }

  /** Stored date text that re-normalises: blank, unreadable, or read as a date whose year has
      at least three digits. */
  predicate Renormalizes(s: string, parse: FreeFormParser) {
    Normalize(Str(s), parse).Parsed? ==> DateOf(Normalize(Str(s), parse).t).year >= 100
  }

  /** Loading loaded records leaves their dates as they were. */
  lemma LoadDatesStable(raw: seq<Complaint>, now: int, parse: FreeFormParser)
    requires forall i :: 0 <= i < |raw| ==>
      Renormalizes(raw[i].regDate, parse) && Renormalizes(raw[i].updateDate, parse) && Renormalizes(raw[i].dop, parse)
    ensures var once := Load(raw, now, parse); var twice := Load(once, now, parse);
      forall i :: 0 <= i < |raw| ==>
        twice[i].regDate == once[i].regDate && twice[i].updateDate == once[i].updateDate && twice[i].dop == once[i].dop
  {
    var once := Load(raw, now, parse);
    var twice := Load(once, now, parse);
    forall i | 0 <= i < |raw|
      ensures twice[i].regDate == once[i].regDate && twice[i].updateDate == once[i].updateDate
      ensures twice[i].dop == once[i].dop
    {
      StandardizeIdempotent(Str(raw[i].regDate), true, parse);
      StandardizeIdempotent(Str(raw[i].updateDate), true, parse);
      StandardizeIdempotent(Str(raw[i].dop), false, parse);
    }
  }

  /** A stored registration text without a dash has no aging, whatever the date it holds. */
  lemma LoadAgingNeedsDashes(raw: seq<Complaint>, now: int, parse: FreeFormParser, i: nat)
    requires i < |raw| && '-' !in raw[i].regDate
    ensures Load(raw, now, parse)[i].aging == Days(0)
  {
    NoDashNoDate(raw[i].regDate);
  }

  /** A stored registration text of three `-` pieces that are not numbers loads with NaN
      aging. */
  lemma LoadAgingOfMalformedDate(raw: seq<Complaint>, now: int, parse: FreeFormParser, i: nat)
    requires i < |raw| && raw[i].regDate == "a-b-c"
    ensures Load(raw, now, parse)[i].aging == NotANumber
  {
    AgingOfMalformedDate(now);
  }

  /** Text without a dash splits into one dash piece, so parseStandardDate gives null. */
  lemma NoDashNoDate(s: string)
    requires '-' !in s
    ensures ParseStandardDate(s).None?
  {
    if s != "" {
      var pureDate := SplitChar(s, ' ')[0];
      SplitCharPrefix(s, ' ');
      assert pureDate == s[..|pureDate|];
      assert '-' !in pureDate by {
        forall k | 0 <= k < |pureDate| ensures pureDate[k] != '-' {
          assert pureDate[k] == s[k];
        }
      }
      SplitCharSingle(pureDate, '-');
    }
  }

  /** The first piece of a split is a prefix of the text. */
  lemma SplitCharPrefix(s: string, c: char)
    ensures SplitChar(s, c) != [] && |SplitChar(s, c)[0]| <= |s| && SplitChar(s, c)[0] == s[..|SplitChar(s, c)[0]|]
  {
    var r := SplitChar(s, c);
    if |r| > 1 {
      assert s == r[0] + ([c] + JoinWith(r[1..], c));
    }
  }

  // ---------------------------------------------------------------------
  // getProduct (index.tsx:20-24)
  // ---------------------------------------------------------------------

  /** The upper-cased, trimmed model text both lookups key on. */
  function Key(s: string): string {
    Trim(Upper(s))
  }

  predicate IsSpinner(m: string) {
    Contains(m, "SD-555") || Contains(m, "SUPER SPIN")
  }

  /** The product family of a model: SPINNER for the two spinner names anywhere in the model,
      otherwise the table's entry, with GENERAL for a missing or empty entry. Keys of the
      table are looked up as own properties: the upper-cased key can never name one of the
      lower-case members every object inherits. */
  function GetProduct(model: string, table: map<string, string>): (r: string)
    ensures r != ""
    ensures r == "SPINNER" <==> IsSpinner(Key(model)) || (Key(model) in table && table[Key(model)] == "SPINNER")
    ensures !IsSpinner(Key(model)) && Key(model) in table && table[Key(model)] != "" ==> r == table[Key(model)]
    ensures !IsSpinner(Key(model)) && (Key(model) !in table || table[Key(model)] == "") ==> r == "GENERAL"
  {
    var m := Key(model);
    if IsSpinner(m) then "SPINNER"
    else if m in table && table[m] != "" then table[m]
    else "GENERAL"
  }

  lemma UpperOfLower(s: string)
    ensures Upper(Lower(s)) == Upper(s)
  {
  }

  /** The lookup ignores letter case. */
  lemma GetProductIgnoresCase(model: string, table: map<string, string>)
    ensures GetProduct(Lower(model), table) == GetProduct(model, table)
    ensures GetProduct(Upper(model), table) == GetProduct(model, table)
  {
    KeyIgnoresCase(model);
  }

  lemma KeyIgnoresCase(model: string)
    ensures Key(Lower(model)) == Key(model) && Key(Upper(model)) == Key(model)
  {
    UpperOfLower(model);
    assert Upper(Upper(model)) == Upper(model);
  }

  // ---------------------------------------------------------------------
  // matchTechnician (index.tsx:26-35)
  // ---------------------------------------------------------------------

  datatype Technician = Technician(name: string, importKey: string)

  /** The roster test: either name contains the other (upper-cased), or the import key
      contains the typed name. */
  predicate Resembles(t: Technician, name: string) {
    Contains(Upper(t.name), name) || Contains(name, Upper(t.name)) || Contains(Upper(t.importKey), name)
  }

  /** Array.prototype.find: the index of the first technician that resembles the name. */
  function FindTechnician(roster: seq<Technician>, name: string): (r: Option<nat>)
    ensures r.Some? ==> r.value < |roster| && Resembles(roster[r.value], name)
    ensures r.Some? ==> forall j :: 0 <= j < r.value ==> !Resembles(roster[j], name)
    ensures r.None? ==> forall j :: 0 <= j < |roster| ==> !Resembles(roster[j], name)
    decreases |roster|
  {
    if roster == [] then None
    else if Resembles(roster[0], name) then Some(0)
    else
      var rest := FindTechnician(roster[1..], name);
      if rest.Some? then Some(rest.value + 1) else None
  }

  predicate IsUnassignedName(name: string) {
    name == "" || name == "UNASSIGNED" || name == "---"
  }

  /** The technician an imported row names: UNASSIGNED for a blank, UNASSIGNED or --- entry,
      the first resembling roster name, or else the typed name upper-cased and trimmed. */
  function MatchTechnician(input: string, roster: seq<Technician>): (r: string)
    ensures IsUnassignedName(Key(input)) ==> r == "UNASSIGNED"
    ensures !IsUnassignedName(Key(input)) ==>
      (exists j :: 0 <= j < |roster| && Resembles(roster[j], Key(input)) && r == roster[j].name
         && forall k :: 0 <= k < j ==> !Resembles(roster[k], Key(input)))
      || ((forall j :: 0 <= j < |roster| ==> !Resembles(roster[j], Key(input))) && r == Key(input))
  {
    var name := Key(input);
    if IsUnassignedName(name) then "UNASSIGNED"
    else
      match FindTechnician(roster, name)
      case Some(j) => roster[j].name
      case None => name
  }

  /** A roster name typed exactly, with no earlier technician resembling it, finds itself. */
  lemma RosterNameFindsItself(roster: seq<Technician>, i: nat)
    requires i < |roster|
    requires Upper(roster[i].name) == roster[i].name && Trim(roster[i].name) == roster[i].name
    requires !IsUnassignedName(roster[i].name)
    requires forall k :: 0 <= k < i ==> !Resembles(roster[k], roster[i].name)
    ensures MatchTechnician(roster[i].name, roster) == roster[i].name
  {
    var n := roster[i].name;
    assert Key(n) == n;
    assert OccursAt(n, n, 0);
    assert Resembles(roster[i], n);
  }
}

=== FILE: technician.dfy ===
/**
 * The technician's terminal: the jobs assigned to the signed-in technician, the status
 * tabs over them, the daily goal, and the update that writes through to the stored
 * collection and then re-reads the technician's share of it.
 */
module TechnicianView {
  import opened Wrappers
  import opened JsText
  import opened Collections
  import opened Records
  import opened Dashboard

  /** The filter "assigned to `me`". */
  function AssignedTo(me: string): Complaint -> bool {
    (c: Complaint) => c.techName == me
  }

  /** `raw.filter(c => c.techName === user.name)` (index.tsx:361-365, 372). */
  function MyJobs(cs: seq<Complaint>, me: string): (r: seq<Complaint>)
    ensures IsSubsequence(r, cs)
    ensures forall i :: 0 <= i < |r| ==> r[i].techName == me
    ensures forall i :: 0 <= i < |cs| && cs[i].techName == me ==> cs[i] in r
    ensures forall x :: multiset(r)[x] == if x.techName == me then multiset(cs)[x] else 0
  {
    FilterIsSubsequence(cs, AssignedTo(me));
    FilterCounts(cs, AssignedTo(me));
    Filter(cs, AssignedTo(me))
  }

  /** The filter behind the tabs: everything under 'ALL', otherwise that status alone. */
  function HasTab(tab: string): Complaint -> bool {
    (c: Complaint) => tab == "ALL" || c.status == tab
  }

  /** `complaints.filter(c => filter === 'ALL' || c.status === filter)` (index.tsx:385). */
  function StatusView(jobs: seq<Complaint>, tab: string): (r: seq<Complaint>)
    ensures IsSubsequence(r, jobs)
    ensures tab == "ALL" ==> r == jobs
    ensures tab != "ALL" ==> forall i :: 0 <= i < |r| ==> r[i].status == tab
    ensures forall i :: 0 <= i < |jobs| && jobs[i].status == tab ==> jobs[i] in r
    ensures forall x :: multiset(r)[x] == if tab == "ALL" || x.status == tab then multiset(jobs)[x] else 0
  {
    FilterIsSubsequence(jobs, HasTab(tab));
    FilterCounts(jobs, HasTab(tab));
    if tab == "ALL" then
      FilterAll(jobs, HasTab(tab));
      Filter(jobs, HasTab(tab))
    else
      Filter(jobs, HasTab(tab))
  }

  /** The daily goal: how many of my jobs were touched or registered today, and how many
      of those are completed or verified. */
  datatype Goal = Goal(total: nat, done: nat)

  /** index.tsx:386-391; the goal bar it feeds (index.tsx:412) never runs past its track. */
  function TodayGoal(jobs: seq<Complaint>, today: string): (r: Goal)
    ensures r.done <= r.total <= |jobs|
    ensures Share(r.done, r.total).num <= 100 * Share(r.done, r.total).den
    ensures r.total == |TodayList(jobs, today)|
    ensures r.done == Count(TodayList(jobs, today), IsDone)
  {
    var tJobs := TodayList(jobs, today);
    Goal(|tJobs|, Count(tJobs, IsDone))
  }

  /** updateCase on the terminal (index.tsx:367-372): the stored collection is updated and
      saved, and the technician's list becomes the updated collection's jobs for `me`. The
      stored collection is a parameter. */
  function TechUpdate(stored: seq<Complaint>, me: string, id: string, p: Patch, today: string): (r: seq<Complaint>)
    ensures forall i :: 0 <= i < |r| ==> r[i].techName == me
  {
    MyJobs(UpdateCase(stored, id, p, today), me)
  }

  /** My jobs among a first record and the rest. */
  lemma MyJobsCons(x: Complaint, s: seq<Complaint>, me: string)
    ensures MyJobs([x] + s, me) == (if x.techName == me then [x] else []) + MyJobs(s, me)
  {
    assert ([x] + s)[1..] == s;
  }

  /** When the patch leaves the technician alone, updating the whole collection and then
      taking my jobs is updating my jobs: nobody else's rows can enter my list. */
  lemma {:induction false} TechUpdateCommutes(stored: seq<Complaint>, me: string, id: string, p: Patch, today: string)
    requires p.techName.None?
    ensures TechUpdate(stored, me, id, p, today) == UpdateCase(MyJobs(stored, me), id, p, today)
    decreases |stored|
  {
    if stored != [] {
      var x, rest := stored[0], stored[1..];
      assert stored == [x] + rest;
      TechUpdateCommutes(rest, me, id, p, today);
      var ux := UpdateCase([x], id, p, today);
      UpdateCaseConcat([x], rest, id, p, today);
      MyJobsCons(ux[0], UpdateCase(rest, id, p, today), me);
      MyJobsCons(x, rest, me);
      var head := if x.techName == me then [x] else [];
      UpdateCaseConcat(head, MyJobs(rest, me), id, p, today);
      assert ux == [ux[0]];
      assert UpdateCase(head, id, p, today) == if x.techName == me then ux else [];
    }
  }

  /** Reassigning a case to someone else takes it off my list. */
  lemma ReassignedLeaves(stored: seq<Complaint>, me: string, id: string, p: Patch, today: string)
    requires p.techName.Some? && p.techName.value != me && p.id.None?
    ensures forall i :: 0 <= i < |TechUpdate(stored, me, id, p, today)| ==> TechUpdate(stored, me, id, p, today)[i].id != id
  {
    var u := UpdateCase(stored, id, p, today);
    var r := TechUpdate(stored, me, id, p, today);
    forall i | 0 <= i < |r| ensures r[i].id != id {
      assert r[i] in u;
    }
  }
}

=== FILE: wrappers.dfy ===
/** The optional-value datatype shared by the model: None stands for JavaScript's
    null, or for NaN where a numeric result may be NaN. */
module Wrappers {

  datatype Option<+T> = None | Some(value: T)
}
